=== FILE: README.md ===
# golib core in Dafny

This project models the core of the Go library `zngw/golib` and proves properties of the model:

- **The leveled logger.** This covers its `Option` configuration, the `log` pipeline, the console sink that colours level prefixes, and the rotating log file. Pipeline steps:
  - a level threshold;
  - a tag taken from the format string;
  - a tag filter;
  - a timestamp;
  - a level prefix;
  - an optional `[file:line]` caller prefix;
  - hand-off to the sink.
- **The rotating file sink.** It opens the log file lazily and rotates it by renaming it to `<stem>.<YYYYMMDD-HHMMSS><ext>`. It then prunes backups older than `MaxDays` days, telling them apart by the time stamped in their names.
- **PKCS#5/PKCS#7 padding.** This is the padding the library applies around AES, as described in section 6.1.1 of RFC 8018 and section 10.3 of RFC 2315.
- **Three lock-guarded containers:**
  - `zmap.Map`, a map;
  - `zslice.Slice`, a slice;
  - `set.Set`, a set with an `int32` member counter.

Each Go object becomes an immutable Dafny value, and each operation becomes a function from the old value to the new one. Methods are used where the source loops. Details of the modelling:

- **Filesystem.** A `map<string, Entry>` from path to a regular file (its bytes and permission bits) or a directory. A directory's contents are the paths beneath it.
- **Bytes.** Log lines are text; the logger hands a sink their UTF-8 form (`[]byte(outMsg)`), and file contents and write counts are in bytes.
- **Operating-system failures.** Every filesystem call that can fail takes its outcome from a `Faults` record, including how many bytes a failing write stores.
- **Time.** The current time is an explicit instant, in milliseconds of local time. Backup times and the pruning cutoff are compared in nanoseconds, as Go's `time.Time` compares them, and the retention window is a 64-bit `time.Duration` that wraps around.
- **Foreign calls.** Go's `fmt.Sprintf`, `fmt.Sprint` and `runtime.Caller` are fields of an `Env` record passed in by the caller.

Modules:

| module | what it covers |
|---|---|
| `Levels` | `Level` names, prefixes, parsing and the threshold |
| `Tags` | the tag filter |
| `Console` | the colouring console sink |
| `RotateFile` | the rotating file sink |
| `Logging` | `Logger`, `Option`, `New`, `WithOptions`, `clone`, `log`, `getMessage` and `getCallerPrefix` |
| `Pkcs5` | padding |
| `ZMap`, `ZSlice`, `ZSet` | the containers |

Support modules model the standard-library pieces the core relies on:

| module | standard-library piece |
|---|---|
| `Text` | `strings` and `strconv` |
| `Paths` | `path/filepath` |
| `CivilTime` | the two `time` layouts the sink writes and reads |
| `Bytes` | `byte` and the UTF-8 form of a string (section 3 of RFC 3629) |
| `Wrappers`, `Arith` | `Option`/`Result` and two modular-arithmetic facts |

## Model

| member | source | states |
|---|---|---|
| Levels.LevelOrder | log/level.go:14-20 | The five named levels are numbered from 1 in increasing order, and they are the only known levels. |
| Levels.EnabledMonotone | log/level.go:109-111 | A threshold lets a level through exactly when the level is at or above it; raising the threshold never lets more through. |
| Levels.ParseName | log/level.go:35-50 | Parsing the lower-case name that `String` gives a known level returns that level. |
| Levels.ParseUpperName | log/level.go:90-106 | The upper-case spelling of each known level parses back to that level. |
| Levels.UnknownNameFails | log/level.go:35-50 | A value outside 1..5 prints as `Level(n)`, and that text does not parse. |
| Levels.ParseCaseInsensitive | log/level.go:80-88 | Parsing succeeds on a text exactly when it succeeds on its lower-cased form, with the same level. |
| Levels.ParseAccepts | log/level.go:80-106 | Parsing accepts exactly the texts that lower-case to `trace`, `debug`, `info`, `warn`, `error` or the empty string; the empty text is Info; every accepted level is known. |
| Levels.LookupTable | log/level.go:90-106 | The exact-match table maps both spellings of each name, and the empty text, to the intended level. |
| Levels.LookupLower | log/level.go:80-88 | Any text the exact-match table accepts is accepted with the same level after lower-casing, so the fallback never changes an answer. |
| Levels.LogPrefixShape | log/level.go:52-67 | A known level's prefix is `[X] ` where X is the upper-case initial of its name; any other value has an empty prefix. |
| Levels.ToLowerIdempotent | log/level.go:80-88 | Lower-casing twice is the same as lower-casing once. |
| Levels.LowerInitial | log/level.go:90-106 | A text that lower-casing leaves unchanged does not start with an upper-case letter. |
| Levels.DottedCapitalInfo | log/level.go:80-106 | `İNFO` and `İnfo` are not in the table, but the dotted capital I lower-cases to `i`, so both parse as Info. |
| Levels.TableLower | log/level.go:90-106 | Each upper-case table entry lower-cases to its lower-case partner, and lower-case entries are unchanged. |
| Tags.GetTag | log/tags.go:7-23 | An untagged message always passes with no prefix. A tagged one passes exactly when the filter is empty or holds the tag, and then gets the `[Tag:t] ` prefix. A rejected message gets no prefix. |
| Tags.ParseTags | log/tags.go:25-37 | The empty string gives the empty filter; otherwise the filter holds exactly the comma-separated pieces, empty pieces included. |
| Tags.ParseTagsPieces | log/tags.go:25-37 | No tag in a parsed filter contains a comma, and re-joining the pieces with commas gives back the original text. |
| Tags.ParseJoinedTags | log/tags.go:25-37 | Joining comma-free tags with commas and parsing the result gives exactly the set of those tags. |
| Tags.SingleTagFilter | log/tags.go:7-37 | With the filter parsed from `sys`, exactly untagged messages and messages tagged `sys` pass. |
| Console.NewBrush | log/output_console.go:13-19 | A brush for a code wraps any text in the ANSI escape for that code and the reset escape. |
| Console.EmptyBrush | log/output_console.go:21-23 | The empty brush leaves every text unchanged. |
| Console.BrushTable | log/output_console.go:25-48 | Trace is uncoloured; Debug, Info, Warn and Error get cyan, blue, yellow and red bold; any other value is painted like Info. |
| Console.WriteLog | log/output_console.go:72-78 | The reported count is the number of bytes in the UTF-8 form of the text written, between one and four per character. Without colour the line is written unchanged. |
| Console.ColoredFirstOccurrence | log/output_console.go:72-78 | With colour on, only the first occurrence of the level's prefix is replaced by its painted copy, which adds 11 characters. |
| Console.ColoredByteCount | log/output_console.go:72-78 | When a named level's prefix is painted, the count is the line's own UTF-8 byte length plus the 11 bytes of the escape codes. |
| Console.PrefixBytes | log/output_console.go:72-78 | A named level's prefix is 4 bytes and its painted copy 15, since both are ASCII. |
| Console.UncoloredWhenAbsent | log/output_console.go:72-78 | A Trace line, or a line that does not contain its level's prefix, is written unchanged. |
| Console.UnknownLevelColoring | log/output_console.go:72-78 | For an unknown level the empty prefix matches at the start, so a painted empty string comes before the line. |
| Console.CloseLog | log/output_console.go:80-82 | Closing a console sink changes nothing. |
| RotateFile.New | log/output_rotatefile.go:40-49 | An empty file name becomes `file.log` and the rest of the configuration is kept. Nothing is opened, the cancellation channel is live, and no task runs. |
| RotateFile.Init | log/output_rotatefile.go:51-61 | The channel is renewed; a daily-rotation task is scheduled exactly in daily mode; the file handle is kept. |
| RotateFile.ParseTimeFromBackupName | log/output_rotatefile.go:158-170 | A name without the prefix, without the extension, or with no room between them has no backup time; otherwise the time is what the stamp between them parses to, in nanoseconds. |
| RotateFile.ParseStamped | log/output_rotatefile.go:158-170 | The time read from prefix, stamp and extension is exactly the nanosecond parse of the stamp, optional fractional second included. |
| RotateFile.StampedBase | log/output_rotatefile.go:148-156 | The base name of a stamped backup is the backup prefix, then the stamp, then the extension. |
| RotateFile.BackupBase | log/output_rotatefile.go:148-156 | The base name of the backup of `name` at time `t` is the backup prefix, the 15-or-more-character stamp of `t`, and the extension. |
| RotateFile.StampRoundTrip | log/output_rotatefile.go:146-170 | Reading the time back from a backup stamped with a valid date and time in years 0-9999 gives that date and time, to the nanosecond. |
| RotateFile.StampedRoundTrip | log/output_rotatefile.go:146-170 | Stamping an instant's reading and parsing it back gives the instant the reading denotes, in nanoseconds. |
| RotateFile.FractionalBackupTime | log/output_rotatefile.go:158-170 | A backup stamp followed by `.` or `,` and digits still reads as a backup; its time is the stamped instant plus the fraction and lies within that second. |
| RotateFile.FractionalStamped | log/output_rotatefile.go:158-170 | Between any prefix and extension, a formatted stamp with an accepted fraction reads as the stamped instant plus the fraction. |
| RotateFile.BackupNameRoundTrip | log/output_rotatefile.go:146-170 | The time parsed back from the backup name of instant `t` is `t` truncated to the second, as the layout writes no sub-second field. |
| RotateFile.BackupNameIsStamped | log/output_rotatefile.go:148-156 | A backup name is the stamped name built from the formatted reading of its instant. |
| RotateFile.ActiveFileIsNoBackup | log/output_rotatefile.go:204-228 | The active log file's own name never parses as a backup, so pruning never selects it. |
| RotateFile.BackupNameIsNotActive | log/output_rotatefile.go:129-136 | The rename target differs from the log file's own path. |
| RotateFile.DirChain | log/output_rotatefile.go:123 | The directories `MkdirAll` needs are prefixes of the directory path. |
| RotateFile.MakeDirs | log/output_rotatefile.go:123-126 | Creating the directories keeps every existing entry, adds only directories of the chain, and makes each missing one a directory with bits 0o755. |
| RotateFile.MakeDirsIdle | log/output_rotatefile.go:123-126 | When every directory of the chain exists, creating them changes nothing. |
| RotateFile.ChainShorter | log/output_rotatefile.go:123 | Every directory `MkdirAll` makes for a log path is shorter than the path, so it is never the log file itself. |
| RotateFile.Reroot | log/output_rotatefile.go:134 | A path beneath the renamed entry lands beneath the new name, and the entry itself lands on the new name. |
| RotateFile.RerootInjective | log/output_rotatefile.go:134 | Two paths beneath the renamed entry never land on the same path. |
| RotateFile.MoveTree | log/output_rotatefile.go:134 | Renaming carries the entry and everything beneath it to the same place beneath the new name; entries beneath neither name stay; every entry not beneath the new name was there before, beneath neither name. |
| RotateFile.RerootChild | log/output_rotatefile.go:134 | The child `from/c` of a renamed entry lands at `to/c`. |
| RotateFile.SiblingNotBeneath | log/output_rotatefile.go:134 | For two different slash-free names, neither the first nor a path beneath it lies beneath the second. |
| RotateFile.MoveTreeSibling | log/output_rotatefile.go:134 | Renaming a slash-free directory to another slash-free name moves it and its child, leaving nothing at the old paths. |
| RotateFile.OpenNew | log/output_rotatefile.go:122-144 | It fails exactly when no file ends up open. A failed directory creation, or a regular file standing where a directory is needed, fails and changes nothing. On success the log path is an empty regular file. |
| RotateFile.ReplaceLogFile | log/output_rotatefile.go:128-143 | Once the directories exist, the step fails exactly when no file ends up open; on success the log path is an empty regular file. |
| RotateFile.OpenNewRenames | log/output_rotatefile.go:122-144 | With no failure and an entry at the log path, the disk afterwards is the directories made, with the entry's tree moved to the backup name and an empty file with the entry's bits at the log path. |
| RotateFile.OpenNewBacksUp | log/output_rotatefile.go:128-143 | A regular file at the log path moves to the backup name unchanged, and an empty file with its permission bits replaces it. |
| RotateFile.OpenNewMovesTree | log/output_rotatefile.go:128-143 | A directory at the log path moves to the backup name with its children, and none stays behind; an empty file with the directory's bits then takes the path. |
| RotateFile.BackupLonger | log/output_rotatefile.go:146-156 | A backup name is longer than the log path, so neither lies beneath the other. |
| RotateFile.StampedLonger | log/output_rotatefile.go:146-156 | A stamped name with a stamp of two or more characters is longer than the log path. |
| RotateFile.JoinLonger | log/output_rotatefile.go:146-156 | A piece at least three longer than the base, joined to the path's directory, gives a longer path. |
| RotateFile.BaseOfLastElement | log/output_rotatefile.go:146-156 | Without a trailing slash, the base of a path is everything after its last slash. |
| RotateFile.BackupNameSlashFree | log/output_rotatefile.go:146-156 | A log path without a slash has a backup name without a slash. |
| RotateFile.SlashFreeName | log/output_rotatefile.go:123 | A slash-free log path lies in `.`, is its own base, and needs no directory created. |
| RotateFile.OpenExistingOrNew | log/output_rotatefile.go:105-120 | It fails exactly when no file ends up open; on success the log path is a regular file. |
| RotateFile.WriteLog | log/output_rotatefile.go:67-79 | It keeps the writer invariant. The count lies between 0 and the number of bytes in `p`. On success all of `p` is counted and the file is open; if the file could not be opened the count is 0. On an already-open file only the log path changes, and it gains exactly the counted prefix of `p`. |
| RotateFile.WriteLogAppends | log/output_rotatefile.go:67-79 | A first write to an existing log file opens it for append, adds the bytes of `p` after its contents, counts all of them and keeps its permissions. |
| RotateFile.WriteLogOpen | log/output_rotatefile.go:67-79 | A write to an open file with no write error appends the bytes of `p`, reports their number, and changes nothing else. |
| RotateFile.WriteLogShort | log/output_rotatefile.go:67-79 | A write that fails part-way keeps the file open, reports the error, and stores and counts only the leading bytes the failing write reports, which may end inside a multi-byte character. |
| RotateFile.WriteLogCreates | log/output_rotatefile.go:67-144 | A first write when no log file exists makes the missing directories on its path with bits 0o755 and creates the file with mode 0o600 holding exactly the bytes of `p`; nothing else changes. |
| RotateFile.WriteLogMakesDirectory | log/output_rotatefile.go:67-144 | On an empty disk, the first write to `logs/app.log` leaves exactly the directory `logs` and the file holding `p`. |
| RotateFile.WriteRotateWrite | log/output_rotatefile.go:67-144 | For any byte contents, a write, a rotation and another write leave `b` in the log file; for retentions up to `MaxRetentionDays` they leave `a` in the backup named for the rotation time, with mode 0o600. |
| RotateFile.CloseFile | log/output_rotatefile.go:275-282 | The handle is dropped whether or not closing fails; closing with no handle does nothing and reports no error. |
| RotateFile.Close | log/output_rotatefile.go:265-273 | The channel is closed, the rotation goroutine stops and the handle is dropped. An error comes only from closing an open file. |
| RotateFile.CloseLog | log/output_rotatefile.go:81-86 | Closing the log leaves the writer closed, whatever error occurred. |
| RotateFile.CloseIdempotent | log/output_rotatefile.go:265-282 | Closing an already-closed writer changes nothing and reports no error. |
| RotateFile.ClearFiles | log/output_rotatefile.go:236-263 | Pruning only removes paths and never changes any file's contents. Nothing happens when pruning is off or the directory cannot be read. |
| RotateFile.ClearFilesRemoves | log/output_rotatefile.go:236-263 | A path is removed exactly when pruning is on, the directory can be read, the path is a backup stamped before the cutoff, and its removal does not fail. |
| RotateFile.ClearFilesKeeps | log/output_rotatefile.go:215-228 | Directories, entries outside the log's directory, names that do not parse as backups, and the log file itself survive pruning. |
| RotateFile.ClearFilesKeepsRecent | log/output_rotatefile.go:250-256 | A backup stamped at or after the cutoff survives pruning. |
| RotateFile.RetentionExample | log/output_rotatefile.go:250-261 | With a 7-day retention, a backup stamped 10 days ago is removed and one stamped 2 days ago is kept. |
| RotateFile.InsertByTime | log/output_rotatefile.go:230-232 | Inserting a backup into the list adds exactly one entry. |
| RotateFile.InsertByTimeMembers | log/output_rotatefile.go:230-232 | The list after insertion holds exactly the new backup and the old entries. |
| RotateFile.InsertByTimeSorted | log/output_rotatefile.go:230-232 | Insertion keeps a time-ordered list time-ordered. |
| RotateFile.OldLogFiles | log/output_rotatefile.go:204-234 | It fails, returning nothing, exactly when the directory cannot be read. Otherwise it returns every backup candidate once, in time order. |
| RotateFile.Rotate | log/output_rotatefile.go:88-103 | It keeps the writer invariant and the schedule, and reports an error exactly when no file is left open. |
| RotateFile.RotateBacksUp | log/output_rotatefile.go:94-144 | With no failures, a fresh empty log with the old permissions replaces the log. If the backup for the current time survives, it holds the old log; for retentions up to `MaxRetentionDays` it always survives. |
| RotateFile.RotateDropsFreshBackup | log/output_rotatefile.go:94-144 | In daily mode with a retention just past `MaxRetentionDays` days, the rotation succeeds but its own pruning pass deletes the fresh backup, unless that removal fails. |
| RotateFile.RotateRenameFails | log/output_rotatefile.go:122-136 | When the rename fails, rotation reports an error and leaves no file open. No existing entry changes; the only new entries are directories `MkdirAll` made on the log's path, and when those all existed the disk is exactly as before. |
| RotateFile.FreshBackupNotExpired | log/output_rotatefile.go:250-256 | For retentions up to `MaxRetentionDays`, the backup just made by a rotation is never old enough to be pruned in the same pass. |
| RotateFile.FreshBackupExpiredWhenWrapped | log/output_rotatefile.go:250-256 | For retentions just past `MaxRetentionDays`, the wrapped cutoff lies after the current time, so the backup just made is expired. |
| RotateFile.FreshBackupExpires | log/output_rotatefile.go:215-256 | In a clean directory, a regular file at the fresh backup's name is a backup the wrapped cutoff expires. |
| RotateFile.BackupInLogDir | log/output_rotatefile.go:146-156 | A backup name lies directly in the log file's directory, when that directory is in clean form. |
| RotateFile.RetentionOffset | log/output_rotatefile.go:251 | Negating the retention and multiplying it by 24 and by an hour, wrapping to 64 bits at each step, equals the whole product in nanoseconds wrapped once. |
| RotateFile.Wrap64Mul | log/output_rotatefile.go:251 | Wrapping a factor to 64 bits before a multiplication or the product after it gives the same result. |
| RotateFile.CutoffExact | log/output_rotatefile.go:251 | For retentions up to `MaxRetentionDays` days the cutoff is exactly that many days before now, plus 5 ms. |
| RotateFile.CutoffWrapsToFuture | log/output_rotatefile.go:251 | For retentions from `MaxRetentionDays` + 1 to twice that plus one, the offset wraps by 2^64 ns and the cutoff lies after now. |
| RotateFile.PruneBackups | log/output_rotatefile.go:236-263 | It reports an error exactly when pruning is on and the directory cannot be read. The resulting filesystem is exactly what `ClearFiles` describes. |
| RotateFile.RemoveStamped | log/output_rotatefile.go:249-261 | Removing the listed backups leaves the filesystem minus exactly the paths of backups before the cutoff whose removal does not fail. |
| RotateFile.RemovedPaths | log/output_rotatefile.go:259-261 | A path whose removal fails is never among the removed paths. |
| RotateFile.RemovedPathsMeaning | log/output_rotatefile.go:249-261 | A path is removed exactly when some listed backup is stamped before the cutoff, joins to that path, and its removal does not fail. |
| RotateFile.RemovedByCandidates | log/output_rotatefile.go:204-256 | For a list holding exactly the backup candidates, the paths selected for removal are exactly the expired ones whose removal does not fail. |
| RotateFile.PruneMatchesClearFiles | log/output_rotatefile.go:236-263 | Removing the old entries listed from the directory gives the same filesystem as `ClearFiles`. |
| Logging.NewSink | log/options.go:15-35 | `""` and `console` select a console sink, coloured unless colour is disabled. Any other path selects a daily-rotating file sink with that path and retention, not yet open and with its task started. |
| Logging.CloseSink | log/options.go:16-20 | Closing a console sink changes nothing; closing a file sink leaves it closed with no task. |
| Logging.WithOptions | log/log.go:50-86 | Four rules update the logger. The sink is replaced exactly when there is none or a path is given, and the old sink is closed if it implements `writer`. The level changes only for a non-empty text that parses. Tags are always re-parsed and the caller switch always follows the option. The caller skip changes only when it is positive. |
| Logging.New | log/log.go:33-47 | A new logger always has a sink and a non-zero level. |
| Logging.NewDefaults | log/log.go:33-47 | With no option a logger writes to standard output at Trace, with no tags and no caller prefix. |
| Logging.NewWithOption | log/log.go:33-47 | With an option a logger uses the option's sink, its level when the level parses, and Trace otherwise. |
| Logging.WithOptionsIdempotent | log/options.go:14-49 | Applying the same option twice gives the same logger as applying it once. |
| Logging.SwitchToFile | log/log.go:50-72 | Switching from a file sink to another file closes the old sink and installs an unopened daily sink at the new path. |
| Logging.Clone | log/log.go:88-96 | A clone has a copy of the sink value, the same level and caller settings, and an empty tag filter. |
| Logging.CloneAcceptsAllTags | log/log.go:88-96 | A clone passes every tag, and cloning a clone changes nothing more. |
| Logging.FileOf | log/log.go:190 | The caller's file is the longest slash-free suffix of its path: a suffix with no slash that is either the whole path or preceded by a slash. |
| Logging.CallerPrefixParts | log/log.go:184-192 | The caller prefix is `[`, the frame's file part, `:`, decimal text that reads back as the line number, and `] `. A missing frame gives file `???` and line 0. |
| Logging.CallerPrefixOfFrame | log/log.go:184-192 | The caller prefix is `[file:line] ` built from the frame's file part and line, or from `???` and 0 when there is no frame. |
| Logging.VerbatimWithoutArgs | log/log.go:167-170 | A call with no arguments writes its format string unchanged, `%` verbs included, whatever the tag filter. |
| Logging.PercentBalance | log/log.go:105 | A string has at least twice as many `%` as `%%` pairs; it has exactly twice as many exactly when every `%` is part of an escaped pair. |
| Logging.NoVerbsMeansEscapedOnly | log/log.go:105 | The format string is taken as a tag exactly when every `%` in it is escaped. |
| Logging.RenderDropped | log/log.go:98-117 | A call writes nothing exactly when the level is filtered out, or when it carries a tag the non-empty filter does not hold. |
| Logging.RenderWritten | log/log.go:119-129 | An accepted call writes the stamp, the level prefix, the caller part, the message and a newline, in that order. |
| Logging.RenderShape | log/log.go:124-129 | A written line starts with the stamp followed by the level prefix, and ends with a newline. |
| Logging.LoggedLineStamp | log/log.go:124-129 | A written line starts with the 24-character `2006-01-02 15:04:05.000 ` stamp of the call's time. |
| Logging.TaggedMessage | log/log.go:104-117 | A verb-free format with one string argument is a tag, and the message becomes `[Tag:t] ` followed by that argument when the filter admits the tag. |
| Logging.RejectedTagMessage | log/log.go:104-117 | A tag the non-empty filter does not hold suppresses the message. |
| Logging.FormattedMessage | log/log.go:104-129 | A format with verbs is never a tag; its arguments are formatted into it. |
| Logging.LineOfMessage | log/log.go:119-129 | Without the caller prefix an accepted line is the stamp, the level prefix, the message and a newline. |
| Logging.UnknownCallerLine | log/log.go:119-129 | With the caller prefix on and no frame available, the line carries `[???:0] `. |
| Logging.LineWithCaller | log/log.go:119-129 | With the caller prefix on, the caller prefix for 3 plus the skips comes between the level prefix and the message. |
| Logging.Dispatch | log/log.go:131-140 | Standard output receives the line unchanged. A console sink prints it through its colouring. A file sink keeps its invariant and prints nothing. |
| Logging.DisabledSkipsTagCheck | log/log.go:98-108 | A call below the threshold returns before the tag is read: with a verb-free format and a non-string first argument it writes nothing and changes nothing. |
| Logging.Log | log/log.go:98-141 | A dropped call changes nothing. A call never changes the level or the tags. On standard output the written text is exactly the rendered line. |
| Logging.LogToStdout | log/log.go:98-141 | A plain message to standard output without a caller prefix prints the stamp, the level prefix, the message and a newline. |
| Logging.LogToOpenFile | log/log.go:131-140 | A message to an open file sink appends exactly the UTF-8 bytes of the rendered line to the log file and prints nothing. |
| Pkcs5.PadLength | crypt/aes.go:130-134 | The pad length is between 1 and the block size, and brings the length to a whole number of blocks. |
| Pkcs5.Pad | crypt/aes.go:130-134 | Padding keeps the data as a prefix and adds 1 to `bs` bytes, each holding the pad length as a byte, up to a multiple of the block size. |
| Pkcs5.Unpad | crypt/aes.go:120-127 | Unpadding drops as many trailing bytes as the last byte's value and keeps the rest as it was. |
| Pkcs5.UnpadPad | crypt/aes.go:120-134 | For block sizes 1 to 255, unpadding a padded input returns the input. |
| Pkcs5.WrappedPadLength | crypt/aes.go:120-134 | At block size 256 a block-aligned input gets a pad of 256 zero bytes, so unpadding strips nothing and the round trip fails. |
| Pkcs5.UnpadIgnoresPadContents | crypt/aes.go:120-127 | Unpadding checks only the last byte; the bytes it strips need not be pad bytes. |
| ZMap.Load | zmap/map.go:114-119 | A key loads a value exactly when present, and then its stored value. |
| ZMap.Store | zmap/map.go:27-31 | After a store the key maps to the value and every other key is unchanged. |
| ZMap.Delete | zmap/map.go:107-111 | After a delete the key is absent and every other entry is unchanged. |
| ZMap.LoadOrStore | zmap/map.go:36-52 | A present key returns its value with `true` and the map unchanged. An absent key stores the given value and returns it with `false`. |
| ZMap.CompareAndSwap | zmap/map.go:55-72 | It swaps, and reports `true`, exactly when the key holds the expected value; otherwise the map is unchanged. |
| ZMap.CompareAndDelete | zmap/map.go:75-92 | It deletes, and reports `true`, exactly when the key holds the expected value; otherwise the map is unchanged. |
| ZMap.LoadAndDelete | zmap/map.go:95-104 | It returns what a load would have returned and leaves the map without the key. |
| ZMap.Len | zmap/map.go:122-126 | The length is the number of keys. |
| ZMap.Keys | zmap/map.go:143-151 | Every key appears exactly once, and nothing else does. |
| ZMap.Values | zmap/map.go:154-162 | There is one value per key, each being the value of a distinct key in iteration order, and every stored value appears. |
| ZMap.Clone | zmap/map.go:165-173 | The copy holds exactly the same entries. |
| ZMap.StoreThenLoad | zmap/map.go:27-31 | A stored value loads back, other keys load as before, and the length grows exactly when the key is new. |
| ZMap.DeleteThenLoad | zmap/map.go:107-119 | A deleted key no longer loads, other keys load as before, and the length drops exactly when the key was present. |
| ZMap.LoadOrStoreSettles | zmap/map.go:36-52 | After `LoadOrStore` the key loads the returned value, and a second call loads the same value without changing the map. |
| ZMap.CompareAndSwapBack | zmap/map.go:55-72 | A successful swap is undone by swapping back. |
| ZMap.CompareAndDeleteIsGuardedLoadAndDelete | zmap/map.go:75-104 | `CompareAndDelete` succeeds exactly when `LoadAndDelete` would return the expected value, and then leaves the same map. |
| ZSlice.Append | zslice/slice.go:32-36 | The old contents are kept as a prefix, and the item is added at the end. |
| ZSlice.Get | zslice/slice.go:39-47 | It succeeds exactly for an index in range, returning the element there. |
| ZSlice.Set | zslice/slice.go:50-58 | It succeeds exactly for an index in range and then replaces only that element; otherwise the slice is unchanged. |
| ZSlice.Len | zslice/slice.go:61-65 | The length is the number of elements. |
| ZSlice.Delete | zslice/slice.go:68-76 | It succeeds exactly for an index in range and then closes the gap, keeping the order of the remaining elements; otherwise the slice is unchanged. |
| ZSlice.DeleteBy | zslice/slice.go:79-90 | The elements left are exactly the unmatched ones in order. The returned count is the number of matched elements, and the two add up to the old length. |
| ZSlice.DeleteByStep | zslice/slice.go:83-88 | Deleting at a matching index, walking backwards, extends the filtered suffix by one position without disturbing the prefix. |
| ZSlice.Range | zslice/slice.go:93-101 | Visiting stops at the first index the callback rejects, if any, after every earlier index was accepted; otherwise every index was accepted. |
| ZSlice.ToSlice | zslice/slice.go:104-110 | The copy has the same elements in the same order. |
| ZSlice.Insert | zslice/slice.go:113-119 | Insertion adds exactly the one new element to the multiset of elements. |
| ZSlice.InsertSorted | zslice/slice.go:113-119 | For a strict order, inserting into a sorted sequence keeps it sorted. |
| ZSlice.Sort | zslice/slice.go:113-119 | Sorting permutes the elements. |
| ZSlice.SortSorted | zslice/slice.go:113-119 | For a strict weak order, or any irreflexive and transitive relation, the sorted result has no element less than an earlier one. |
| ZSlice.Find | zslice/slice.go:122-132 | It finds nothing exactly when no element matches; otherwise it returns the first matching element. |
| ZSlice.FindAll | zslice/slice.go:135-145 | The result is the matching elements, in order. |
| ZSlice.Count | zslice/slice.go:148-158 | The count is the number of matching elements. |
| ZSlice.FilterCons | zslice/slice.go:135-145 | Filtering a sequence with a new head filters the head, then the rest. |
| ZSlice.FilterMembers | zslice/slice.go:135-145 | The matching elements are exactly those that match, and the rejected ones exactly those that do not. |
| ZSlice.FilterSplit | zslice/slice.go:79-90 | The matching and rejected elements together are a permutation of the whole. |
| ZSlice.SetThenGet | zslice/slice.go:39-76 | Getting what was just set returns it, and deleting an element in range shortens the slice by one. |
| ZSlice.AppendThenDelete | zslice/slice.go:32-76 | Deleting the last appended element restores the original, and getting it returns the item. |
| ZSet.Wrap32 | set/set.go:13-16 | Wrapping always yields an `int32` value. |
| ZSet.WrapInRange | set/set.go:13-16 | A value already in the `int32` range is unchanged by wrapping. |
| ZSet.WrapAdd | set/set.go:26-39 | Wrapping before an addition or after it gives the same result, so the atomic counter stays the member count modulo 2^32. |
| ZSet.New | set/set.go:19-23 | A new set has no members and a zero counter. |
| ZSet.Add | set/set.go:26-31 | The item becomes a member, and the counter keeps tracking the member count. |
| ZSet.Remove | set/set.go:34-39 | The item stops being a member, and the counter keeps tracking the member count. |
| ZSet.Has | set/set.go:42-45 | It reports membership. |
| ZSet.Len | set/set.go:48-50 | The length is the member count wrapped to 32 bits, which is the member count itself below 2^31 members. |
| ZSet.CounterExact | set/set.go:48-50 | Below 2^31 members a consistent counter equals the member count. |
| ZSet.IsEmpty | set/set.go:61-63 | A set is empty exactly when its length is zero. |
| ZSet.Clear | set/set.go:53-58 | Removing every member one at a time leaves no members and a zero length. |
| ZSet.List | set/set.go:66-73 | Every member is listed exactly once, and nothing else is. |
| ZSet.AddCounts | set/set.go:26-31 | Adding a new item counts one more; adding a present one changes nothing. Either way the item is then present. |
| ZSet.RemoveCounts | set/set.go:34-39 | Removing a present item counts one fewer; removing an absent one changes nothing. Either way the item is then absent. |
| ZSet.EmptyIffNoMembers | set/set.go:61-63 | While the count fits in 31 bits, the set is empty exactly when it has no members. |
| ZSet.CounterWraps | set/set.go:26-31 | The 2^31st member wraps the counter, and the length becomes -2^31. |
| Bytes.EncodeChar | log/log.go:134-140 | A code point takes one to four bytes; exactly those below U+0080 take one, equal to the code point; every byte after the first is a continuation byte. |
| Bytes.Encode | log/log.go:134-140 | The UTF-8 form of a string has between one and four bytes per character. |
| Bytes.EncodeAppend | log/log.go:134-140 | The UTF-8 form of two texts in a row is the form of the first followed by the form of the second. |
| Bytes.EncodeLength3 | log/log.go:134-140 | The byte length of three texts in a row is the sum of their byte lengths. |
| Bytes.EncodeAscii | log/log.go:134-140 | ASCII text is one byte per character, each byte equal to its character. |
| Bytes.DecodeEncodeChar | log/log.go:134-140 | Reading a code point from the front of its UTF-8 form, whatever follows, gives back the code point and the length of its form. |
| Bytes.DecodeEncode | log/log.go:134-140 | The UTF-8 form of every string decodes back to that string, so the conversion loses nothing. |
| Text.Count | log/log.go:105 | Non-overlapping occurrences of a non-empty pattern fit inside the string. |
| Text.CountZero | log/log.go:105 | The count is zero exactly when the pattern occurs nowhere in the string. |
| Text.DecimalDenotes | log/log.go:191 | The `%d` text of an integer is digits, after a minus sign for a negative number, that read back as the integer. |
| Text.IndexOf | log/output_console.go:72-78 | The index returned is the first occurrence; no index means no occurrence anywhere. |
| Text.Split | log/tags.go:25-37 | A split gives at least one piece, and no piece contains the separator. |
| Text.JoinSplit | log/tags.go:25-37 | Joining the pieces of a split with the separator restores the text. |
| Text.SplitUnique | log/tags.go:25-37 | Separator-free pieces that join to a text are exactly that text's split. |
| Text.SplitNoSep | log/tags.go:25-37 | A text without the separator splits into itself alone. |
| Text.ToLower | log/level.go:80-88 | Lower-casing keeps the length and maps each character to its small letter as `unicode.ToLower` does for the capitals whose small letter is ASCII (`A`-`Z`, U+0130 and U+212A); every other character is left as it is. |
| Text.ValueDigits | log/log.go:184-192 | The decimal digits of a number read back as that number. |
| Text.ValuePadded | log/log.go:124-129 | Zero-padded decimal digits read back as the number. |
| Paths.LastSlash | log/output_rotatefile.go:148-156 | The index found is the last slash; no index means there is no slash. |
| Paths.Base | log/output_rotatefile.go:148-156 | The base name is `/`, `.`, or free of slashes. |
| Paths.Ext | log/output_rotatefile.go:148-156 | The extension is a suffix that is empty, or starts with a dot and has no slash. |
| Paths.BaseJoinPath | log/output_rotatefile.go:148-156 | The base of a slash-free name joined under any directory is that name. |
| Paths.DirJoinPath | log/output_rotatefile.go:259-261 | The directory of a slash-free name joined under a clean directory is that directory. |
| CivilTime.CivilFromDays | log/output_rotatefile.go:146-156 | The date of any day number is a valid calendar date at midnight. |
| CivilTime.DayNumberOfCivil | log/output_rotatefile.go:146-156 | The day number of a day's date is that day. |
| CivilTime.CivilFromDayNumber | log/output_rotatefile.go:158-170 | The date of a valid date's day number is that date. |
| CivilTime.ToFromInstant | log/output_rotatefile.go:146-170 | Reading an instant as a date and time and back gives the instant truncated to the second. |
| CivilTime.FromToInstant | log/output_rotatefile.go:146-170 | A valid date and time survives conversion to an instant and back. |
| CivilTime.FormatBackupShape | log/output_rotatefile.go:146-156 | A backup stamp has at least 15 characters, all digits or dashes. |
| CivilTime.FormatBackupFields | log/output_rotatefile.go:146-156 | A stamp for years 0-9999 is `YYYYMMDD-HHMMSS`, each field holding its zero-padded value. |
| CivilTime.ParseBackup | log/output_rotatefile.go:158-170 | The fixed part of the layout: a stamp that parses is 15 characters with a dash at position 8, and gives a valid date and time in years 0-9999. |
| CivilTime.Fraction | log/output_rotatefile.go:169 | The text after the seconds is accepted exactly when it is empty or a `.` or `,` followed by one or more digits. Its value is below one second. |
| CivilTime.FractionMillis | log/output_rotatefile.go:169 | A fraction of three digits is read as that many milliseconds. |
| CivilTime.ParseBackupNs | log/output_rotatefile.go:169 | A stamp that parses starts with a 15-character stamp that parses, and the rest is an accepted fraction. |
| CivilTime.ParseBackupNsWithinSecond | log/output_rotatefile.go:169 | The time of a parsed stamp lies within the second its fixed fields name. |
| CivilTime.ParseFormatBackupNs | log/output_rotatefile.go:146-170 | A formatted stamp parses back to the instant of its date and time, in nanoseconds. |
| CivilTime.FractionalStamp | log/output_rotatefile.go:169 | A formatted stamp followed by an accepted fraction parses to the stamped instant plus the fraction. |
| CivilTime.ParseFormatBackup | log/output_rotatefile.go:146-170 | For years 0-9999 the stamp is 15 characters and parses back to the same date and time. |
| CivilTime.LineStampWidth | log/log.go:124-129 | The line stamp is 24 characters and ends with a space. |

## Left out

- `dailyRotate` (log/output_rotatefile.go:176-197) is out: it is a goroutine that sleeps until midnight. The model records only whether such a task is scheduled on a live channel (`Init`, `Close`). A rotation at any instant is modelled by `Rotate`.
- Mutexes, channels and atomics are out: the model runs each operation alone. Concurrent interleavings of the containers and the sinks are not modelled.
- Operating-system calls are not made. `os.Stat`, `MkdirAll`, `Rename`, `OpenFile`, `Write`, `Close`, `ReadDir` and `Remove` act on a map from path to entry, and each one's failure is an input in `Faults`. `MkdirAll` creates each missing directory on the path with bits 0o755 and fails when a regular file stands on the path; `Rename` moves the entry and every path beneath it.
- `Rename` type conflicts are not errors in the model: renaming a file onto a directory, a directory onto a file or onto a non-empty directory, or into its own subtree replaces the target instead of failing. A rotation meets them only when something already stands at the backup name, and `Faults.renameFails` can stand for that failure.
- The process umask is not applied: new directories get 0o755 and new files 0o600 as written.
- Strings are sequences of Unicode code points, so a line that is not valid UTF-8, which Go's `string` can hold, cannot occur in the model.
- Paths.Dir: the configured log file name is assumed clean, with no repeated or trailing separators and no `.` or `..` elements. Go's `filepath.Dir` cleans its result and the model's `Dir` does not, so for a name such as `logs//app.log` the model's directory is `logs/` where Go's is `logs`. For such names, `MakeDirs` would add a `logs/` entry and `ClearFiles` would not find the backups Go prunes.
- Permission bits are kept as opaque integers. `filepath.Clean` of joined paths, symbolic links, and the `entry.Info()` error in `oldLogFiles` are not modelled.
- `time.Now` is a parameter, and the local time zone is taken to be fixed: instants are local milliseconds with no daylight-saving jumps. `time.Format` and `time.ParseInLocation` are modelled only for the two layouts the core uses. Years outside 0-9999 get a stamp that the model states nothing about.
- `fmt.Sprintf`, `fmt.Sprint` and `runtime.Caller` are the caller-supplied functions in `Env`; what they return is not modelled.
- Text.ToLower: Go's `bytes.ToLower` (log/level.go:84) lower-cases every Unicode capital. The model lower-cases only `A`-`Z`, the dotted capital I (U+0130) and the Kelvin sign (U+212A), the capitals whose small letter is ASCII. Every other non-ASCII capital is left unchanged, where Go turns it into a non-ASCII small letter.
- Levels.ParseAccepts: which texts are accepted is unaffected by the narrower lowering, because every level name is ASCII and a non-ASCII small letter matches none of them. The lower-cased form the contract refers to is the model's `Text.ToLower`, not Go's.
- Levels.ParseCaseInsensitive: states the property for the model's `Text.ToLower`. On texts with other non-ASCII capitals, that function's result differs from Go's `bytes.ToLower`.
- Go panics are preconditions:
  - `pkcs5UnPadding` on empty input, or with a last byte larger than the length;
  - a non-positive block size in `pkcs5Padding`;
  - `args[0].(string)` in `log`: it panics only when the level passes the threshold, the format has no verbs and there is an argument, and the first argument is not a string. A call below the threshold returns first (log/log.go:99-102) and is allowed.
- `zmap.Range`, `set.Range` and Go's map iteration order are out. `Keys`, `Values`, `List` and `Clone` visit entries in an unspecified order, and their contracts do not depend on it.
- ZSlice.Sort is insertion sort, and its order is proved for any strict weak order (indeed any irreflexive, transitive `less`); `sort.Slice` is unstable and its order among equivalent elements is unspecified, so the model promises only a permutation that is sorted, as the source does.
- ZSet.Len: is the 32-bit wrapped counter; it equals the member count only below 2^31 members, as `CounterWraps` shows.
- RotateFile.WriteLog: as the code does, a write after `Close` reopens the log file. A failing write stores the first `Faults.shortWrite` bytes of the line; which bytes a real short write stores beyond a prefix is not modelled.
- Console.WriteLog: writing to standard output never fails and always takes the whole line; a short or failed write to standard output is not modelled. The sink takes the line as text rather than bytes, and reports the count in bytes of its UTF-8 form.
- Logging.Clone: sinks are values, so a clone holds a copy of the rotating file writer rather than the shared `*rotateFileWriter` pointer. Writes, rotations and `Close` through one logger are not seen by the other.
- RotateFile.Cutoff: the retention offset wraps as a 64-bit `Duration`, and the model states what happens up to `MaxRetentionDays` days and in the band just past it; beyond twice that the wrapped cutoff is computed but no lemma describes it. Adding the offset to the time is exact, because Go's `Time.Add` does not overflow for realistic clocks. A rotation uses one `now` for the backup name and for the cutoff, where the code reads the clock twice; the second reading is later by the time the rename and create take.
- CivilTime.ParseBackup: covers only the fixed 15-character part of the layout; the optional fractional second Go's parser accepts after the seconds is handled by `Fraction` and `ParseBackupNs`.
- The daily-rotation mode string is a two-valued datatype. A mode string other than `""` or `daily`, which the source never constructs, is not modelled.
- `log/global.go`, the rest of `crypt/` (AES, DES, RSA, HMAC, MD5), `str/str.go` and the examples are not part of this model.
- ZMap.CompareAndSwap follows the code: the doc comment above it (zmap/map.go:54) describes the opposite result.

=== FILE: arith.dfy ===
/** Facts about Euclidean division that the padding and the 32-bit counter use. */
module Arith {

  /** Euclidean division is unique: a quotient and an in-range remainder that
      rebuild `x` are `x / bs` and `x % bs`. */
  lemma ModUnique(x: int, bs: int, q: int, r: int)
    requires bs > 0 && 0 <= r < bs && x == bs * q + r
    ensures x % bs == r && x / bs == q
  {
    var q', r' := x / bs, x % bs;
    assert bs * (q - q') == r' - r;
    if q > q' {
      MulAtLeast(bs, q - q');
    } else if q < q' {
      MulAtLeast(bs, q' - q);
    }
  }

  /** A positive multiple of `bs` is at least `bs`. */
  lemma {:induction false} MulAtLeast(bs: int, k: int)
    requires bs > 0 && k >= 1
    ensures bs * k >= bs
    decreases k
  {
    if k > 1 {
      MulAtLeast(bs, k - 1);
      assert bs * k == bs * (k - 1) + bs;
    }
  }
}

=== FILE: bytes.dfy ===
/** Go's `byte`, and the conversion `[]byte(s)` from a string to its UTF-8
    form (section 3 of RFC 3629), which the logger applies to every line
    before a sink writes it. */
module Bytes {

  import opened Wrappers

  /** Go's `byte`. */
  newtype byte = x: int | 0 <= x < 256

  /** A continuation byte: `10xxxxxx`. */
  predicate IsCont(b: byte) {
    0x80 <= b < 0xC0
  }

  /** The UTF-8 form of one code point: one byte below U+0080, then two,
      three or four, the lead byte saying how many follow. */
  function EncodeChar(c: char): (b: seq<byte>)
    ensures 1 <= |b| <= 4
    ensures |b| == 1 <==> c as int < 0x80
    ensures |b| == 1 ==> b[0] as int == c as int
    ensures forall k :: 1 <= k < |b| ==> IsCont(b[k])
  {
    var n := c as int;
    if n < 0x80 then [n as byte]
    else if n < 0x800 then [(0xC0 + n / 64) as byte, (0x80 + n % 64) as byte]
    else if n < 0x1_0000 then
      [(0xE0 + n / 4096) as byte, (0x80 + n / 64 % 64) as byte, (0x80 + n % 64) as byte]
    else
      [(0xF0 + n / 262144) as byte, (0x80 + n / 4096 % 64) as byte,
       (0x80 + n / 64 % 64) as byte, (0x80 + n % 64) as byte]
  }

  /** `[]byte(s)`: the UTF-8 form of a string, code point by code point. */
  function Encode(s: string): (b: seq<byte>)
    ensures |s| <= |b| <= 4 * |s|
  {
    if s == [] then [] else EncodeChar(s[0]) + Encode(s[1..])
  }

  /** Encoding distributes over concatenation. */
  lemma {:induction false} EncodeAppend(a: string, b: string)
    ensures Encode(a + b) == Encode(a) + Encode(b)
    decreases |a|
  {
    if a == [] {
      assert a + b == b;
    } else {
      assert (a + b)[0] == a[0] && (a + b)[1..] == a[1..] + b;
      EncodeAppend(a[1..], b);
    }
  }

  /** The byte length of three texts in a row is the sum of their byte lengths. */
  lemma EncodeLength3(x: string, m: string, y: string)
    ensures |Encode(x + m + y)| == |Encode(x)| + |Encode(m)| + |Encode(y)|
  {
    EncodeAppend(x + m, y);
    EncodeAppend(x, m);
  }

  /** ASCII text is its own byte form: one byte per character, same value. */
  lemma {:induction false} EncodeAscii(s: string)
    requires forall k :: 0 <= k < |s| ==> s[k] as int < 0x80
    ensures |Encode(s)| == |s|
    ensures forall k :: 0 <= k < |s| ==> Encode(s)[k] as int == s[k] as int
    decreases |s|
  {
    if s != [] {
      EncodeAscii(s[1..]);
      forall k | 1 <= k < |s| ensures Encode(s)[k] as int == s[k] as int {
        assert Encode(s)[k] == Encode(s[1..])[k - 1];
      }
    }
  }

  /** Read one code point from the front of `b`: its value and how many bytes
      it took. Overlong forms, surrogates and values past U+10FFFF are
      rejected. */
  function DecodeChar(b: seq<byte>): (r: Option<(char, nat)>)
    ensures r.Some? ==> 1 <= r.value.1 <= |b|
  {
    if |b| == 0 then None
    else
      var b0 := b[0] as int;
      if b0 < 0x80 then Some((b0 as char, 1))
      else if 0xC0 <= b0 < 0xE0 && |b| >= 2 && IsCont(b[1]) then
        var n := (b0 - 0xC0) * 64 + (b[1] as int - 0x80);
        if 0x80 <= n then Some((n as char, 2)) else None
      else if 0xE0 <= b0 < 0xF0 && |b| >= 3 && IsCont(b[1]) && IsCont(b[2]) then
        var n := (b0 - 0xE0) * 4096 + (b[1] as int - 0x80) * 64 + (b[2] as int - 0x80);
        if 0x800 <= n && !(0xD800 <= n < 0xE000) then Some((n as char, 3)) else None
      else if 0xF0 <= b0 < 0xF8 && |b| >= 4 && IsCont(b[1]) && IsCont(b[2]) && IsCont(b[3]) then
        var n := (b0 - 0xF0) * 262144 + (b[1] as int - 0x80) * 4096
          + (b[2] as int - 0x80) * 64 + (b[3] as int - 0x80);
        if 0x1_0000 <= n < 0x11_0000 then Some((n as char, 4)) else None
      else None
  }

  /** Read a whole byte sequence as UTF-8 text; `None` when it is not
      well-formed. */
  function Decode(b: seq<byte>): (r: Option<string>)
    decreases |b|
  {
    if |b| == 0 then Some([])
    else match DecodeChar(b)
      case None => None
      case Some((c, k)) =>
        match Decode(b[k..])
        case None => None
        case Some(rest) => Some([c] + rest)
  }

  /** The digits of `n` in base 64, as the lead and continuation bytes carry them. */
  lemma Base64Digits(n: int)
    requires 0 <= n
    ensures n == (n / 64) * 64 + n % 64
    ensures n / 64 == (n / 4096) * 64 + n / 64 % 64
    ensures n / 4096 == (n / 262144) * 64 + n / 4096 % 64
  {
  }

  /** Decoding reads back the code point at the front of its encoding,
      whatever follows it. */
  lemma DecodeEncodeChar(c: char, rest: seq<byte>)
    ensures DecodeChar(EncodeChar(c) + rest) == Some((c, |EncodeChar(c)|))
  {
    var n := c as int;
    var b := EncodeChar(c) + rest;
    Base64Digits(n);
    if n < 0x80 {
    } else if n < 0x800 {
      assert b[0] as int == 0xC0 + n / 64 && b[1] as int == 0x80 + n % 64;
    } else if n < 0x1_0000 {
      assert b[0] as int == 0xE0 + n / 4096;
      assert b[1] as int == 0x80 + n / 64 % 64 && b[2] as int == 0x80 + n % 64;
    } else {
      assert b[0] as int == 0xF0 + n / 262144;
      assert b[1] as int == 0x80 + n / 4096 % 64;
      assert b[2] as int == 0x80 + n / 64 % 64 && b[3] as int == 0x80 + n % 64;
    }
  }

  /** The UTF-8 form of any string decodes back to that string. */
  lemma {:induction false} DecodeEncode(s: string)
    ensures Decode(Encode(s)) == Some(s)
    decreases |s|
  {
    if s != [] {
      var head := EncodeChar(s[0]);
      var tail := Encode(s[1..]);
      DecodeEncodeChar(s[0], tail);
      assert (head + tail)[|head|..] == tail;
      DecodeEncode(s[1..]);
      assert [s[0]] + s[1..] == s;
    }
  }
}

=== FILE: civiltime.dfy ===
/** Wall-clock time as the logger sees it: an instant is an integer number of
    milliseconds of local time since 1970-01-01 00:00:00, and a `DateTime` is
    its calendar reading in the proleptic Gregorian calendar. This module holds
    the two fixed layouts the logger uses: the backup-file stamp
    `20060102-150405` and the line stamp `2006-01-02 15:04:05.000 `. */
module CivilTime {

  import opened Wrappers
  import opened Text
  import opened Arith

  const MsPerSecond: int := 1000
  const SecondsPerDay: int := 86400
  const MsPerDay: int := 86_400_000
  const NsPerMs: int := 1_000_000
  const NsPerSecond: int := 1_000_000_000

  datatype DateTime = DateTime(year: int, month: int, day: int, hour: int, minute: int, second: int)

  predicate IsLeap(y: int) {
    y % 4 == 0 && (y % 100 != 0 || y % 400 == 0)
  }

  function DaysInYear(y: int): int {
    if IsLeap(y) then 366 else 365
  }

  /** Go's `daysIn`: the length of month `m` of year `y`. */
  function DaysIn(m: int, y: int): int
    requires 1 <= m <= 12
  {
    if m == 2 then (if IsLeap(y) then 29 else 28)
    else if m == 4 || m == 6 || m == 9 || m == 11 then 30
    else 31
  }

  /** A calendar reading that names an existing second. */
  predicate Valid(dt: DateTime) {
    && 1 <= dt.month <= 12
    && 1 <= dt.day <= DaysIn(dt.month, dt.year)
    && 0 <= dt.hour < 24
    && 0 <= dt.minute < 60
    && 0 <= dt.second < 60
  }

  /** Days from 1970-01-01 to January 1st of year `y`. */
  function YearStart(y: int): int
    decreases if y >= 1970 then y - 1970 else 1970 - y
  {
    if y == 1970 then 0
    else if y > 1970 then YearStart(y - 1) + DaysInYear(y - 1)
    else YearStart(y + 1) - DaysInYear(y)
  }

  lemma YearStartStep(y: int)
    ensures YearStart(y + 1) == YearStart(y) + DaysInYear(y)
  {
  }

  /** Later years start later. */
  lemma {:induction false} YearStartMonotone(a: int, b: int)
    requires a < b
    ensures YearStart(a + 1) <= YearStart(b)
    decreases b - a
  {
    if a + 1 < b {
      YearStartMonotone(a + 1, b);
      YearStartStep(a + 1);
    }
  }

  /** Days from January 1st to the first day of month `m` (13 = next January). */
  function MonthStart(y: int, m: int): (r: int)
    requires 1 <= m <= 13
    ensures 0 <= r <= DaysInYear(y)
    ensures m == 13 ==> r == DaysInYear(y)
  {
    var cumulative := [0, 31, 59, 90, 120, 151, 181, 212, 243, 273, 304, 334, 365];
    cumulative[m - 1] + (if m > 2 && IsLeap(y) then 1 else 0)
  }

  lemma MonthStartStep(y: int, m: int)
    requires 1 <= m <= 12
    ensures MonthStart(y, m) + DaysIn(m, y) == MonthStart(y, m + 1)
  {
  }

  lemma {:induction false} MonthStartMonotone(y: int, a: int, b: int)
    requires 1 <= a < b <= 13
    ensures MonthStart(y, a + 1) <= MonthStart(y, b)
    decreases b - a
  {
    if a + 1 < b {
      MonthStartMonotone(y, a + 1, b);
      MonthStartStep(y, a + 1);
    }
  }

  /** The year containing day `days`, searching upwards from year `y`. */
  function YearUp(days: int, y: int): (r: int)
    requires YearStart(y) <= days
    ensures YearStart(r) <= days < YearStart(r + 1)
    decreases days - YearStart(y)
  {
    YearStartStep(y);
    if days < YearStart(y + 1) then y else YearUp(days, y + 1)
  }

  /** The year containing day `days`, searching downwards from year `y`. */
  function YearDown(days: int, y: int): (r: int)
    requires days < YearStart(y + 1)
    ensures YearStart(r) <= days < YearStart(r + 1)
    decreases YearStart(y + 1) - days
  {
    YearStartStep(y);
    YearStartStep(y - 1);
    if YearStart(y) <= days then y else YearDown(days, y - 1)
  }

  /** The year of day number `days` (day 0 is 1970-01-01). */
  function YearOf(days: int): (r: int)
    ensures YearStart(r) <= days < YearStart(r + 1)
  {
    YearStartStep(1969);
    if days >= 0 then YearUp(days, 1970) else YearDown(days, 1969)
  }

  /** The month holding day-of-year `doy`, searching from month `m`. */
  function MonthFrom(y: int, doy: int, m: int): (r: int)
    requires 1 <= m <= 12
    requires MonthStart(y, m) <= doy < DaysInYear(y)
    ensures m <= r <= 12
    ensures MonthStart(y, r) <= doy < MonthStart(y, r + 1)
    decreases 12 - m
  {
    MonthStartStep(y, m);
    if doy < MonthStart(y, m + 1) then m else MonthFrom(y, doy, m + 1)
  }

  /** The day number (0 = 1970-01-01) of a reading's date. */
  function DayNumber(dt: DateTime): int
    requires 1 <= dt.month <= 12
  {
    YearStart(dt.year) + MonthStart(dt.year, dt.month) + dt.day - 1
  }

  /** The date of day number `days`, at midnight. */
  function CivilFromDays(days: int): (dt: DateTime)
    ensures Valid(dt) && dt.hour == 0 && dt.minute == 0 && dt.second == 0
  {
    var y := YearOf(days);
    var doy := days - YearStart(y);
    YearStartStep(y);
    var m := MonthFrom(y, doy, 1);
    MonthStartStep(y, m);
    DateTime(y, m, doy - MonthStart(y, m) + 1, 0, 0, 0)
  }

  /** The date of day number `days` has that day number. */
  lemma DayNumberOfCivil(days: int)
    ensures DayNumber(CivilFromDays(days)) == days
  {
    var y := YearOf(days);
    var doy := days - YearStart(y);
    YearStartStep(y);
    var m := MonthFrom(y, doy, 1);
    MonthStartStep(y, m);
  }

  /** A valid date is the date of its own day number. */
  lemma CivilFromDayNumber(dt: DateTime)
    requires Valid(dt)
    ensures var c := CivilFromDays(DayNumber(dt));
      c.year == dt.year && c.month == dt.month && c.day == dt.day
  {
    var y := dt.year;
    var days := DayNumber(dt);
    YearStartStep(y);
    MonthStartStep(y, dt.month);
    var c := CivilFromDays(days);
    DayNumberOfCivil(days);
    var y' := c.year;
    YearStartStep(y');
    if y' < y { YearStartMonotone(y', y); }
    if y < y' { YearStartMonotone(y, y'); }
    assert y' == y;
    var m' := c.month;
    MonthStartStep(y, m');
    if m' < dt.month { MonthStartMonotone(y, m', dt.month); }
    if dt.month < m' { MonthStartMonotone(y, dt.month, m'); }
  }

  /** Seconds since midnight named by a reading's clock fields. */
  function SecondOfDay(dt: DateTime): int {
    dt.hour * 3600 + dt.minute * 60 + dt.second
  }

  /** The reading `dt` with its clock set from second-of-day `sod`. */
  function WithClock(dt: DateTime, sod: int): (r: DateTime)
    requires 0 <= sod < SecondsPerDay
    ensures r.year == dt.year && r.month == dt.month && r.day == dt.day
    ensures 0 <= r.hour < 24 && 0 <= r.minute < 60 && 0 <= r.second < 60
    ensures SecondOfDay(r) == sod
  {
    dt.(hour := sod / 3600, minute := sod % 3600 / 60, second := sod % 60)
  }

  /** The calendar reading of instant `t`: Go's `Time.Date` and `Time.Clock`. */
  function FromInstant(t: int): (dt: DateTime)
    ensures Valid(dt)
  {
    WithClock(CivilFromDays(t / MsPerDay), t % MsPerDay / MsPerSecond)
  }

  /** The first millisecond of a calendar reading: Go's `time.Date`. */
  function ToInstant(dt: DateTime): int
    requires 1 <= dt.month <= 12
  {
    DayNumber(dt) * MsPerDay + SecondOfDay(dt) * MsPerSecond
  }

  /** Reading an instant on the calendar and back loses only the milliseconds:
      the result is `t` truncated to whole seconds. */
  lemma ToFromInstant(t: int)
    ensures ToInstant(FromInstant(t)) == t - t % MsPerSecond
  {
    var dt := FromInstant(t);
    DayNumberOfCivil(t / MsPerDay);
    assert DayNumber(dt) == t / MsPerDay;
    assert SecondOfDay(dt) == t % MsPerDay / MsPerSecond;
    DayDecomposition(t);
  }

  /** An instant splits into whole days, whole seconds and leftover milliseconds. */
  lemma DayDecomposition(t: int)
    ensures (t / MsPerDay) * MsPerDay + (t % MsPerDay / MsPerSecond) * MsPerSecond == t - t % MsPerSecond
  {
    var q := t / MsPerDay;
    var r := t % MsPerDay;
    var s := r / MsPerSecond;
    var ms := r % MsPerSecond;
    assert r == MsPerSecond * s + ms;
    assert t == MsPerSecond * (SecondsPerDay * q + s) + ms;
    ModUnique(t, MsPerSecond, SecondsPerDay * q + s, ms);
  }

  /** A valid reading survives the round trip through its instant. */
  lemma FromToInstant(dt: DateTime)
    requires Valid(dt)
    ensures FromInstant(ToInstant(dt)) == dt
  {
    var days := DayNumber(dt);
    var sod := SecondOfDay(dt);
    var t := ToInstant(dt);
    ClockFields(dt);
    InstantSplit(days, sod);
    assert t / MsPerDay == days;
    assert t % MsPerDay / MsPerSecond == sod;
    CivilFromDayNumber(dt);
    var r := WithClock(CivilFromDays(days), sod);
    assert FromInstant(t) == r;
    assert r.hour == dt.hour && r.minute == dt.minute && r.second == dt.second;
  }

  /** An instant built from a day number and a second of that day splits back into them. */
  lemma InstantSplit(days: int, sod: int)
    requires 0 <= sod < SecondsPerDay
    ensures (days * MsPerDay + sod * MsPerSecond) / MsPerDay == days
    ensures (days * MsPerDay + sod * MsPerSecond) % MsPerDay / MsPerSecond == sod
  {
    var t := days * MsPerDay + sod * MsPerSecond;
    assert 0 <= sod * MsPerSecond < MsPerDay;
  }

  /** The clock fields of a valid reading are recovered from its second of the day. */
  lemma ClockFields(dt: DateTime)
    requires Valid(dt)
    ensures 0 <= SecondOfDay(dt) < SecondsPerDay
    ensures SecondOfDay(dt) / 3600 == dt.hour
    ensures SecondOfDay(dt) % 3600 / 60 == dt.minute
    ensures SecondOfDay(dt) % 60 == dt.second
  {
  }

  // ---------------------------------------------------------------------------
  // Fixed layouts

  /** The year as Go's `2006` layout writes it: four digits at least, with a
      minus sign before negative years. */
  function YearText(y: int): string {
    if y < 0 then "-" + Padded(-y, 4) else Padded(y, 4)
  }

  function Two(n: int): string
    requires 0 <= n
  {
    Padded(n, 2)
  }

  /** The backup layout `20060102-150405` applied to a reading. */
  function FormatBackup(dt: DateTime): string
    requires Valid(dt)
  {
    YearText(dt.year) + Two(dt.month) + Two(dt.day) + "-"
      + Two(dt.hour) + Two(dt.minute) + Two(dt.second)
  }

  /** Every character is a decimal digit or a `-`. */
  predicate DigitsOrDashes(s: string) {
    forall k :: 0 <= k < |s| ==> s[k] == '-' || IsDigit(s[k])
  }

  lemma DigitsOrDashesConcat(a: string, b: string)
    requires DigitsOrDashes(a) && DigitsOrDashes(b)
    ensures DigitsOrDashes(a + b)
  {
    forall k | |a| <= k < |a + b| ensures (a + b)[k] == '-' || IsDigit((a + b)[k]) {
      assert (a + b)[k] == b[k - |a|];
    }
  }

  /** A backup stamp is at least fifteen characters of digits and dashes,
      whatever the year. */
  lemma FormatBackupShape(dt: DateTime)
    requires Valid(dt)
    ensures |FormatBackup(dt)| >= 15
    ensures DigitsOrDashes(FormatBackup(dt))
  {
    var yt := YearText(dt.year);
    var mo, da, ho, mi, se := Two(dt.month), Two(dt.day), Two(dt.hour), Two(dt.minute), Two(dt.second);
    assert DigitsOrDashes(yt) by {
      if dt.year < 0 {
        DigitsOrDashesConcat("-", Padded(-dt.year, 4));
      }
    }
    DigitsOrDashesConcat(yt, mo);
    DigitsOrDashesConcat(yt + mo, da);
    DigitsOrDashesConcat(yt + mo + da, "-");
    DigitsOrDashesConcat(yt + mo + da + "-", ho);
    DigitsOrDashesConcat(yt + mo + da + "-" + ho, mi);
    DigitsOrDashesConcat(yt + mo + da + "-" + ho + mi, se);
  }

  /** True when the characters `s[lo..hi]` are all decimal digits. */
  predicate DigitsIn(s: string, lo: int, hi: int)
    requires 0 <= lo <= hi <= |s|
  {
    forall k :: lo <= k < hi ==> IsDigit(s[k])
  }

  /** The number written in `s[lo..hi]`. */
  function Field(s: string, lo: int, hi: int): nat
    requires 0 <= lo <= hi <= |s|
    requires DigitsIn(s, lo, hi)
  {
    Value(s[lo..hi])
  }

  /** `time.ParseInLocation("20060102-150405", s, time.Local)`: exactly four
      year digits, two digits for every other field, a `-` between date and
      clock, and every field in its calendar range. */
  function ParseBackup(s: string): (r: Option<DateTime>)
    ensures r.Some? ==> Valid(r.value) && 0 <= r.value.year <= 9999
    ensures r.Some? ==> |s| == 15 && s[8] == '-'
  {
    if |s| != 15 || s[8] != '-' || !DigitsIn(s, 0, 8) || !DigitsIn(s, 9, 15) then None
    else
      var dt := DateTime(Field(s, 0, 4), Field(s, 4, 6), Field(s, 6, 8),
                         Field(s, 9, 11), Field(s, 11, 13), Field(s, 13, 15));
      assert dt.year <= 9999 by { DigitsBound(s[0..4]); }
      if Valid(dt) then Some(dt) else None
  }

  /** A run of `w` digits denotes a number below `10^w`. */
  lemma {:induction false} DigitsBound(s: string)
    requires forall k :: 0 <= k < |s| ==> IsDigit(s[k])
    ensures Value(s) < Pow10(|s|)
    decreases |s|
  {
    if |s| > 0 {
      DigitsBound(s[..|s| - 1]);
    }
  }

  /** A field written with `Padded(n, w)` for `n < 10^w` is exactly `w` digits. */
  lemma PaddedWidth(n: nat, w: nat)
    requires 1 <= w <= 4 && n < Pow10(w)
    ensures |Padded(n, w)| == w
    ensures Value(Padded(n, w)) == n
  {
    DigitsLength(n, w);
    ValuePadded(n, w);
  }

  /** Parsing a formatted reading gives it back, for the years the four-digit
      layout can hold. */
  lemma ParseFormatBackup(dt: DateTime)
    requires Valid(dt) && 0 <= dt.year <= 9999
    ensures |FormatBackup(dt)| == 15
    ensures ParseBackup(FormatBackup(dt)) == Some(dt)
  {
    FormatBackupFields(dt);
    var s := FormatBackup(dt);
    assert DigitsIn(s, 0, 8) && DigitsIn(s, 9, 15) by {
      FormatBackupShape(dt);
    }
    PaddedWidth(dt.year, 4);
    PaddedWidth(dt.month, 2);
    PaddedWidth(dt.day, 2);
    PaddedWidth(dt.hour, 2);
    PaddedWidth(dt.minute, 2);
    PaddedWidth(dt.second, 2);
  }

  /** What Go's parser accepts after the seconds field of a layout that has
      no fraction of its own: nothing, or a `.` or `,` followed by one or more
      digits. The first nine digits are the nanoseconds, the rest are read
      and dropped; any other text is an error. */
  function Fraction(tail: string): (r: Option<nat>)
    ensures r.Some? ==> r.value < NsPerSecond
    ensures r.Some? <==> tail == [] || (|tail| >= 2 && (tail[0] == '.' || tail[0] == ',') && DigitsIn(tail, 1, |tail|))
  {
    if tail == [] then Some(0)
    else if |tail| < 2 || (tail[0] != '.' && tail[0] != ',') || !DigitsIn(tail, 1, |tail|) then None
    else
      var k := if |tail| - 1 < 9 then |tail| - 1 else 9;
      var digits := tail[1..k + 1];
      assert forall j :: 0 <= j < |digits| ==> IsDigit(digits[j]) by {
        forall j | 0 <= j < |digits| ensures IsDigit(digits[j]) {
          assert digits[j] == tail[1 + j];
        }
      }
      DigitsBound(digits);
      FractionScale(Value(digits), k);
      Some(Value(digits) * Pow10(9 - k))
  }

  lemma {:induction false} Pow10Add(a: nat, b: nat)
    ensures Pow10(a + b) == Pow10(a) * Pow10(b)
    decreases a
  {
    if a > 0 {
      Pow10Add(a - 1, b);
    }
  }

  /** A `k`-digit fraction scaled to nine digits stays below one second. */
  lemma FractionScale(v: nat, k: nat)
    requires k <= 9 && v < Pow10(k)
    ensures v * Pow10(9 - k) < NsPerSecond
  {
    Pow10Add(k, 9 - k);
    assert Pow10(9) == NsPerSecond;
    var q := Pow10(9 - k);
    assert v * q <= (Pow10(k) - 1) * q by {
      MulMono(v, Pow10(k) - 1, q);
    }
  }

  lemma MulMono(a: int, b: int, q: nat)
    requires a <= b
    ensures a * q <= b * q
  {
  }

  /** A three-digit fraction is read as milliseconds. */
  lemma FractionMillis(sep: char, d: string)
    requires sep == '.' || sep == ','
    requires |d| == 3 && forall k :: 0 <= k < 3 ==> IsDigit(d[k])
    ensures Fraction([sep] + d).Some?
    ensures Fraction([sep] + d).value == Value(d) * NsPerMs
  {
    var tail := [sep] + d;
    assert tail[1..4] == d;
    assert DigitsIn(tail, 1, |tail|) by {
      forall j | 1 <= j < |tail| ensures IsDigit(tail[j]) {
        assert tail[j] == d[j - 1];
      }
    }
    assert Pow10(6) == NsPerMs;
  }

  /** `time.ParseInLocation("20060102-150405", s, time.Local)` read to the
      nanosecond: the fixed fifteen-character stamp, then an optional
      fractional second. */
  function ParseBackupNs(s: string): (r: Option<int>)
    ensures r.Some? ==> |s| >= 15 && ParseBackup(s[..15]).Some? && Fraction(s[15..]).Some?
  {
    if |s| < 15 then None
    else
      match ParseBackup(s[..15])
      case None => None
      case Some(dt) =>
        match Fraction(s[15..])
        case None => None
        case Some(ns) => Some(ToInstant(dt) * NsPerMs + ns)
  }

  /** A stamp the parser accepts names a time within the second its fixed
      fields read. */
  lemma ParseBackupNsWithinSecond(s: string)
    ensures ParseBackupNs(s).Some? ==>
      var dt := ParseBackup(s[..15]).value;
      ToInstant(dt) * NsPerMs <= ParseBackupNs(s).value < (ToInstant(dt) + MsPerSecond) * NsPerMs
  {
  }

  /** The parse of a formatted stamp is the instant of its reading, to the
      nanosecond. */
  lemma ParseFormatBackupNs(dt: DateTime)
    requires Valid(dt) && 0 <= dt.year <= 9999
    ensures ParseBackupNs(FormatBackup(dt)).Some?
    ensures ParseBackupNs(FormatBackup(dt)).value == ToInstant(dt) * NsPerMs
  {
    ParseFormatBackup(dt);
    var s := FormatBackup(dt);
    assert s[..15] == s;
    assert s[15..] == [];
  }

  /** A formatted stamp followed by a fractional second is still accepted,
      and the fraction is added to the reading's instant. */
  lemma FractionalStamp(dt: DateTime, tail: string)
    requires Valid(dt) && 0 <= dt.year <= 9999
    requires Fraction(tail).Some?
    ensures ParseBackupNs(FormatBackup(dt) + tail).Some?
    ensures ParseBackupNs(FormatBackup(dt) + tail).value == ToInstant(dt) * NsPerMs + Fraction(tail).value
  {
    ParseFormatBackup(dt);
    var s := FormatBackup(dt) + tail;
    assert s[..15] == FormatBackup(dt);
    assert s[15..] == tail;
  }

  /** Where each field sits in the backup stamp of a four-digit year. */
  lemma FormatBackupFields(dt: DateTime)
    requires Valid(dt) && 0 <= dt.year <= 9999
    ensures var s := FormatBackup(dt);
      && |s| == 15 && s[8] == '-'
      && s[0..4] == YearText(dt.year) && s[4..6] == Two(dt.month) && s[6..8] == Two(dt.day)
      && s[9..11] == Two(dt.hour) && s[11..13] == Two(dt.minute) && s[13..15] == Two(dt.second)
  {
    var yt := YearText(dt.year);
    var mo, da, ho, mi, se := Two(dt.month), Two(dt.day), Two(dt.hour), Two(dt.minute), Two(dt.second);
    DigitsLength(dt.year, 4);
    DigitsLength(dt.month, 2);
    DigitsLength(dt.day, 2);
    DigitsLength(dt.hour, 2);
    DigitsLength(dt.minute, 2);
    DigitsLength(dt.second, 2);
    BackupLayoutSlices(yt, mo, da, ho, mi, se);
  }

  /** Slicing the backup layout back into its six fields. */
  lemma BackupLayoutSlices(yt: string, mo: string, da: string, ho: string, mi: string, se: string)
    requires |yt| == 4 && |mo| == 2 && |da| == 2 && |ho| == 2 && |mi| == 2 && |se| == 2
    ensures var s := yt + mo + da + "-" + ho + mi + se;
      && |s| == 15 && s[8] == '-'
      && s[0..4] == yt && s[4..6] == mo && s[6..8] == da
      && s[9..11] == ho && s[11..13] == mi && s[13..15] == se
  {
    var s := yt + mo + da + "-" + ho + mi + se;
    assert s[0..4] == yt by {
      assert forall k :: 0 <= k < 4 ==> s[k] == yt[k];
    }
    assert s[4..6] == mo by {
      assert s[4] == mo[0] && s[5] == mo[1];
    }
    assert s[6..8] == da by {
      assert s[6] == da[0] && s[7] == da[1];
    }
    assert s[9..11] == ho by {
      assert s[9] == ho[0] && s[10] == ho[1];
    }
    assert s[11..13] == mi by {
      assert s[11] == mi[0] && s[12] == mi[1];
    }
    assert s[13..15] == se by {
      assert s[13] == se[0] && s[14] == se[1];
    }
  }

  /** The line layout `2006-01-02 15:04:05.000 ` applied to an instant. */
  function LineStamp(t: int): string {
    var dt := FromInstant(t);
    YearText(dt.year) + "-" + Two(dt.month) + "-" + Two(dt.day) + " "
      + Two(dt.hour) + ":" + Two(dt.minute) + ":" + Two(dt.second) + "."
      + Padded(t % MsPerSecond, 3) + " "
  }

  /** For years the layout holds, the line stamp is 24 characters wide and
      ends in the space that separates it from the rest of the line. */
  lemma LineStampWidth(t: int)
    requires 0 <= FromInstant(t).year <= 9999
    ensures |LineStamp(t)| == 24 && LineStamp(t)[23] == ' '
  {
    var dt := FromInstant(t);
    DigitsLength(dt.year, 4);
    DigitsLength(dt.month, 2);
    DigitsLength(dt.day, 2);
    DigitsLength(dt.hour, 2);
    DigitsLength(dt.minute, 2);
    DigitsLength(dt.second, 2);
    DigitsLength(t % MsPerSecond, 3);
  }
}

=== FILE: console.dfy ===
/** The console sink (log/output_console.go): writes each line to standard
    output, optionally painting the level prefix with an ANSI colour. */
module Console {

  import opened Wrappers
  import opened Text
  import opened Levels
  import opened Bytes

  /** A colouring function: the identity, or a wrap in one SGR colour code. */
  datatype Brush = Plain | Colored(code: string)

  const Escape: char := 27 as char

  /** Apply a brush to a text. */
  function Paint(b: Brush, text: string): string {
    match b
    case Plain => text
    case Colored(code) => [Escape] + "[" + code + "m" + text + [Escape] + "[0m"
  }

  /** `newBrush(code)`. */
  function NewBrush(code: string): (b: Brush)
    ensures forall t :: Paint(b, t) == [Escape] + "[" + code + "m" + t + [Escape] + "[0m"
  {
    Colored(code)
  }

  /** `emptyBrush`. */
  function EmptyBrush(): (b: Brush)
    ensures forall t :: Paint(b, t) == t
  {
    Plain
  }

  /** `colorBrushByLevel`: Trace unpainted, then cyan, blue, yellow, red;
      unnamed levels use Info's blue. */
  function BrushFor(l: Level): Brush {
    match l
    case 1 => EmptyBrush()
    case 2 => NewBrush("1;36")
    case 3 => NewBrush("1;34")
    case 4 => NewBrush("1;33")
    case 5 => NewBrush("1;31")
    case _ => NewBrush("1;34")
  }

  /** A console sink: its only setting is whether to colour. */
  datatype Writer = Writer(colorful: bool)

  /** `newConsoleWriter`. */
  function NewWriter(colorful: bool): Writer {
    Writer(colorful)
  }

  /** `consoleWriter.WriteLog`: the text sent to standard output and the count
      the write reports, in bytes of its UTF-8 form. When colouring, the first
      occurrence of the level's prefix is replaced by its painted copy. */
  function WriteLog(w: Writer, p: string, l: Level): (r: (string, int))
    ensures r.1 == |Encode(r.0)| && |r.0| <= r.1 <= 4 * |r.0|
    ensures !w.colorful ==> r.0 == p
  {
    var out := if w.colorful then ReplaceFirst(p, LogPrefix(l), Paint(BrushFor(l), LogPrefix(l))) else p;
    (out, |Encode(out)|)
  }

  /** `consoleWriter.CloseLog`: standard output is not owned, nothing happens. */
  function CloseLog(w: Writer): (w': Writer)
    ensures w' == w
  {
    w
  }

  // ---------------------------------------------------------------------------
  // Properties

  /** The colour table, level by level. */
  lemma BrushTable()
    ensures BrushFor(Trace) == Plain
    ensures BrushFor(Debug) == Colored("1;36") && BrushFor(Info) == Colored("1;34")
    ensures BrushFor(Warn) == Colored("1;33") && BrushFor(Error) == Colored("1;31")
    ensures forall l: Level :: !IsKnown(l) ==> BrushFor(l) == BrushFor(Info)
  {
  }

  /** For a colourful sink and a named level whose prefix first occurs at `i`,
      exactly that occurrence is replaced by its painted copy; everything
      before and after is unchanged. */
  lemma ColoredFirstOccurrence(w: Writer, p: string, l: Level, i: nat)
    requires w.colorful && IsKnown(l) && l != Trace
    requires OccursAt(p, LogPrefix(l), i)
    requires forall j :: 0 <= j < i ==> !OccursAt(p, LogPrefix(l), j)
    ensures WriteLog(w, p, l).0 == p[..i] + Paint(BrushFor(l), LogPrefix(l)) + p[i + |LogPrefix(l)|..]
    ensures |WriteLog(w, p, l).0| == |p| + 11
  {
    var pre := LogPrefix(l);
    assert |pre| == 4;
    assert IndexOf(p, pre) == Some(i);
    assert pre != Paint(BrushFor(l), pre) by {
      assert |Paint(BrushFor(l), pre)| == 15;
    }
  }

  /** Painting the prefix adds 11 bytes to the count: the escape codes are
      ASCII, one byte each, whatever the rest of the line holds. */
  lemma ColoredByteCount(w: Writer, p: string, l: Level, i: nat)
    requires w.colorful && IsKnown(l) && l != Trace
    requires OccursAt(p, LogPrefix(l), i)
    requires forall j :: 0 <= j < i ==> !OccursAt(p, LogPrefix(l), j)
    ensures WriteLog(w, p, l).1 == |Encode(p)| + 11
  {
    var pre := LogPrefix(l);
    var painted := Paint(BrushFor(l), pre);
    ColoredFirstOccurrence(w, p, l, i);
    PrefixBytes(l);
    assert |pre| == 4;
    assert p == p[..i] + pre + p[i + 4..];
    EncodeLength3(p[..i], pre, p[i + 4..]);
    EncodeLength3(p[..i], painted, p[i + 4..]);
  }

  /** A named level's prefix is 4 bytes, and its painted copy 15. */
  lemma PrefixBytes(l: Level)
    requires IsKnown(l) && l != Trace
    ensures |Encode(LogPrefix(l))| == 4
    ensures |Encode(Paint(BrushFor(l), LogPrefix(l)))| == 15
  {
    var pre := LogPrefix(l);
    var painted := Paint(BrushFor(l), pre);
    assert forall k :: 0 <= k < |pre| ==> pre[k] as int < 0x80;
    assert forall k :: 0 <= k < |painted| ==> painted[k] as int < 0x80;
    EncodeAscii(pre);
    EncodeAscii(painted);
  }

  /** A line without the level's prefix, or a Trace line, is written unchanged. */
  lemma UncoloredWhenAbsent(w: Writer, p: string, l: Level)
    requires IsKnown(l)
    requires l == Trace || forall j :: 0 <= j <= |p| ==> !OccursAt(p, LogPrefix(l), j)
    ensures WriteLog(w, p, l).0 == p
  {
    if w.colorful && l != Trace {
      var pre := LogPrefix(l);
      assert |pre| == 4;
      assert pre != Paint(BrushFor(l), pre) by {
        assert |Paint(BrushFor(l), pre)| == 15;
      }
      assert IndexOf(p, pre).None?;
    }
  }

  /** An unnamed level has an empty prefix, which matches at the very start: a
      colourful sink writes an empty blue escape pair before the line. */
  lemma UnknownLevelColoring(w: Writer, p: string, l: Level)
    requires w.colorful && !IsKnown(l)
    ensures WriteLog(w, p, l).0 == [Escape] + "[1;34m" + [Escape] + "[0m" + p
  {
  }
}

=== FILE: level.dfy ===
/** Logging priorities (log/level.go): five ordered levels stored in an 8-bit
    integer, their lower-case names, their one-letter line prefixes, and the
    case-insensitive text parser used for configuration. */
module Levels {

  import opened Wrappers
  import opened Text

  /** Go's `type Level int8`: any 8-bit value, of which 1..5 are named. */
  newtype Level = x: int | -128 <= x < 128

  const Trace: Level := 1
  const Debug: Level := 2
  const Info: Level := 3
  const Warn: Level := 4
  const Error: Level := 5

  /** One of the five named levels. */
  predicate IsKnown(l: Level) {
    Trace <= l <= Error
  }

  /** `Level.String`: the lower-case name, or `Level(n)` for other values. */
  function Name(l: Level): string {
    match l
    case 1 => "trace"
    case 2 => "debug"
    case 3 => "info"
    case 4 => "warn"
    case 5 => "error"
    case _ => "Level(" + Decimal(l as int) + ")"
  }

  /** `Level.MarshalText`: the name as text. */
  function MarshalText(l: Level): string {
    Name(l)
  }

  /** `Level.LogPrefix`: the bracketed letter written before a message. */
  function LogPrefix(l: Level): string {
    match l
    case 1 => "[T] "
    case 2 => "[D] "
    case 3 => "[I] "
    case 4 => "[W] "
    case 5 => "[E] "
    case _ => ""
  }

  /** `Level.unmarshalText`: the exact-match table. The empty text is Info,
      which makes the zero value of a configuration useful. */
  function Lookup(text: string): Option<Level> {
    if text == "trace" || text == "TRACE" then Some(Trace)
    else if text == "debug" || text == "DEBUG" then Some(Debug)
    else if text == "info" || text == "INFO" || text == "" then Some(Info)
    else if text == "warn" || text == "WARN" then Some(Warn)
    else if text == "error" || text == "ERROR" then Some(Error)
    else None
  }

  /** `Level.UnmarshalText`: the table on the text as given, then on its
      lower-cased form; otherwise an "unrecognized level" error. */
  function UnmarshalText(text: string): Result<Level> {
    match Lookup(text)
    case Some(l) => Ok(l)
    case None =>
      match Lookup(ToLower(text))
      case Some(l) => Ok(l)
      case None => Err("unrecognized level: \"" + text + "\"")
  }

  /** `parseLevel`. */
  function ParseLevel(text: string): Result<Level> {
    UnmarshalText(text)
  }

  /** `Level.Enabled`: a threshold `l` lets through every level at or above it. */
  predicate Enabled(l: Level, candidate: Level) {
    candidate >= l
  }

  // ---------------------------------------------------------------------------
  // Properties

  /** The named levels are strictly ordered and numbered from one. */
  lemma LevelOrder()
    ensures Trace as int == 1 && Trace < Debug < Info < Warn < Error
    ensures forall l: Level :: IsKnown(l) <==> l == Trace || l == Debug || l == Info || l == Warn || l == Error
  {
  }

  /** Raising the threshold never lets more levels through. */
  lemma EnabledMonotone(low: Level, high: Level, candidate: Level)
    requires low <= high
    ensures Enabled(high, candidate) ==> Enabled(low, candidate)
    ensures Enabled(low, candidate) <==> low <= candidate
  {
  }

  /** Every named level reads back from its marshalled name. */
  lemma ParseName(l: Level)
    requires IsKnown(l)
    ensures ParseLevel(MarshalText(l)) == Ok(l)
  {
  }

  /** Upper-case names parse too. */
  lemma ParseUpperName(l: Level)
    requires IsKnown(l)
    ensures ParseLevel(UpperName(l)) == Ok(l)
  {
  }

  /** The all-caps spelling of a named level. */
  function UpperName(l: Level): string
    requires IsKnown(l)
  {
    match l
    case 1 => "TRACE"
    case 2 => "DEBUG"
    case 3 => "INFO"
    case 4 => "WARN"
    case 5 => "ERROR"
  }

  /** The name of an unnamed value is `Level(n)`, and it does not parse back:
      marshalling then unmarshalling an unnamed level fails. */
  lemma UnknownNameFails(l: Level)
    requires !IsKnown(l)
    ensures MarshalText(l) == "Level(" + Decimal(l as int) + ")"
    ensures ParseLevel(MarshalText(l)).Err?
  {
    var n := Name(l);
    assert |Decimal(l as int)| >= 1;
    assert |n| >= 8;
    assert |ToLower(n)| == |n|;
  }

  /** Lower-casing twice is lower-casing once. */
  lemma ToLowerIdempotent(s: string)
    ensures ToLower(ToLower(s)) == ToLower(s)
  {
  }

  /** Parsing ignores case: any spelling parses exactly as its lower-case form does. */
  lemma ParseCaseInsensitive(text: string)
    ensures ParseLevel(text).Ok? <==> ParseLevel(ToLower(text)).Ok?
    ensures ParseLevel(text).Ok? ==> ParseLevel(text).value == ParseLevel(ToLower(text)).value
  {
    ToLowerIdempotent(text);
    var lower := ToLower(text);
    if Lookup(text).Some? {
      LookupLower(text);
    }
  }

  /** The dotted capital I folds to `i`, so `İNFO` and `İnfo` parse as Info,
      while the text itself is not in the table. */
  lemma DottedCapitalInfo()
    ensures Lookup("\U{0130}NFO") == None && ParseLevel("\U{0130}NFO") == Ok(Info)
    ensures Lookup("\U{0130}nfo") == None && ParseLevel("\U{0130}nfo") == Ok(Info)
  {
    assert ToLower("\U{0130}NFO") == "info";
    assert ToLower("\U{0130}nfo") == "info";
  }

  /** Lower-casing the table's spellings. */
  lemma TableLower()
    ensures ToLower("TRACE") == "trace" && ToLower("trace") == "trace"
    ensures ToLower("DEBUG") == "debug" && ToLower("debug") == "debug"
    ensures ToLower("INFO") == "info" && ToLower("info") == "info"
    ensures ToLower("WARN") == "warn" && ToLower("warn") == "warn"
    ensures ToLower("ERROR") == "error" && ToLower("error") == "error"
    ensures ToLower("") == ""
  {
  }

  /** The table on its own spellings. */
  lemma LookupTable()
    ensures Lookup("trace") == Some(Trace) && Lookup("TRACE") == Some(Trace)
    ensures Lookup("debug") == Some(Debug) && Lookup("DEBUG") == Some(Debug)
    ensures Lookup("info") == Some(Info) && Lookup("INFO") == Some(Info) && Lookup("") == Some(Info)
    ensures Lookup("warn") == Some(Warn) && Lookup("WARN") == Some(Warn)
    ensures Lookup("error") == Some(Error) && Lookup("ERROR") == Some(Error)
  {
  }

  /** A lower-cased text does not start with a capital letter. */
  lemma LowerInitial(lower: string)
    requires ToLower(lower) == lower
    ensures |lower| == 0 || !('A' <= lower[0] <= 'Z')
  {
    if |lower| > 0 {
      assert lower[0] == LowerChar(lower[0]);
    }
  }

  /** A text found in the table as given is found after lower-casing too, with the same level. */
  lemma LookupLower(text: string)
    requires Lookup(text).Some?
    ensures Lookup(ToLower(text)) == Lookup(text)
  {
    TableLower();
    LookupTable();
    if text == "trace" || text == "TRACE" {
      assert ToLower(text) == "trace";
    } else if text == "debug" || text == "DEBUG" {
      assert ToLower(text) == "debug";
    } else if text == "info" || text == "INFO" {
      assert ToLower(text) == "info";
    } else if text == "" {
    } else if text == "warn" || text == "WARN" {
      assert ToLower(text) == "warn";
    } else {
      assert ToLower(text) == "error";
    }
  }

  /** Exactly the five lower-case names and the empty text are accepted once
      case is ignored; the empty text means Info. */
  lemma ParseAccepts(text: string)
    ensures ParseLevel(text).Ok? <==> ToLower(text) in {"trace", "debug", "info", "warn", "error", ""}
    ensures text == "" ==> ParseLevel(text) == Ok(Info)
    ensures ParseLevel(text).Ok? ==> IsKnown(ParseLevel(text).value)
  {
    ParseCaseInsensitive(text);
    var lower := ToLower(text);
    ToLowerIdempotent(text);
    LowerInitial(lower);
    assert ParseLevel(lower).Ok? <==> Lookup(lower).Some?;
  }

  /** The prefix of a named level is its upper-cased initial in brackets; other values have none. */
  lemma LogPrefixShape(l: Level)
    ensures IsKnown(l) ==> LogPrefix(l) == "[" + [UpperName(l)[0]] + "] "
    ensures IsKnown(l) ==> UpperName(l)[0] as int == Name(l)[0] as int - 32
    ensures !IsKnown(l) ==> LogPrefix(l) == ""
  {
  }
}

=== FILE: logger.dfy ===
/** The logger (log/log.go, log/options.go): its configuration record, the
    rules that update it from an `Option`, and the pipeline of one `log` call
    — level filter, tag extraction, tag filter, line assembly, and hand-off to
    the sink. Go's `fmt` rendering and `runtime.Caller` are parameters. */
module Logging {

  import opened Wrappers
  import opened Text
  import opened CivilTime
  import opened Levels
  import opened Tags
  import Paths
  import Console
  import RotateFile
  import Bytes

  /** Where lines go: the process's standard output (the default, which does
      not implement the package's `writer` interface), a console sink, or a
      rotating file sink. */
  datatype Sink = Stdout | ConsoleSink(console: Console.Writer) | FileSink(file: RotateFile.Writer)

  /** The sink implements `writer` (`WriteLog`/`CloseLog`). */
  predicate IsWriter(s: Sink) {
    !s.Stdout?
  }

  /** `Logger`: the sink (absent in the zero value), the threshold, the tag
      filter, and the caller-prefix settings. */
  datatype Logger = Logger(out: Option<Sink>, level: Level, tags: set<string>, callerEnabled: bool, callerSkip: int)

  /** `Option`. */
  datatype Opt = Opt(
    logPath: string,
    logLevel: string,
    tags: string,
    maxDays: int,
    disableLogColor: bool,
    disableCaller: bool,
    callerSkip: int)

  /** A value passed to a logging call: a Go string, or any other value. */
  datatype Arg = Str(s: string) | Other(id: int)

  /** The foreign services a `log` call uses: `fmt.Sprintf`, `fmt.Sprint`, and
      `runtime.Caller` (the file path and line of a stack frame, if any). */
  datatype Env = Env(
    sprintf: (string, seq<Arg>) -> string,
    sprint: seq<Arg> -> string,
    caller: int -> Option<(string, int)>)

  /** `&Logger{}`. */
  function Zero(): Logger {
    Logger(None, 0, {}, false, 0)
  }

  // ---------------------------------------------------------------------------
  // Configuration

  /** The sink an option selects: a console for `""` or `"console"`, otherwise
      a daily-rotating file at that path with its task started. */
  function NewSink(opt: Opt): (s: Sink)
    ensures opt.logPath == "" || opt.logPath == "console" <==> s.ConsoleSink?
    ensures s.ConsoleSink? ==> s.console.colorful == !opt.disableLogColor
    ensures s.FileSink? ==> s.file.cfg == RotateFile.Config(opt.logPath, RotateFile.Daily, opt.maxDays)
    ensures s.FileSink? ==> !s.file.fileOpen && s.file.scheduled
    ensures s.FileSink? ==> forall fs :: RotateFile.Inv(s.file, fs)
  {
    if opt.logPath == "" || opt.logPath == "console" then
      ConsoleSink(Console.NewWriter(!opt.disableLogColor))
    else
      FileSink(RotateFile.Init(RotateFile.New(RotateFile.Config(opt.logPath, RotateFile.Daily, opt.maxDays))))
  }

  /** `CloseLog` on a sink that implements `writer`. */
  function CloseSink(s: Sink, faults: RotateFile.Faults): (s': Sink)
    requires IsWriter(s)
    ensures s'.ConsoleSink? ==> s' == s
    ensures s'.FileSink? ==> s.FileSink? && s'.file.cfg == s.file.cfg
    ensures s'.FileSink? ==> !s'.file.fileOpen && !s'.file.done && !s'.file.scheduled
  {
    match s
    case ConsoleSink(c) => ConsoleSink(Console.CloseLog(c))
    case FileSink(f) => FileSink(RotateFile.CloseLog(f, faults))
  }

  /** `Logger.WithOptions` and `Option.apply`: the updated logger, and the
      previous sink as `CloseLog` left it when it was replaced. */
  function WithOptions(l: Logger, opt: Opt, faults: RotateFile.Faults): (r: (Logger, Option<Sink>))
    ensures var replace := l.out.None? || opt.logPath != "";
      && (replace ==> r.0.out == Some(NewSink(opt)))
      && (!replace ==> r.0.out == l.out)
      && (r.1.Some? <==> replace && l.out.Some? && IsWriter(l.out.value))
    ensures r.1.Some? ==> r.1 == Some(CloseSink(l.out.value, faults))
    ensures opt.logLevel == "" || ParseLevel(opt.logLevel).Err? ==> r.0.level == l.level
    ensures ParseLevel(opt.logLevel).Ok? && opt.logLevel != "" ==> r.0.level == ParseLevel(opt.logLevel).value
    ensures r.0.tags == ParseTags(opt.tags)
    ensures r.0.callerEnabled <==> !opt.disableCaller
    ensures r.0.callerSkip == if opt.callerSkip > 0 then opt.callerSkip else l.callerSkip
  {
    var replace := l.out.None? || opt.logPath != "";
    var closed := if replace && l.out.Some? && IsWriter(l.out.value) then Some(CloseSink(l.out.value, faults)) else None;
    var out := if replace then Some(NewSink(opt)) else l.out;
    var level := if opt.logLevel != "" && ParseLevel(opt.logLevel).Ok? then ParseLevel(opt.logLevel).value else l.level;
    var skip := if opt.callerSkip > 0 then opt.callerSkip else l.callerSkip;
    (Logger(out, level, ParseTags(opt.tags), !opt.disableCaller, skip), closed)
  }

  /** `New`: apply the first option, if any, then default the sink to
      standard output and a zero level to Trace. */
  function New(opt: Option<Opt>): (l: Logger)
    ensures l.out.Some? && l.level != 0
  {
    var applied := if opt.Some? then WithOptions(Zero(), opt.value, RotateFile.NoFaults()).0 else Zero();
    applied.(out := if applied.out.None? then Some(Stdout) else applied.out,
             level := if applied.level == 0 then Trace else applied.level)
  }

  /** `clone`: the same sink, threshold and caller settings, and no tag filter. */
  function Clone(l: Logger): (c: Logger)
    ensures c.out == l.out && c.level == l.level
    ensures c.callerEnabled == l.callerEnabled && c.callerSkip == l.callerSkip
    ensures c.tags == {}
  {
    Logger(l.out, l.level, {}, l.callerEnabled, l.callerSkip)
  }

  // ---------------------------------------------------------------------------
  // One log call

  /** The placeholder test of `log`: as many `%` as twice the `%%` pairs. */
  predicate NoVerbs(msg: string) {
    Count(msg, "%") - 2 * Count(msg, "%%") == 0
  }

  /** The format string is read as a tag and the first argument as the message. */
  predicate TakesTag(msg: string, args: seq<Arg>) {
    |args| > 0 && NoVerbs(msg)
  }

  /** `getMessage`: the template alone, the formatted template, a lone string
      argument, or the arguments printed one after another. */
  function GetMessage(env: Env, template: string, args: seq<Arg>): string {
    if |args| == 0 then template
    else if template != "" then env.sprintf(template, args)
    else if |args| == 1 && args[0].Str? then args[0].s
    else env.sprint(args)
  }

  /** The last element of a slash-separated path (`path.Split`'s file part). */
  function FileOf(path: string): (f: string)
    ensures |f| <= |path| && path[|path| - |f|..] == f
    ensures '/' !in f
    ensures |f| == |path| || path[|path| - |f| - 1] == '/'
  {
    match Paths.LastSlash(path)
    case None => path
    case Some(k) => path[k + 1..]
  }

  /** `getCallerPrefix`: `[file:line] ` for the frame `skip` levels up, or
      `[???:0] ` when there is no such frame. */
  function CallerPrefix(env: Env, skip: int): string {
    match env.caller(skip)
    case None => "[???:0] "
    case Some((file, line)) => "[" + FileOf(file) + ":" + Decimal(line) + "] "
  }

  /** The message part of a `log` call: tag extraction, the tag filter, and
      `getMessage`; `None` when the tag is rejected. */
  function Message(tags: set<string>, msg: string, args: seq<Arg>, env: Env): (r: Option<string>)
    requires TakesTag(msg, args) ==> args[0].Str?
  {
    var tag := if TakesTag(msg, args) then msg else "";
    var text := if TakesTag(msg, args) then args[0].s else msg;
    var rest := if TakesTag(msg, args) then args[1..] else args;
    var (pre, show) := GetTag(tags, tag);
    if !show then None else Some(GetMessage(env, pre + text, rest))
  }

  /** The line `log` writes after the timestamp text `stamp` it formats from
      the clock, or `None` when the call is filtered out. */
  function Render(l: Logger, level: Level, offset: int, msg: string, args: seq<Arg>, stamp: string, env: Env): (r: Option<string>)
    requires Enabled(l.level, level) && TakesTag(msg, args) ==> args[0].Str?
  {
    if !Enabled(l.level, level) then None
    else match Message(l.tags, msg, args, env)
      case None => None
      case Some(m) =>
        Some(stamp + LogPrefix(level) + CallerPart(l, offset, env) + m + "\n")
  }

  /** The caller prefix when it is switched on, otherwise nothing. */
  function CallerPart(l: Logger, offset: int, env: Env): string {
    if l.callerEnabled then CallerPrefix(env, 3 + l.callerSkip + offset) else ""
  }

  /** The caller prefix is `[`, the file part of the frame's path, `:`, the
      frame's line number in decimal and `] `; a missing frame reads as file
      `???` and line 0. */
  lemma CallerPrefixParts(env: Env, skip: int)
    ensures var fr := if env.caller(skip).Some? then env.caller(skip).value else ("???", 0);
      var f := FileOf(fr.0);
      var p := CallerPrefix(env, skip);
      && |p| >= |f| + 5
      && p[0] == '[' && p[1..1 + |f|] == f && p[1 + |f|] == ':' && p[|p| - 2..] == "] "
      && DenotesInt(p[2 + |f|..|p| - 2], fr.1)
  {
    var fr := if env.caller(skip).Some? then env.caller(skip).value else ("???", 0);
    var f := FileOf(fr.0);
    var d := Decimal(fr.1);
    DecimalDenotes(fr.1);
    CallerPrefixOfFrame(env, skip);
    BracketSlices(f, d);
  }

  /** The caller prefix is built from the frame, or from `???` and 0 when
      there is none. */
  lemma CallerPrefixOfFrame(env: Env, skip: int)
    ensures var fr := if env.caller(skip).Some? then env.caller(skip).value else ("???", 0);
      CallerPrefix(env, skip) == "[" + FileOf(fr.0) + ":" + Decimal(fr.1) + "] "
  {
    if env.caller(skip).None? {
      assert Paths.LastSlash("???") == None;
      assert FileOf("???") == "???";
      assert Decimal(0) == "0";
    }
  }

  /** Where the two parts sit in `[f:d] `. */
  lemma BracketSlices(f: string, d: string)
    ensures var p := "[" + f + ":" + d + "] ";
      && |p| == |f| + |d| + 4
      && p[0] == '[' && p[1..1 + |f|] == f && p[1 + |f|] == ':'
      && p[2 + |f|..|p| - 2] == d && p[|p| - 2..] == "] "
  {
    var p := "[" + f + ":" + d + "] ";
    assert p[1..1 + |f|] == f;
    assert p[2 + |f|..|p| - 2] == d;
  }

  /** A call without arguments writes its format string as it is, `%` verbs
      included: formatting happens only when there are arguments. */
  lemma VerbatimWithoutArgs(tags: set<string>, msg: string, env: Env)
    ensures Message(tags, msg, [], env).Some?
    ensures Message(tags, msg, [], env).value == msg
  {
  }

  /** An enabled call whose tag passes writes timestamp, level prefix, caller
      part, message and newline. */
  lemma RenderWritten(l: Logger, level: Level, offset: int, msg: string, args: seq<Arg>, stamp: string, env: Env)
    requires Enabled(l.level, level) && TakesTag(msg, args) ==> args[0].Str?
    requires Enabled(l.level, level)
    requires Message(l.tags, msg, args, env).Some?
    ensures var r := Render(l, level, offset, msg, args, stamp, env);
      r.Some? && r.value == stamp + LogPrefix(level) + CallerPart(l, offset, env) + Message(l.tags, msg, args, env).value + "\n"
  {
  }

  /** What a sink does with a line: its new state, the filesystem after, and
      the text written to standard output. */
  datatype Delivery = Delivery(sink: Sink, fs: RotateFile.FileSystem, stdout: string)

  /** Hand a line to the sink: `WriteLog` for a `writer`, `Write` otherwise.
      Errors are dropped. */
  function Dispatch(s: Sink, line: string, level: Level, fs: RotateFile.FileSystem, now: int, faults: RotateFile.Faults): (d: Delivery)
    requires s.FileSink? ==> RotateFile.Inv(s.file, fs)
    ensures s.Stdout? ==> d == Delivery(s, fs, line)
    ensures s.ConsoleSink? ==> d.sink == s && d.fs == fs && d.stdout == Console.WriteLog(s.console, line, level).0
    ensures s.FileSink? ==> d.sink.FileSink? && d.stdout == "" && RotateFile.Inv(d.sink.file, d.fs)
  {
    match s
    case Stdout => Delivery(s, fs, line)
    case ConsoleSink(c) => Delivery(s, fs, Console.WriteLog(c, line, level).0)
    case FileSink(f) =>
      var (step, _) := RotateFile.WriteLog(f, fs, Bytes.Encode(line), now, faults);
      Delivery(FileSink(step.w), step.fs, "")
  }

  /** `Logger.log`: the logger after the call (its file sink may have opened
      its file), the filesystem, and the standard-output text. */
  function Log(l: Logger, level: Level, offset: int, msg: string, args: seq<Arg>, now: int, env: Env,
               fs: RotateFile.FileSystem, faults: RotateFile.Faults): (r: (Logger, RotateFile.FileSystem, string))
    requires l.out.Some?
    requires Enabled(l.level, level) && TakesTag(msg, args) ==> args[0].Str?
    requires l.out.value.FileSink? ==> RotateFile.Inv(l.out.value.file, fs)
    ensures Render(l, level, offset, msg, args, LineStamp(now), env).None? ==> r == (l, fs, "")
    ensures r.0.level == l.level && r.0.tags == l.tags && r.0.out.Some?
    ensures l.out.value.Stdout? ==> r.1 == fs && (r.2 == match Render(l, level, offset, msg, args, LineStamp(now), env) case None => "" case Some(line) => line)
  {
    match Render(l, level, offset, msg, args, LineStamp(now), env)
    case None => (l, fs, "")
    case Some(line) =>
      var d := Dispatch(l.out.value, line, level, fs, now, faults);
      (l.(out := Some(d.sink)), d.fs, d.stdout)
  }

  // ---------------------------------------------------------------------------
  // Properties

  /** Reading `%` signs left to right, every one is the first of a `%%` pair:
      the message has no formatting verb. */
  predicate OnlyEscapedPercents(s: string)
    decreases |s|
  {
    if |s| == 0 then true
    else if s[0] != '%' then OnlyEscapedPercents(s[1..])
    else |s| >= 2 && s[1] == '%' && OnlyEscapedPercents(s[2..])
  }

  /** `Count(s, "%")` is never below twice `Count(s, "%%")`, and equals it
      exactly when every `%` is half of an escaped pair. */
  lemma {:induction false} PercentBalance(s: string)
    ensures Count(s, "%") >= 2 * Count(s, "%%")
    ensures Count(s, "%") == 2 * Count(s, "%%") <==> OnlyEscapedPercents(s)
    decreases |s|
  {
    if |s| == 0 {
    } else if s[0] != '%' {
      PercentBalance(s[1..]);
      assert !("%" <= s);
      assert |s| >= 2 ==> !("%%" <= s);
      if |s| == 1 {
        assert Count(s[1..], "%%") == 0;
      }
    } else if |s| == 1 {
      assert s == "%";
      assert Count(s[1..], "%") == 0;
    } else if s[1] == '%' {
      PercentBalance(s[2..]);
      assert "%" <= s && "%%" <= s;
      assert s[1..][1..] == s[2..];
      assert "%" <= s[1..];
    } else {
      PercentBalance(s[1..]);
      assert "%" <= s;
      assert !("%%" <= s);
    }
  }

  /** The placeholder test accepts exactly the messages without a formatting verb. */
  lemma NoVerbsMeansEscapedOnly(msg: string)
    ensures NoVerbs(msg) <==> OnlyEscapedPercents(msg)
  {
    PercentBalance(msg);
  }

  /** A call is dropped exactly when its level is below the threshold, or it
      carries a non-empty tag that a non-empty filter does not list. */
  lemma RenderDropped(l: Logger, level: Level, offset: int, msg: string, args: seq<Arg>, stamp: string, env: Env)
    requires Enabled(l.level, level) && TakesTag(msg, args) ==> args[0].Str?
    ensures Render(l, level, offset, msg, args, stamp, env).None? <==>
      !Enabled(l.level, level) || (TakesTag(msg, args) && msg != "" && l.tags != {} && msg !in l.tags)
  {
  }

  /** The level check comes before the tag is read: a call below the
      threshold writes nothing and leaves everything as it was, even when its
      first argument is not a string and would have failed as a tag. */
  lemma DisabledSkipsTagCheck(now: int, env: Env, fs: RotateFile.FileSystem, faults: RotateFile.Faults)
    ensures var l := Logger(Some(Stdout), Info, {}, false, 0);
      TakesTag("x", [Other(42)]) && !Enabled(l.level, Debug)
      && Log(l, Debug, 0, "x", [Other(42)], now, env, fs, faults) == (l, fs, "")
  {
    assert Count("x", "%%") == 0;
    assert Count("x", "%") == 0 by {
      assert "x"[0] != "%"[0];
      assert "x"[1..] == [];
    }
  }

  /** A written line starts with the timestamp followed by the level's
      prefix, and ends with a newline. */
  lemma RenderShape(l: Logger, level: Level, offset: int, msg: string, args: seq<Arg>, stamp: string, env: Env)
    requires Enabled(l.level, level) && TakesTag(msg, args) ==> args[0].Str?
    requires Render(l, level, offset, msg, args, stamp, env).Some?
    ensures var line := Render(l, level, offset, msg, args, stamp, env).value;
      var n := |stamp| + |LogPrefix(level)|;
      && |line| > n
      && line[..|stamp|] == stamp
      && line[|stamp|..n] == LogPrefix(level)
      && line[|line| - 1] == '\n'
  {
    var line := Render(l, level, offset, msg, args, stamp, env).value;
    var pre := LogPrefix(level);
    var rest := line[|stamp| + |pre|..];
    assert line == stamp + pre + rest;
  }

  /** For the years the layout holds, the line `log` writes at instant `now`
      opens with the 24-character timestamp of that instant. */
  lemma LoggedLineStamp(l: Logger, level: Level, offset: int, msg: string, args: seq<Arg>, now: int, env: Env)
    requires Enabled(l.level, level) && TakesTag(msg, args) ==> args[0].Str?
    requires 0 <= FromInstant(now).year <= 9999
    requires Render(l, level, offset, msg, args, LineStamp(now), env).Some?
    ensures var line := Render(l, level, offset, msg, args, LineStamp(now), env).value;
      |line| > 24 && line[..24] == LineStamp(now)
  {
    LineStampWidth(now);
    RenderShape(l, level, offset, msg, args, LineStamp(now), env);
  }

  /** A tag call: the format string names the tag and the lone argument is the
      message, written after the tag's prefix without formatting. */
  lemma TaggedMessage(tags: set<string>, tag: string, text: string, env: Env)
    requires NoVerbs(tag) && tag != ""
    requires tags == {} || tag in tags
    ensures Message(tags, tag, [Str(text)], env) == Some("[Tag:" + tag + "] " + text)
  {
    var args := [Str(text)];
    assert TakesTag(tag, args);
    assert args[1..] == [];
  }

  /** A tag call whose tag the filter rejects writes nothing. */
  lemma RejectedTagMessage(tags: set<string>, tag: string, text: string, env: Env)
    requires NoVerbs(tag) && tag != ""
    requires tags != {} && tag !in tags
    ensures Message(tags, tag, [Str(text)], env) == None
  {
  }

  /** A format string with a verb is formatted with all the arguments and
      carries no tag prefix. */
  lemma FormattedMessage(tags: set<string>, msg: string, args: seq<Arg>, env: Env)
    requires |args| > 0 && !NoVerbs(msg)
    ensures Message(tags, msg, args, env) == Some(env.sprintf(msg, args))
  {
    assert msg != "";
    assert "" + msg == msg;
  }

  /** The line of an enabled call without the caller prefix: timestamp, level
      prefix, message, newline. */
  lemma LineOfMessage(l: Logger, level: Level, offset: int, msg: string, args: seq<Arg>, stamp: string, env: Env)
    requires Enabled(l.level, level) && TakesTag(msg, args) ==> args[0].Str?
    requires Enabled(l.level, level) && !l.callerEnabled
    requires Message(l.tags, msg, args, env).Some?
    ensures var r := Render(l, level, offset, msg, args, stamp, env);
      r.Some? && r.value == stamp + LogPrefix(level) + Message(l.tags, msg, args, env).value + "\n"
  {
    RenderWritten(l, level, offset, msg, args, stamp, env);
    var pre, m := LogPrefix(level), Message(l.tags, msg, args, env).value;
    assert stamp + pre + "" + m + "\n" == stamp + pre + m + "\n";
  }

  /** With the caller prefix on and no frame found, `[???:0] ` follows the level's prefix. */
  lemma UnknownCallerLine(l: Logger, level: Level, offset: int, msg: string, stamp: string, env: Env)
    requires Enabled(l.level, level) && l.callerEnabled
    requires env.caller(3 + l.callerSkip + offset).None?
    ensures var r := Render(l, level, offset, msg, [], stamp, env);
      r.Some? && r.value == stamp + LogPrefix(level) + "[???:0] " + msg + "\n"
  {
    assert Message(l.tags, msg, [], env) == Some(msg) by {
      assert "" + msg == msg;
    }
    LineWithCaller(l, level, offset, msg, [], stamp, env);
  }

  /** The line of an enabled call with the caller prefix on: timestamp, level
      prefix, caller prefix, message, newline. */
  lemma LineWithCaller(l: Logger, level: Level, offset: int, msg: string, args: seq<Arg>, stamp: string, env: Env)
    requires Enabled(l.level, level) && TakesTag(msg, args) ==> args[0].Str?
    requires Enabled(l.level, level) && l.callerEnabled
    requires Message(l.tags, msg, args, env).Some?
    ensures var r := Render(l, level, offset, msg, args, stamp, env);
      r.Some? && r.value == stamp + LogPrefix(level) + CallerPrefix(env, 3 + l.callerSkip + offset) + Message(l.tags, msg, args, env).value + "\n"
  {
    var m := Message(l.tags, msg, args, env).value;
    var caller := CallerPart(l, offset, env);
    RenderWritten(l, level, offset, msg, args, stamp, env);
    assert caller == CallerPrefix(env, 3 + l.callerSkip + offset);
    assert Render(l, level, offset, msg, args, stamp, env).value == stamp + LogPrefix(level) + caller + m + "\n";
  }

  /** A clone drops the tag filter: every tagged call it sees passes the tag check. */
  lemma CloneAcceptsAllTags(l: Logger, tag: string)
    ensures GetTag(Clone(l).tags, tag).1
    ensures Clone(Clone(l)) == Clone(l)
  {
  }

  /** `New()` without options writes to standard output at Trace with no tag
      filter and no caller prefix. */
  lemma NewDefaults()
    ensures New(None) == Logger(Some(Stdout), Trace, {}, false, 0)
  {
  }

  /** `New(opt)` has the option's sink, and Trace unless the option names a level. */
  lemma NewWithOption(opt: Opt)
    ensures New(Some(opt)).out == Some(NewSink(opt))
    ensures opt.logLevel == "" || ParseLevel(opt.logLevel).Err? ==> New(Some(opt)).level == Trace
    ensures ParseLevel(opt.logLevel).Ok? && opt.logLevel != "" ==> New(Some(opt)).level == ParseLevel(opt.logLevel).value
    ensures New(Some(opt)).callerEnabled == !opt.disableCaller
  {
    ParseAccepts(opt.logLevel);
  }

  /** Applying the same option twice configures the logger as applying it once. */
  lemma WithOptionsIdempotent(l: Logger, opt: Opt, f1: RotateFile.Faults, f2: RotateFile.Faults)
    ensures WithOptions(WithOptions(l, opt, f1).0, opt, f2).0 == WithOptions(l, opt, f1).0
  {
  }

  /** Switching to a file path closes a previous file sink and installs a
      fresh daily writer that holds no file yet. */
  lemma SwitchToFile(l: Logger, opt: Opt, faults: RotateFile.Faults)
    requires l.out.Some? && l.out.value.FileSink?
    requires opt.logPath != "" && opt.logPath != "console"
    ensures var r := WithOptions(l, opt, faults);
      && r.1.Some? && r.1.value.FileSink? && !r.1.value.file.fileOpen && !r.1.value.file.done
      && r.0.out.value.FileSink? && r.0.out.value.file.cfg.fileName == opt.logPath
      && r.0.out.value.file.cfg.mode == RotateFile.Daily && !r.0.out.value.file.fileOpen
  {
  }

  /** A filtered call changes nothing; a written call to standard output
      writes the rendered line verbatim. */
  lemma LogToStdout(l: Logger, level: Level, msg: string, now: int, env: Env, fs: RotateFile.FileSystem, faults: RotateFile.Faults)
    requires l.out == Some(Stdout) && Enabled(l.level, level) && !l.callerEnabled
    ensures Log(l, level, 0, msg, [], now, env, fs, faults) == (l, fs, LineStamp(now) + LogPrefix(level) + msg + "\n")
  {
    assert "" + msg == msg;
    assert Message(l.tags, msg, [], env) == Some(msg);
    LineOfMessage(l, level, 0, msg, [], LineStamp(now), env);
  }

  /** A call through an open file sink appends the rendered line to the log file. */
  lemma LogToOpenFile(l: Logger, level: Level, offset: int, msg: string, args: seq<Arg>, now: int, env: Env, fs: RotateFile.FileSystem)
    requires l.out.Some? && l.out.value.FileSink?
    requires Enabled(l.level, level) && TakesTag(msg, args) ==> args[0].Str?
    requires RotateFile.Inv(l.out.value.file, fs) && l.out.value.file.fileOpen
    requires Render(l, level, offset, msg, args, LineStamp(now), env).Some?
    ensures var name := l.out.value.file.cfg.fileName;
      var r := Log(l, level, offset, msg, args, now, env, fs, RotateFile.NoFaults());
      && r.2 == ""
      && r.1 == fs[name := fs[name].(data := fs[name].data + Bytes.Encode(Render(l, level, offset, msg, args, LineStamp(now), env).value))]
  {
    var line := Render(l, level, offset, msg, args, LineStamp(now), env).value;
    RotateFile.WriteLogOpen(l.out.value.file, fs, Bytes.Encode(line), now, RotateFile.NoFaults());
  }
}

=== FILE: paths.dfy ===
/** Go's `path/filepath` helpers on slash-separated paths, as the rotating file
    writer uses them to derive backup names and the directory it prunes. */
module Paths {

  import opened Wrappers

  /** The index of the last `/` in `s`, if any. */
  function LastSlash(s: string): (r: Option<nat>)
    ensures r.Some? ==> r.value < |s| && s[r.value] == '/'
    ensures r.Some? ==> forall k :: r.value < k < |s| ==> s[k] != '/'
    ensures r.None? ==> forall k :: 0 <= k < |s| ==> s[k] != '/'
    decreases |s|
  {
    if |s| == 0 then None
    else if s[|s| - 1] == '/' then Some(|s| - 1)
    else LastSlash(s[..|s| - 1])
  }

  /** `s` without its trailing slashes. */
  function TrimTrailingSlashes(s: string): (r: string)
    ensures r <= s
    ensures |r| == 0 || r[|r| - 1] != '/'
    ensures forall k :: |r| <= k < |s| ==> s[k] == '/'
    decreases |s|
  {
    if |s| > 0 && s[|s| - 1] == '/' then TrimTrailingSlashes(s[..|s| - 1]) else s
  }

  /** `filepath.Base`: the last element of the path. */
  function Base(s: string): (r: string)
    ensures r == "/" || r == "." || '/' !in r
  {
    if s == "" then "."
    else
      var t := TrimTrailingSlashes(s);
      if t == "" then "/"
      else match LastSlash(t)
        case None => t
        case Some(k) => t[k + 1..]
  }

  /** `filepath.Dir`: everything up to the last separator. Go also applies
      `filepath.Clean` to the result; on names already in clean form (no
      repeated or trailing separators, no `.` or `..` elements) that is the
      identity, which this model assumes. */
  function Dir(s: string): string {
    match LastSlash(s)
    case None => "."
    case Some(k) => if k == 0 then "/" else s[..k]
  }

  /** `filepath.Ext`: the suffix starting at the final dot of the final element,
      or the empty string when that element has no dot. */
  function Ext(s: string): (r: string)
    ensures |r| <= |s| && s[|s| - |r|..] == r
    ensures r == "" || (r[0] == '.' && '/' !in r)
    decreases |s|
  {
    if |s| == 0 || s[|s| - 1] == '/' then ""
    else if s[|s| - 1] == '.' then "."
    else
      var e := Ext(s[..|s| - 1]);
      if e == "" then "" else e + [s[|s| - 1]]
  }

  /** `filepath.Join(d, b)` for a directory produced by `Dir` and a single
      non-empty element `b`. */
  function JoinPath(d: string, b: string): string {
    if d == "" || d == "." then b
    else if d[|d| - 1] == '/' then d + b
    else d + "/" + b
  }

  /** A single slash-free element joined under any directory is that path's base. */
  lemma BaseJoinPath(d: string, b: string)
    requires b != "" && '/' !in b
    ensures Base(JoinPath(d, b)) == b
  {
    var p := JoinPath(d, b);
    assert p[|p| - |b|..] == b;
    assert TrimTrailingSlashes(p) == p by {
      assert p[|p| - 1] == b[|b| - 1];
      assert b[|b| - 1] in b;
    }
    LastSlashOfJoin(d, b);
  }

  /** The last separator of `JoinPath(d, b)` sits just before `b`. */
  lemma LastSlashOfJoin(d: string, b: string)
    requires b != "" && '/' !in b
    ensures var p := JoinPath(d, b);
      match LastSlash(p)
      case None => p == b
      case Some(k) => k + 1 == |p| - |b|
  {
    var p := JoinPath(d, b);
    var pre := p[..|p| - |b|];
    assert p == pre + b;
    assert forall k :: |pre| <= k < |p| ==> p[k] != '/' by {
      forall k | |pre| <= k < |p| ensures p[k] != '/' {
        assert p[k] == b[k - |pre|];
        assert b[k - |pre|] in b;
      }
    }
    assert |pre| == 0 || p[|pre| - 1] == '/';
  }

  /** A backup placed with `JoinPath` stays in the directory of the log file:
      for a directory in clean form, `Dir` of the joined path gives it back. */
  lemma DirJoinPath(d: string, b: string)
    requires b != "" && '/' !in b
    requires d == "." || d == "/" || (d != "" && d[|d| - 1] != '/')
    ensures Dir(JoinPath(d, b)) == d
  {
    var p := JoinPath(d, b);
    LastSlashOfJoin(d, b);
    if d == "." {
      assert p == b;
      assert '/' !in p;
    } else if d == "/" {
      assert p == "/" + b;
    } else {
      assert p == d + "/" + b;
      assert p[..|d|] == d;
    }
  }
}

=== FILE: pkcs5.dfy ===
/** PKCS#5/PKCS#7 block padding as crypt/aes.go applies it around AES: pad to a
    whole number of blocks with copies of the pad length, and strip as many
    bytes as the last byte says (section 6.1.1 of RFC 8018, section 10.3 of
    RFC 2315). */
module Pkcs5 {

  import opened Arith
  import opened Bytes

  /** Go's `byte(n)` conversion: the low eight bits. */
  function ToByte(n: nat): byte {
    (n % 256) as byte
  }

  /** The pad length for `n` bytes and block size `bs`: from 1 to `bs`. */
  function PadLength(n: nat, bs: int): (p: int)
    requires bs > 0
    ensures 1 <= p <= bs
    ensures (n + p) % bs == 0
  {
    var p := bs - n % bs;
    ModUnique(n + p, bs, n / bs + 1, 0);
    p
  }

  /** `pkcs5Padding`: append `p` copies of `byte(p)`. A block size that is not
      positive makes the source panic (a division by zero, or a negative
      repeat count). */
  function Pad(data: seq<byte>, bs: int): (r: seq<byte>)
    requires bs > 0
    ensures |r| % bs == 0 && |data| < |r| <= |data| + bs
    ensures r[..|data|] == data
    ensures forall k :: |data| <= k < |r| ==> r[k] == ToByte(|r| - |data|)
  {
    var p := PadLength(|data|, bs);
    data + seq(p, _ => ToByte(p))
  }

  /** `pkcs5UnPadding`: drop as many trailing bytes as the last byte's value.
      The source indexes the last byte and slices without checks, so it
      panics on empty input or a count above the length. */
  function Unpad(data: seq<byte>): (r: seq<byte>)
    requires |data| > 0
    requires data[|data| - 1] as int <= |data|
    ensures |r| == |data| - data[|data| - 1] as int
    ensures data[..|r|] == r
  {
    data[..|data| - data[|data| - 1] as int]
  }

  /** Round trip for the block sizes one byte can count. */
  lemma UnpadPad(data: seq<byte>, bs: int)
    requires 1 <= bs <= 255
    ensures var padded := Pad(data, bs);
      |padded| > 0 && padded[|padded| - 1] as int <= |padded| && Unpad(padded) == data
  {
    var padded := Pad(data, bs);
    var p := PadLength(|data|, bs);
    assert padded[|padded| - 1] == ToByte(p);
    assert ToByte(p) as int == p;
  }

  /** At block size 256 an input already a whole number of blocks gets a full
      block of pad bytes whose value wraps to 0, and unpadding then strips
      nothing: the round trip fails above the range a byte can count. */
  lemma WrappedPadLength(data: seq<byte>)
    requires |data| % 256 == 0
    ensures var padded := Pad(data, 256);
      |padded| == |data| + 256 && padded[|padded| - 1] == 0 && Unpad(padded) == padded && Unpad(padded) != data
  {
    var padded := Pad(data, 256);
    assert PadLength(|data|, 256) == 256;
    assert padded[|padded| - 1] == ToByte(256);
  }

  /** Unpadding reads only the last byte: any content before it, pad-shaped
      or not, is kept up to the count it names. */
  lemma UnpadIgnoresPadContents(body: seq<byte>, junk: seq<byte>, n: byte)
    requires n as int == |junk| + 1
    ensures Unpad(body + junk + [n]) == body
  {
    var data := body + junk + [n];
    assert data[|data| - 1] == n;
    assert data[..|body|] == body;
  }
}

=== FILE: rotatefile.dfy ===
/** The rotating file sink (log/output_rotatefile.go) as a state record over an
    abstract filesystem: a map from path to entry. Every operating-system call
    that can fail takes its outcome from a `Faults` record, and the current
    time is an explicit instant (milliseconds of local time). The pruning pass
    compares times in nanoseconds, as Go's `time.Time` does. */
module RotateFile {

  import opened Wrappers
  import opened Text
  import opened Paths
  import opened CivilTime
  import opened Arith
  import opened Bytes

  const DefaultLogFileName: string := "file.log"

  /** Permission bits `0o600` given to a log file created from nothing. */
  const NewFilePerm: int := 384

  /** Permission bits `0o755` given to the directories `MkdirAll` creates. */
  const DirPerm: int := 493

  /** The pruning pass removes a backup only when it is older than the
      retention window by more than this many milliseconds. */
  const CutoffSkewMs: int := 5

  const Two63: int := 0x8000_0000_0000_0000
  const Two64: int := 0x1_0000_0000_0000_0000
  const NsPerDay: int := 86_400_000_000_000

  /** The largest retention, in days, whose window fits a `time.Duration`
      (a signed 64-bit count of nanoseconds). */
  const MaxRetentionDays: int := 106751

  /** `rotateFileModeNone` ("") or `rotateFileModeDaily` ("daily"). */
  datatype Mode = NoRotation | Daily

  datatype Config = Config(fileName: string, mode: Mode, maxDays: int)

  /** A filesystem entry: a regular file holds bytes; permission bits are
      opaque integers. */
  datatype Entry = File(data: seq<byte>, perm: int) | Directory(perm: int)

  /** Every entry by its path; an entry beneath a directory `d` has a path
      starting with `d/`. */
  type FileSystem = map<string, Entry>

  /** The outcome of each operating-system call an operation may make:
      `statFails` is a `Stat` error other than "does not exist",
      `appendFails` an error opening the existing file for append,
      `createFails` an error creating or truncating the file, and a failing
      `writeFails` write stores the first `shortWrite` bytes (at most all of
      them) before it reports the error, as `os.File.Write` may. */
  datatype Faults = Faults(
    statFails: bool,
    mkdirFails: bool,
    renameFails: bool,
    createFails: bool,
    appendFails: bool,
    writeFails: bool,
    shortWrite: nat,
    closeFails: bool,
    readDirFails: bool,
    removeFails: set<string>)

  /** No call fails. */
  function NoFaults(): Faults {
    Faults(false, false, false, false, false, false, 0, false, false, {})
  }

  /** The writer: its configuration, whether it holds an open handle on the
      configured path, whether it holds a live cancellation channel (`done`),
      and whether a daily-rotation task is waiting on that channel. */
  datatype Writer = Writer(cfg: Config, fileOpen: bool, done: bool, scheduled: bool)

  /** The result of an operation: the new writer, the new filesystem, and the
      error it returns, if any. */
  datatype Step = Step(w: Writer, fs: FileSystem, err: Option<string>)

  /** The writer's invariant: a configured name, an open handle only on an
      existing regular file at that name, and a scheduled task only while the
      channel it waits on is live. */
  predicate Inv(w: Writer, fs: FileSystem) {
    && w.cfg.fileName != ""
    && (w.fileOpen ==> w.cfg.fileName in fs && fs[w.cfg.fileName].File?)
    && (w.scheduled ==> w.done)
  }

  /** Every path outside `touched` is as it was. */
  ghost predicate SameElsewhere(fs: FileSystem, fs': FileSystem, touched: set<string>) {
    forall p :: p !in touched ==> (p in fs <==> p in fs') && (p in fs ==> fs'[p] == fs[p])
  }

  // ---------------------------------------------------------------------------
  // Directories and renaming

  /** The directories `os.MkdirAll(d)` needs: `d` and each of its ancestors,
      leaving out `.` and `/`, which always exist. */
  function DirChain(d: string): (c: set<string>)
    ensures forall a :: a in c ==> a <= d
  {
    if d == "." || d == "/" || d == "" then {}
    else {d} + set k | 0 < k < |d| && d[k] == '/' :: d[..k]
  }

  /** A regular file sits where one of the directories should be, so
      `MkdirAll` fails with "not a directory". */
  predicate DirsBlocked(fs: FileSystem, d: string) {
    exists a :: a in DirChain(d) && a in fs && fs[a].File?
  }

  /** `os.MkdirAll(d, 0o755)` when it succeeds: each missing directory on the
      chain is created, and every existing entry is left as it was. */
  function MakeDirs(fs: FileSystem, d: string): (fs': FileSystem)
    ensures forall p :: p in fs ==> p in fs' && fs'[p] == fs[p]
    ensures forall p :: p in fs' ==> p in fs || p in DirChain(d)
    ensures forall a :: a in DirChain(d) ==> a in fs' && (a !in fs ==> fs'[a] == Directory(DirPerm))
  {
    fs + map a | a in DirChain(d) && a !in fs :: Directory(DirPerm)
  }

  /** When the whole chain already exists, `MkdirAll` changes nothing. */
  lemma MakeDirsIdle(fs: FileSystem, d: string)
    requires forall a :: a in DirChain(d) ==> a in fs
    ensures MakeDirs(fs, d) == fs
  {
  }

  /** The directory chain of a path's `Dir` holds only names shorter than the
      path itself. */
  lemma ChainShorter(name: string)
    ensures forall a :: a in DirChain(Dir(name)) ==> |a| < |name|
  {
    match LastSlash(name)
    case None =>
    case Some(k) =>
      if k > 0 {
        assert Dir(name) == name[..k];
      }
  }

  /** `q` is `root` itself or lies beneath it. */
  predicate Beneath(q: string, root: string) {
    q == root || root + "/" <= q
  }

  /** The path `q`, beneath `from`, carried to the same place beneath `to`. */
  function Reroot(q: string, from: string, to: string): (r: string)
    requires Beneath(q, from)
    ensures Beneath(r, to)
    ensures q == from ==> r == to
  {
    if q == from then to
    else
      assert q[|from|..][0] == '/';
      assert (to + q[|from|..])[..|to| + 1] == to + "/";
      to + q[|from|..]
  }

  /** Two paths beneath `from` that land on the same path were the same path. */
  lemma RerootInjective(from: string, to: string)
    ensures forall q1, q2 :: Beneath(q1, from) && Beneath(q2, from) && Reroot(q1, from, to) == Reroot(q2, from, to) ==> q1 == q2
  {
    forall q1, q2 | Beneath(q1, from) && Beneath(q2, from) && Reroot(q1, from, to) == Reroot(q2, from, to)
      ensures q1 == q2
    {
      var r := Reroot(q1, from, to);
      assert q1 == from + q1[|from|..] && q2 == from + q2[|from|..];
      assert q1[|from|..] == r[|to|..] == q2[|from|..];
    }
  }

  /** `os.Rename(from, to)`: the entry at `from` and every entry beneath it
      move to the same place beneath `to`; an entry already at `to` is
      replaced. */
  function MoveTree(fs: FileSystem, from: string, to: string): (fs': FileSystem)
    ensures forall q :: q in fs && Beneath(q, from) ==> Reroot(q, from, to) in fs' && fs'[Reroot(q, from, to)] == fs[q]
    ensures forall q :: q in fs && !Beneath(q, from) && !Beneath(q, to) ==> q in fs' && fs'[q] == fs[q]
    ensures forall q :: q in fs' && !Beneath(q, to) ==> q in fs && !Beneath(q, from) && fs'[q] == fs[q]
  {
    RerootInjective(from, to);
    var stay := map q | q in fs && !Beneath(q, from) && q != to :: fs[q];
    var moved := map q | q in fs && Beneath(q, from) :: Reroot(q, from, to) := fs[q];
    stay + moved
  }

  // ---------------------------------------------------------------------------
  // Construction and scheduling

  /** `newRotateFileWriter`: an empty name becomes `file.log`; nothing is opened. */
  function New(cfg: Config): (w: Writer)
    ensures w.cfg.fileName == (if cfg.fileName == "" then DefaultLogFileName else cfg.fileName)
    ensures w.cfg.mode == cfg.mode && w.cfg.maxDays == cfg.maxDays
    ensures !w.fileOpen && w.done && !w.scheduled
    ensures forall fs :: Inv(w, fs)
  {
    var name := if cfg.fileName == "" then DefaultLogFileName else cfg.fileName;
    Writer(cfg.(fileName := name), false, true, false)
  }

  /** `Init`: cancels any previous task, makes a fresh channel, and schedules
      daily rotation when the mode asks for it. The filesystem is not touched. */
  function Init(w: Writer): (w': Writer)
    ensures w'.cfg == w.cfg && w'.fileOpen == w.fileOpen
    ensures w'.done && (w'.scheduled <==> w.cfg.mode == Daily)
  {
    w.(done := true, scheduled := w.cfg.mode == Daily)
  }

  // ---------------------------------------------------------------------------
  // Backup names

  /** The file name without its extension. */
  function Stem(filename: string): string {
    filename[..|filename| - |Ext(filename)|]
  }

  /** The prefix every backup of `name` starts with: its stem and a dot. */
  function BackupPrefix(name: string): string {
    Stem(Base(name)) + "."
  }

  /** The extension every backup of `name` ends with. */
  function BackupExt(name: string): string {
    Ext(Base(name))
  }

  /** `<stem>.<stamp><ext>` beside the log file `name`. */
  function StampedName(name: string, stamp: string): string {
    var filename := Base(name);
    JoinPath(Dir(name), Stem(filename) + "." + stamp + Ext(filename))
  }

  /** `backupName`: `<stem>.<YYYYMMDD-HHMMSS><ext>` beside the log file. */
  function BackupName(name: string, t: int): string {
    StampedName(name, FormatBackup(FromInstant(t)))
  }

  /** `parseTimeFromBackupName`: the instant, in nanoseconds, stamped between
      `prefix` and `ext`. */
  function ParseTimeFromBackupName(filename: string, prefix: string, ext: string): (r: Option<int>)
    ensures !HasPrefix(filename, prefix) ==> r.None?
    ensures !HasSuffix(filename, ext) ==> r.None?
    ensures |prefix| >= |filename| - |ext| ==> r.None?
  {
    if !HasPrefix(filename, prefix) then None
    else if !HasSuffix(filename, ext) then None
    else if |prefix| >= |filename| - |ext| then None
    else
      ParseBackupNs(filename[|prefix|..|filename| - |ext|])
  }

  /** The backup time of a directory entry named `filename`, as the pruning
      pass of the writer for `name` reads it. */
  function BackupTime(name: string, filename: string): Option<int> {
    ParseTimeFromBackupName(filename, BackupPrefix(name), BackupExt(name))
  }

  /** Any slash-free stamp placed between the stem and the extension gives a
      base name made of the backup prefix, the stamp and the extension. */
  lemma StampedBase(name: string, stamp: string)
    requires Base(name) != "/"
    requires stamp != "" && '/' !in stamp
    ensures Base(StampedName(name, stamp)) == BackupPrefix(name) + stamp + BackupExt(name)
  {
    var filename := Base(name);
    var ext := Ext(filename);
    var b := Stem(filename) + "." + stamp + ext;
    assert '/' !in Stem(filename) by {
      assert forall x :: x in Stem(filename) ==> x in filename;
    }
    assert '/' !in b;
    BaseJoinPath(Dir(name), b);
  }

  /** A backup's base name is the stem, a dot, the stamp and the extension. */
  lemma BackupBase(name: string, t: int)
    requires Base(name) != "/"
    ensures Base(BackupName(name, t)) == BackupPrefix(name) + FormatBackup(FromInstant(t)) + BackupExt(name)
    ensures |FormatBackup(FromInstant(t))| >= 15
  {
    var dt := FromInstant(t);
    var stamp := FormatBackup(dt);
    FormatBackupShape(dt);
    assert '/' !in stamp by {
      assert forall k :: 0 <= k < |stamp| ==> stamp[k] != '/';
    }
    StampedBase(name, stamp);
  }

  /** A name made of the prefix, a non-empty stamp and the extension reads as
      the instant the stamp parses to, if it parses. */
  lemma ParseStamped(prefix: string, stamp: string, ext: string)
    requires stamp != ""
    ensures ParseTimeFromBackupName(prefix + stamp + ext, prefix, ext) == ParseBackupNs(stamp)
  {
    var b := prefix + stamp + ext;
    assert b[..|prefix|] == prefix;
    assert b[|b| - |ext|..] == ext;
    assert b[|prefix|..|b| - |ext|] == stamp;
  }

  /** A backup name stamped with reading `dt` reads back as the instant of `dt`. */
  lemma StampRoundTrip(name: string, dt: DateTime)
    requires Base(name) != "/"
    requires Valid(dt) && 0 <= dt.year <= 9999
    ensures var r := BackupTime(name, Base(StampedName(name, FormatBackup(dt))));
      r.Some? && r.value == ToInstant(dt) * NsPerMs
  {
    var stamp := FormatBackup(dt);
    FormatBackupShape(dt);
    assert '/' !in stamp by {
      assert forall k :: 0 <= k < |stamp| ==> stamp[k] != '/';
    }
    StampedBase(name, stamp);
    ParseFormatBackupNs(dt);
    ParseStamped(BackupPrefix(name), stamp, BackupExt(name));
  }

  /** A backup stamp followed by a fractional second (`.5`, `,123456789123`)
      is a backup too: the pruning pass reads it as the stamped instant plus
      the fraction. */
  lemma FractionalBackupTime(name: string, dt: DateTime, tail: string)
    requires Valid(dt) && 0 <= dt.year <= 9999
    requires Fraction(tail).Some?
    ensures var r := BackupTime(name, BackupPrefix(name) + FormatBackup(dt) + tail + BackupExt(name));
      && r.Some? && r.value == ToInstant(dt) * NsPerMs + Fraction(tail).value
      && ToInstant(dt) * NsPerMs <= r.value < (ToInstant(dt) + MsPerSecond) * NsPerMs
  {
    FractionalStamped(BackupPrefix(name), BackupExt(name), dt, tail);
  }

  lemma FractionalStamped(prefix: string, ext: string, dt: DateTime, tail: string)
    requires Valid(dt) && 0 <= dt.year <= 9999
    requires Fraction(tail).Some?
    ensures var r := ParseTimeFromBackupName(prefix + FormatBackup(dt) + tail + ext, prefix, ext);
      r.Some? && r.value == ToInstant(dt) * NsPerMs + Fraction(tail).value
  {
    var stamp := FormatBackup(dt) + tail;
    FractionalStamp(dt, tail);
    assert prefix + FormatBackup(dt) + tail + ext == prefix + stamp + ext;
    ParseStamped(prefix, stamp, ext);
  }

  /** Round trip: the pruning pass reads back from a backup's name the rotation
      time truncated to whole seconds, for the years the layout holds. */
  lemma BackupNameRoundTrip(name: string, t: int)
    requires Base(name) != "/"
    requires 0 <= FromInstant(t).year <= 9999
    ensures var r := BackupTime(name, Base(BackupName(name, t)));
      r.Some? && r.value == (t - t % MsPerSecond) * NsPerMs
  {
    BackupNameIsStamped(name, t);
    StampedRoundTrip(name, t);
    ToFromInstant(t);
  }

  lemma StampedRoundTrip(name: string, t: int)
    requires Base(name) != "/"
    requires 0 <= FromInstant(t).year <= 9999
    ensures var r := BackupTime(name, Base(StampedName(name, FormatBackup(FromInstant(t)))));
      r.Some? && r.value == ToInstant(FromInstant(t)) * NsPerMs
  {
    StampRoundTrip(name, FromInstant(t));
  }

  lemma BackupNameIsStamped(name: string, t: int)
    ensures BackupName(name, t) == StampedName(name, FormatBackup(FromInstant(t)))
  {
  }

  /** The active log file itself never reads as a backup: between the backup
      prefix and the extension there is no room for a stamp. */
  lemma ActiveFileIsNoBackup(name: string)
    ensures BackupTime(name, Base(name)) == None
  {
  }

  /** A backup never lands on the active log file's own path. */
  lemma BackupNameIsNotActive(name: string, t: int)
    requires Base(name) != "/"
    ensures BackupName(name, t) != name
  {
    BackupBase(name, t);
    var filename := Base(name);
    assert |Stem(filename)| + |Ext(filename)| == |filename|;
    assert |Base(BackupName(name, t))| > |filename|;
  }

  /** A backup name is longer than the log's own path, so neither lies
      beneath the other. */
  lemma BackupLonger(name: string, t: int)
    requires Base(name) != "/"
    ensures |BackupName(name, t)| > |name|
  {
    FormatBackupShape(FromInstant(t));
    StampedLonger(name, FormatBackup(FromInstant(t)));
  }

  lemma StampedLonger(name: string, stamp: string)
    requires Base(name) != "/" && |stamp| >= 2
    ensures |StampedName(name, stamp)| > |name|
  {
    var filename := Base(name);
    var piece := Stem(filename) + "." + stamp + Ext(filename);
    assert |piece| == |filename| + 1 + |stamp|;
    JoinLonger(name, piece);
  }

  /** A piece at least three longer than a path's base, joined to the path's
      directory, gives a longer path. */
  lemma JoinLonger(name: string, piece: string)
    requires |piece| >= |Base(name)| + 3
    ensures |JoinPath(Dir(name), piece)| > |name|
  {
    match LastSlash(name)
    case None =>
      if name != "" {
        BaseOfLastElement(name);
      }
    case Some(k) =>
      JoinLongerAfterSlash(name, piece, k);
  }

  lemma JoinLongerAfterSlash(name: string, piece: string, k: nat)
    requires LastSlash(name) == Some(k)
    requires |piece| >= |Base(name)| + 3
    ensures |JoinPath(Dir(name), piece)| > |name|
  {
    var after := |name| - k - 1;
    if after > 0 {
      assert name[|name| - 1] != '/';
      BaseOfLastElement(name);
      assert |Base(name)| == after;
    }
    if k == 0 {
      assert Dir(name) == "/";
    } else {
      var d := name[..k];
      assert Dir(name) == d;
      assert |JoinPath(d, piece)| >= (if d == "." then |piece| else k + |piece|);
    }
  }

  /** Without a trailing slash, the base is everything after the last slash. */
  lemma BaseOfLastElement(name: string)
    requires name != "" && name[|name| - 1] != '/'
    ensures LastSlash(name).None? ==> Base(name) == name
    ensures LastSlash(name).Some? ==> Base(name) == name[LastSlash(name).value + 1..]
  {
    assert TrimTrailingSlashes(name) == name;
  }

  /** A log file named without a directory has backups named without one too. */
  lemma BackupNameSlashFree(name: string, t: int)
    requires name != "" && '/' !in name
    ensures '/' !in BackupName(name, t)
  {
    assert forall k :: 0 <= k < |name| ==> name[k] != '/';
    assert TrimTrailingSlashes(name) == name by {
      assert name[|name| - 1] in name;
    }
    var stamp := FormatBackup(FromInstant(t));
    FormatBackupShape(FromInstant(t));
    assert '/' !in stamp by {
      assert forall k :: 0 <= k < |stamp| ==> stamp[k] != '/';
    }
    assert '/' !in Stem(name) by {
      assert forall x :: x in Stem(name) ==> x in name;
    }
    assert BackupName(name, t) == Stem(name) + "." + stamp + Ext(name);
  }

  // ---------------------------------------------------------------------------
  // Opening, writing, closing

  /** `openNew`: make the log's directory and its ancestors, move an existing
      entry at the path (with everything beneath it) to its backup name,
      keeping its permission bits for the new file, then create or truncate
      the file and hold it open. */
  function OpenNew(w: Writer, fs: FileSystem, now: int, faults: Faults): (s: Step)
    requires !w.fileOpen
    ensures s.w.cfg == w.cfg && s.w.done == w.done && s.w.scheduled == w.scheduled
    ensures s.err.Some? <==> !s.w.fileOpen
    ensures faults.mkdirFails || DirsBlocked(fs, Dir(w.cfg.fileName)) ==> s.err.Some? && s.fs == fs
    ensures s.err.None? ==> w.cfg.fileName in s.fs && s.fs[w.cfg.fileName].File? && s.fs[w.cfg.fileName].data == []
  {
    var name := w.cfg.fileName;
    if faults.mkdirFails || DirsBlocked(fs, Dir(name)) then Step(w, fs, Some("mkdir directories for new logfile error"))
    else ReplaceLogFile(w, MakeDirs(fs, Dir(name)), now, faults)
  }

  /** The rest of `openNew`, once the directories exist: move an entry found
      at the path to its backup name, then create or truncate the file. */
  function ReplaceLogFile(w: Writer, fs: FileSystem, now: int, faults: Faults): (s: Step)
    requires !w.fileOpen
    ensures s.w.cfg == w.cfg && s.w.done == w.done && s.w.scheduled == w.scheduled
    ensures s.err.Some? <==> !s.w.fileOpen
    ensures s.err.None? ==> w.cfg.fileName in s.fs && s.fs[w.cfg.fileName].File? && s.fs[w.cfg.fileName].data == []
  {
    var name := w.cfg.fileName;
    var present := name in fs && !faults.statFails;
    var perm := if present then fs[name].perm else NewFilePerm;
    if present && faults.renameFails then Step(w, fs, Some("rename logfile error"))
    else
      var moved := if present then MoveTree(fs, name, BackupName(name, now)) else fs;
      if faults.createFails || (name in moved && moved[name].Directory?) then
        Step(w, moved, Some("open new logfile error"))
      else
        var kept := if name in moved then moved[name].perm else perm;
        Step(w.(fileOpen := true), moved[name := File([], kept)], None)
  }

  /** `openExistingOrNew`: append to an existing file, or fall back to `openNew`. */
  function OpenExistingOrNew(w: Writer, fs: FileSystem, now: int, faults: Faults): (s: Step)
    requires !w.fileOpen
    ensures s.w.cfg == w.cfg && s.w.done == w.done && s.w.scheduled == w.scheduled
    ensures s.err.Some? <==> !s.w.fileOpen
    ensures s.err.None? ==> w.cfg.fileName in s.fs && s.fs[w.cfg.fileName].File?
  {
    var name := w.cfg.fileName;
    if faults.statFails then Step(w, fs, Some("get stat of logfile error"))
    else if name !in fs then OpenNew(w, fs, now, faults)
    else if faults.appendFails || fs[name].Directory? then OpenNew(w, fs, now, faults)
    else Step(w.(fileOpen := true), fs, None)
  }

  /** `WriteLog`: open lazily when no file is held, then append the bytes.
      Returns the step and the byte count written. */
  function WriteLog(w: Writer, fs: FileSystem, p: seq<byte>, now: int, faults: Faults): (r: (Step, int))
    requires Inv(w, fs)
    ensures Inv(r.0.w, r.0.fs)
    ensures r.0.w.cfg == w.cfg && r.0.w.done == w.done && r.0.w.scheduled == w.scheduled
    ensures 0 <= r.1 <= |p|
    ensures r.0.err.None? ==> r.1 == |p| && r.0.w.fileOpen
    ensures !r.0.w.fileOpen ==> r.1 == 0 && r.0.err.Some?
    ensures w.fileOpen ==> r.0.w.fileOpen
    ensures w.fileOpen ==> SameElsewhere(fs, r.0.fs, {w.cfg.fileName})
    ensures w.fileOpen ==>
      r.0.fs[w.cfg.fileName] == fs[w.cfg.fileName].(data := fs[w.cfg.fileName].data + p[..r.1])
  {
    var ready := if w.fileOpen then Step(w, fs, None) else OpenExistingOrNew(w, fs, now, faults);
    if ready.err.Some? then (ready, 0)
    else
      var name := w.cfg.fileName;
      var f := ready.fs[name];
      var n := if faults.writeFails then (if faults.shortWrite < |p| then faults.shortWrite else |p|) else |p|;
      var fs' := ready.fs[name := f.(data := f.data + p[..n])];
      (Step(ready.w, fs', if faults.writeFails then Some("write error") else None), n)
  }

  /** `closeFile`: release the handle if one is held; the handle is gone even
      when closing reports an error. */
  function CloseFile(w: Writer, faults: Faults): (r: (Writer, Option<string>))
    ensures !r.0.fileOpen
    ensures r.0.cfg == w.cfg && r.0.done == w.done && r.0.scheduled == w.scheduled
    ensures !w.fileOpen ==> r == (w, None)
  {
    if !w.fileOpen then (w, None)
    else (w.(fileOpen := false), if faults.closeFails then Some("close error") else None)
  }

  /** `Close`: fire the cancellation signal once, stop the rotation goroutine, close the file. */
  function Close(w: Writer, faults: Faults): (r: (Writer, Option<string>))
    ensures !r.0.fileOpen && !r.0.done && !r.0.scheduled
    ensures r.0.cfg == w.cfg
    ensures r.1.Some? ==> w.fileOpen && faults.closeFails
  {
    CloseFile(w.(done := false, scheduled := false), faults)
  }

  /** `CloseLog`: `Close` with its error dropped. */
  function CloseLog(w: Writer, faults: Faults): (w': Writer)
    ensures !w'.fileOpen && !w'.done && !w'.scheduled && w'.cfg == w.cfg
  {
    Close(w, faults).0
  }

  /** Closing twice is closing once: the second call changes nothing and reports no error. */
  lemma CloseIdempotent(w: Writer, f1: Faults, f2: Faults)
    ensures Close(Close(w, f1).0, f2) == (Close(w, f1).0, None)
  {
  }

  // ---------------------------------------------------------------------------
  // Retention

  /** `p` is listed by reading directory `d`: it sits directly in `d`. */
  predicate InDir(p: string, d: string) {
    Dir(p) == d && JoinPath(d, Base(p)) == p
  }

  /** A backup candidate: an entry's name and the time its name carries. */
  datatype Backup = Backup(name: string, t: int)

  /** A regular file directly in the log's directory whose name parses as a backup. */
  predicate IsBackupPath(cfg: Config, fs: FileSystem, p: string) {
    && p in fs
    && InDir(p, Dir(cfg.fileName))
    && fs[p].File?
    && BackupTime(cfg.fileName, Base(p)).Some?
  }

  /** What `oldLogFiles` collects, as a set. */
  function Candidates(cfg: Config, fs: FileSystem): set<Backup> {
    set p | p in fs && IsBackupPath(cfg, fs, p) :: Backup(Base(p), BackupTime(cfg.fileName, Base(p)).value)
  }

  /** Go's signed 64-bit wrap-around, which every `time.Duration` operation
      (negation, multiplication) performs. */
  function Wrap64(n: int): (r: int)
    ensures -Two63 <= r < Two63
  {
    (n + Two63) % Two64 - Two63
  }

  /** Values already in range are unchanged. */
  lemma Wrap64InRange(n: int)
    requires -Two63 <= n < Two63
    ensures Wrap64(n) == n
  {
    ModUnique(n + Two63, Two64, 0, n + Two63);
  }

  /** Wrapping a factor before a multiplication or the product after it gives
      the same result. */
  lemma Wrap64Mul(a: int, b: int)
    ensures Wrap64(Wrap64(a) * b) == Wrap64(a * b)
  {
    var q := (a + Two63) / Two64;
    assert Wrap64(a) == a - Two64 * q;
    assert Wrap64(a) * b == a * b - Two64 * (q * b) by {
      assert (a - Two64 * q) * b == a * b - (Two64 * q) * b;
    }
    var x := a * b + Two63;
    var Q, R := x / Two64, x % Two64;
    assert x - Two64 * (q * b) == Two64 * (Q - q * b) + R;
    ModUnique(x - Two64 * (q * b), Two64, Q - q * b, R);
  }

  /** `-time.Duration(maxDays) * time.Duration(24) * time.Hour`, each step a
      64-bit `Duration` operation. */
  function RetentionOffset(maxDays: int): (d: int)
    ensures d == Wrap64(-maxDays * NsPerDay)
  {
    Wrap64Mul(-maxDays, 24);
    Wrap64Mul(-maxDays * 24, 3_600_000_000_000);
    Wrap64Mul(Wrap64(-maxDays) * 24, 3_600_000_000_000);
    Wrap64(Wrap64(Wrap64(-maxDays) * 24) * 3_600_000_000_000)
  }

  /** The pruning cutoff in nanoseconds: `now + offset + 5ms`, with the
      retention offset computed as a `Duration`. */
  function Cutoff(cfg: Config, now: int): int {
    now * NsPerMs + RetentionOffset(cfg.maxDays) + CutoffSkewMs * NsPerMs
  }

  /** Up to `MaxRetentionDays` the cutoff is exactly `maxDays` days before
      `now`, plus the skew. */
  lemma CutoffExact(cfg: Config, now: int)
    requires -MaxRetentionDays <= cfg.maxDays <= MaxRetentionDays
    ensures Cutoff(cfg, now) == (now - cfg.maxDays * MsPerDay + CutoffSkewMs) * NsPerMs
  {
    Wrap64InRange(-cfg.maxDays * NsPerDay);
  }

  /** Past `MaxRetentionDays` the offset wraps to a positive duration: for the
      next band of retentions the cutoff lies after `now`. */
  lemma CutoffWrapsToFuture(cfg: Config, now: int)
    requires MaxRetentionDays < cfg.maxDays <= 2 * MaxRetentionDays + 1
    ensures Cutoff(cfg, now) == now * NsPerMs - cfg.maxDays * NsPerDay + Two64 + CutoffSkewMs * NsPerMs
    ensures Cutoff(cfg, now) > now * NsPerMs
  {
    var n := -cfg.maxDays * NsPerDay;
    ModUnique(n + Two63, Two64, -1, n + Two63 + Two64);
  }

  /** True when the pruning pass would delete `p`: a backup strictly older than the cutoff. */
  predicate Expired(cfg: Config, fs: FileSystem, now: int, p: string) {
    IsBackupPath(cfg, fs, p) && BackupTime(cfg.fileName, Base(p)).value < Cutoff(cfg, now)
  }

  /** True when pruning is switched off for this configuration. */
  predicate PruningOff(cfg: Config) {
    cfg.mode == NoRotation || cfg.maxDays <= 0
  }

  /** `clearFiles`: delete the expired backups, ignoring deletions that fail.
      Nothing happens when pruning is off or the directory cannot be read. */
  function ClearFiles(cfg: Config, fs: FileSystem, now: int, faults: Faults): (fs': FileSystem)
    ensures fs'.Keys <= fs.Keys
    ensures forall p :: p in fs' ==> fs'[p] == fs[p]
    ensures PruningOff(cfg) || faults.readDirFails ==> fs' == fs
  {
    if PruningOff(cfg) || faults.readDirFails then fs
    else
      var doomed := set p | p in fs && Expired(cfg, fs, now, p) && p !in faults.removeFails;
      fs - doomed
  }

  /** Pruning deletes an entry exactly when pruning is on, the directory could
      be read, the entry is an expired backup, and its removal succeeds. */
  lemma ClearFilesRemoves(cfg: Config, fs: FileSystem, now: int, faults: Faults, p: string)
    requires p in fs
    ensures p !in ClearFiles(cfg, fs, now, faults) <==>
      !PruningOff(cfg) && !faults.readDirFails && Expired(cfg, fs, now, p) && p !in faults.removeFails
  {
  }

  /** Pruning never removes a directory, a name that does not parse as a
      backup, anything outside the log's directory, or the active log file. */
  lemma ClearFilesKeeps(cfg: Config, fs: FileSystem, now: int, faults: Faults, p: string)
    requires p in fs
    requires fs[p].Directory? || !InDir(p, Dir(cfg.fileName))
      || BackupTime(cfg.fileName, Base(p)).None? || p == cfg.fileName
    ensures p in ClearFiles(cfg, fs, now, faults)
  {
    ClearFilesRemoves(cfg, fs, now, faults, p);
    if p == cfg.fileName {
      ActiveFileIsNoBackup(cfg.fileName);
    }
  }

  /** A backup stamped at or after the cutoff survives pruning. */
  lemma ClearFilesKeepsRecent(cfg: Config, fs: FileSystem, now: int, faults: Faults, p: string)
    requires p in fs
    requires BackupTime(cfg.fileName, Base(p)).Some?
    requires BackupTime(cfg.fileName, Base(p)).value >= Cutoff(cfg, now)
    ensures p in ClearFiles(cfg, fs, now, faults)
  {
    ClearFilesRemoves(cfg, fs, now, faults, p);
  }

  /** Ascending by time. */
  ghost predicate SortedByTime(files: seq<Backup>) {
    forall i, j :: 0 <= i < j < |files| ==> files[i].t <= files[j].t
  }

  /** Insert `b` after every entry not later than it. */
  function InsertByTime(files: seq<Backup>, b: Backup): (r: seq<Backup>)
    ensures |r| == |files| + 1
    decreases |files|
  {
    if |files| == 0 then [b]
    else if b.t < files[0].t then [b] + files
    else [files[0]] + InsertByTime(files[1..], b)
  }

  /** Inserting adds `b` and keeps every other entry. */
  lemma {:induction false} InsertByTimeMembers(files: seq<Backup>, b: Backup)
    ensures forall x :: x in InsertByTime(files, b) <==> x == b || x in files
    decreases |files|
  {
    if |files| > 0 && b.t >= files[0].t {
      InsertByTimeMembers(files[1..], b);
      assert files == [files[0]] + files[1..];
    }
  }

  /** Inserting into an ascending list keeps it ascending. */
  lemma {:induction false} InsertByTimeSorted(files: seq<Backup>, b: Backup)
    requires SortedByTime(files)
    ensures SortedByTime(InsertByTime(files, b))
    decreases |files|
  {
    if |files| > 0 && b.t >= files[0].t {
      var tail := files[1..];
      InsertByTimeSorted(tail, b);
      InsertByTimeMembers(tail, b);
      var rest := InsertByTime(tail, b);
      var r := [files[0]] + rest;
      forall i, j | 0 <= i < j < |r| ensures r[i].t <= r[j].t {
        if i == 0 {
          assert r[j] == rest[j - 1];
          assert r[j] in rest;
          if r[j] != b {
            var k :| 0 <= k < |tail| && tail[k] == r[j];
            assert files[k + 1] == r[j];
          }
        } else {
          assert r[i] == rest[i - 1] && r[j] == rest[j - 1];
        }
      }
    } else if |files| > 0 {
      var r := [b] + files;
      forall i, j | 0 <= i < j < |r| ensures r[i].t <= r[j].t {
        if i > 0 {
          assert r[i] == files[i - 1];
        }
        assert r[j] == files[j - 1];
      }
    }
  }

  /** `oldLogFiles`: every backup of the log in its directory, ascending by time. */
  method OldLogFiles(cfg: Config, fs: FileSystem, faults: Faults) returns (files: seq<Backup>, err: Option<string>)
    ensures err.Some? <==> faults.readDirFails
    ensures err.Some? ==> files == []
    ensures err.None? ==> SortedByTime(files)
    ensures err.None? ==> forall b :: b in files <==> b in Candidates(cfg, fs)
    ensures err.None? ==> |files| == |Candidates(cfg, fs)|
  {
    if faults.readDirFails {
      return [], Some("read log file directory error");
    }
    var all := Candidates(cfg, fs);
    var todo := all;
    files := [];
    while todo != {}
      invariant SortedByTime(files)
      invariant todo <= all
      invariant forall b :: b in files ==> b in all && b !in todo
      invariant forall b :: b in all && b !in todo ==> b in files
      invariant |files| + |todo| == |all|
      decreases |todo|
    {
      var b :| b in todo;
      InsertByTimeMembers(files, b);
      InsertByTimeSorted(files, b);
      files := InsertByTime(files, b);
      todo := todo - {b};
    }
    err := None;
  }

  // ---------------------------------------------------------------------------
  // Rotation

  /** `rotate`: close the file, open a new one (moving the old file to its
      backup name), then prune; a pruning error is ignored. */
  function Rotate(w: Writer, fs: FileSystem, now: int, faults: Faults): (s: Step)
    requires Inv(w, fs)
    ensures Inv(s.w, s.fs)
    ensures s.w.cfg == w.cfg && s.w.done == w.done && s.w.scheduled == w.scheduled
    ensures s.err.Some? <==> !s.w.fileOpen
  {
    var (w1, closeErr) := CloseFile(w, faults);
    if closeErr.Some? then Step(w1, fs, closeErr)
    else
      var ready := OpenNew(w1, fs, now, faults);
      if ready.err.Some? then ready
      else
        var pruned := ClearFiles(w.cfg, ready.fs, now, faults);
        ClearFilesKeeps(w.cfg, ready.fs, now, faults, w.cfg.fileName);
        Step(ready.w, pruned, None)
  }

  /** A backup's stamp lies within the retention window whenever pruning is
      on: it is at most one second older than the rotation. */
  lemma FreshBackupNotExpired(cfg: Config, fs: FileSystem, now: int)
    requires Base(cfg.fileName) != "/"
    requires 0 <= FromInstant(now).year <= 9999
    requires !PruningOff(cfg)
    ensures cfg.maxDays <= MaxRetentionDays ==> !Expired(cfg, fs, now, BackupName(cfg.fileName, now))
  {
    if cfg.maxDays <= MaxRetentionDays {
      var b := BackupName(cfg.fileName, now);
      BackupNameRoundTrip(cfg.fileName, now);
      CutoffExact(cfg, now);
      assert BackupTime(cfg.fileName, Base(b)).value == (now - now % MsPerSecond) * NsPerMs;
    }
  }

  /** With a retention just past `MaxRetentionDays` the wrapped cutoff lies
      after `now`, so the backup a rotation has just made is already expired. */
  lemma FreshBackupExpiredWhenWrapped(cfg: Config, fs: FileSystem, now: int)
    requires Base(cfg.fileName) != "/"
    requires 0 <= FromInstant(now).year <= 9999
    requires MaxRetentionDays < cfg.maxDays <= 2 * MaxRetentionDays + 1
    ensures var b := BackupName(cfg.fileName, now);
      IsBackupPath(cfg, fs, b) ==> Expired(cfg, fs, now, b)
  {
    var b := BackupName(cfg.fileName, now);
    BackupNameRoundTrip(cfg.fileName, now);
    CutoffWrapsToFuture(cfg, now);
    assert BackupTime(cfg.fileName, Base(b)).value <= now * NsPerMs;
  }

  /** A backup lies directly in the log's directory, when that directory is
      in clean form. */
  lemma BackupInLogDir(name: string, t: int)
    requires Base(name) != "/"
    requires var d := Dir(name); d == "." || d == "/" || (d != "" && d[|d| - 1] != '/')
    ensures InDir(BackupName(name, t), Dir(name))
  {
    var filename := Base(name);
    var piece := Stem(filename) + "." + FormatBackup(FromInstant(t)) + Ext(filename);
    FormatBackupShape(FromInstant(t));
    assert '/' !in FormatBackup(FromInstant(t)) by {
      var stamp := FormatBackup(FromInstant(t));
      assert forall k :: 0 <= k < |stamp| ==> stamp[k] != '/';
    }
    assert '/' !in Stem(filename) by {
      assert forall x :: x in Stem(filename) ==> x in filename;
    }
    assert '/' !in piece;
    DirJoinPath(Dir(name), piece);
    BaseJoinPath(Dir(name), piece);
  }

  /** `openNew` when `MkdirAll` succeeds, an entry stands at the log path,
      and the rename leaves nothing there: the entry's tree moves to the
      backup name and an empty file with its permission bits takes its place. */
  lemma OpenNewRenames(w: Writer, fs: FileSystem, now: int, faults: Faults)
    requires !w.fileOpen
    requires !faults.mkdirFails && !DirsBlocked(fs, Dir(w.cfg.fileName)) && !faults.statFails
    requires !faults.renameFails && !faults.createFails
    requires var made := MakeDirs(fs, Dir(w.cfg.fileName));
      w.cfg.fileName in made && w.cfg.fileName !in MoveTree(made, w.cfg.fileName, BackupName(w.cfg.fileName, now))
    ensures var name := w.cfg.fileName;
      var made := MakeDirs(fs, Dir(name));
      var s := OpenNew(w, fs, now, faults);
      && s.err.None? && s.w.fileOpen
      && s.fs == MoveTree(made, name, BackupName(name, now))[name := File([], made[name].perm)]
  {
    var made := MakeDirs(fs, Dir(w.cfg.fileName));
    assert OpenNew(w, fs, now, faults) == ReplaceLogFile(w, made, now, faults);
  }

  /** The step of `openNew` that a rotation of a held regular file takes when
      no call fails: the old file moves to the backup name and an empty file
      with the same permission bits takes its place. */
  lemma OpenNewBacksUp(w: Writer, fs: FileSystem, now: int, faults: Faults)
    requires !w.fileOpen
    requires w.cfg.fileName in fs && fs[w.cfg.fileName].File?
    requires Base(w.cfg.fileName) != "/"
    requires !faults.mkdirFails && !DirsBlocked(fs, Dir(w.cfg.fileName)) && !faults.statFails
    requires !faults.renameFails && !faults.createFails
    ensures var s := OpenNew(w, fs, now, faults);
      var b := BackupName(w.cfg.fileName, now);
      && s.err.None? && s.w.fileOpen
      && s.fs[w.cfg.fileName] == File([], fs[w.cfg.fileName].perm)
      && b in s.fs && s.fs[b] == fs[w.cfg.fileName]
  {
    var name := w.cfg.fileName;
    var b := BackupName(name, now);
    BackupLonger(name, now);
    var made := MakeDirs(fs, Dir(name));
    var moved := MoveTree(made, name, b);
    assert Reroot(name, name, b) == b;
    assert name !in moved by {
      assert !Beneath(name, b);
    }
    OpenNewRenames(w, fs, now, faults);
  }

  /** A successful rotation: the old contents and permission bits move to the
      backup name, the log path holds an empty file with the same bits, the new
      file is held open, and the fresh backup survives pruning. */
  lemma RotateBacksUp(w: Writer, fs: FileSystem, now: int, faults: Faults)
    requires Inv(w, fs)
    requires w.cfg.fileName in fs && fs[w.cfg.fileName].File?
    requires Base(w.cfg.fileName) != "/"
    requires 0 <= FromInstant(now).year <= 9999
    requires !faults.closeFails && !faults.mkdirFails && !DirsBlocked(fs, Dir(w.cfg.fileName)) && !faults.statFails
    requires !faults.renameFails && !faults.createFails
    ensures var s := Rotate(w, fs, now, faults);
      var b := BackupName(w.cfg.fileName, now);
      && s.err.None? && s.w.fileOpen
      && s.fs[w.cfg.fileName] == File([], fs[w.cfg.fileName].perm)
      && (b in s.fs ==> s.fs[b] == fs[w.cfg.fileName])
      && (w.cfg.maxDays <= MaxRetentionDays ==> b in s.fs)
  {
    var name := w.cfg.fileName;
    var b := BackupName(name, now);
    var w1 := CloseFile(w, faults).0;
    OpenNewBacksUp(w1, fs, now, faults);
    var ready := OpenNew(w1, fs, now, faults);
    ClearFilesRemoves(w.cfg, ready.fs, now, faults, b);
    if !PruningOff(w.cfg) && !faults.readDirFails && b !in faults.removeFails {
      FreshBackupNotExpired(w.cfg, ready.fs, now);
    }
  }

  /** The other side of `RotateBacksUp`: in daily mode with a retention just
      past `MaxRetentionDays`, the pruning pass that ends the rotation deletes
      the backup it has just made, unless that removal fails. */
  lemma RotateDropsFreshBackup(w: Writer, fs: FileSystem, now: int, faults: Faults)
    requires Inv(w, fs)
    requires w.cfg.fileName in fs && fs[w.cfg.fileName].File?
    requires Base(w.cfg.fileName) != "/"
    requires var d := Dir(w.cfg.fileName); d == "." || d == "/" || (d != "" && d[|d| - 1] != '/')
    requires 0 <= FromInstant(now).year <= 9999
    requires !faults.closeFails && !faults.mkdirFails && !DirsBlocked(fs, Dir(w.cfg.fileName)) && !faults.statFails
    requires !faults.renameFails && !faults.createFails && !faults.readDirFails
    requires w.cfg.mode == Daily && MaxRetentionDays < w.cfg.maxDays <= 2 * MaxRetentionDays + 1
    ensures var s := Rotate(w, fs, now, faults);
      var b := BackupName(w.cfg.fileName, now);
      && s.err.None? && s.w.fileOpen
      && (b !in s.fs <==> b !in faults.removeFails)
  {
    var name := w.cfg.fileName;
    var b := BackupName(name, now);
    var w1 := CloseFile(w, faults).0;
    OpenNewBacksUp(w1, fs, now, faults);
    var ready := OpenNew(w1, fs, now, faults);
    FreshBackupExpires(w.cfg, ready.fs, now);
    ClearFilesRemoves(w.cfg, ready.fs, now, faults, b);
    assert Rotate(w, fs, now, faults).fs == ClearFiles(w.cfg, ready.fs, now, faults);
  }

  /** A regular file at the fresh backup's name, in a clean directory, is a
      backup the wrapped cutoff expires. */
  lemma FreshBackupExpires(cfg: Config, fs: FileSystem, now: int)
    requires Base(cfg.fileName) != "/"
    requires var d := Dir(cfg.fileName); d == "." || d == "/" || (d != "" && d[|d| - 1] != '/')
    requires 0 <= FromInstant(now).year <= 9999
    requires MaxRetentionDays < cfg.maxDays <= 2 * MaxRetentionDays + 1
    requires BackupName(cfg.fileName, now) in fs && fs[BackupName(cfg.fileName, now)].File?
    ensures Expired(cfg, fs, now, BackupName(cfg.fileName, now))
  {
    BackupInLogDir(cfg.fileName, now);
    BackupNameRoundTrip(cfg.fileName, now);
    FreshBackupExpiredWhenWrapped(cfg, fs, now);
  }

  /** A rename that fails aborts the rotation with an error and no open file.
      No entry on disk changes; only directories `MkdirAll` made before the
      rename remain, and when the log's directories all exist the disk is
      exactly as before. */
  lemma RotateRenameFails(w: Writer, fs: FileSystem, now: int, faults: Faults)
    requires Inv(w, fs)
    requires w.cfg.fileName in fs
    requires !faults.closeFails && !faults.mkdirFails && !faults.statFails && faults.renameFails
    ensures var s := Rotate(w, fs, now, faults);
      && s.err.Some? && !s.w.fileOpen
      && (forall p :: p in fs ==> p in s.fs && s.fs[p] == fs[p])
      && (forall p :: p in s.fs && p !in fs ==> p in DirChain(Dir(w.cfg.fileName)) && s.fs[p] == Directory(DirPerm))
      && ((forall a :: a in DirChain(Dir(w.cfg.fileName)) ==> a in fs) ==> s.fs == fs)
  {
    var name := w.cfg.fileName;
    if forall a :: a in DirChain(Dir(name)) ==> a in fs {
      MakeDirsIdle(fs, Dir(name));
    }
  }

  /** The first write after construction or `Close` appends to an existing
      regular file, keeping its permission bits. */
  lemma WriteLogAppends(w: Writer, fs: FileSystem, p: seq<byte>, now: int)
    requires Inv(w, fs) && !w.fileOpen
    requires w.cfg.fileName in fs && fs[w.cfg.fileName].File?
    ensures var r := WriteLog(w, fs, p, now, NoFaults());
      var name := w.cfg.fileName;
      && r.0.err.None? && r.1 == |p| && r.0.w.fileOpen
      && r.0.fs == fs[name := File(fs[name].data + p, fs[name].perm)]
  {
    var ready := OpenExistingOrNew(w, fs, now, NoFaults());
    assert ready.fs == fs && ready.err.None?;
    assert p[..|p|] == p;
  }

  /** A write to a held file appends all its bytes and changes nothing else. */
  lemma WriteLogOpen(w: Writer, fs: FileSystem, p: seq<byte>, now: int, faults: Faults)
    requires Inv(w, fs) && w.fileOpen && !faults.writeFails
    ensures var r := WriteLog(w, fs, p, now, faults);
      var name := w.cfg.fileName;
      && r.0.err.None? && r.1 == |p| && r.0.w.fileOpen
      && r.0.fs == fs[name := fs[name].(data := fs[name].data + p)]
  {
    assert p[..|p|] == p;
  }

  /** A write that fails part-way keeps the log file open, stores only the
      first bytes it reports (which may end inside a multi-byte character),
      and returns the error. */
  lemma WriteLogShort(w: Writer, fs: FileSystem, p: seq<byte>, now: int, faults: Faults)
    requires Inv(w, fs) && w.fileOpen && faults.writeFails
    ensures var r := WriteLog(w, fs, p, now, faults);
      var name := w.cfg.fileName;
      && r.0.err.Some? && r.0.w.fileOpen
      && r.1 == (if faults.shortWrite < |p| then faults.shortWrite else |p|)
      && r.0.fs == fs[name := fs[name].(data := fs[name].data + p[..r.1])]
  {
  }

  /** The first write when no log file exists makes the missing directories
      on its path (bits 0o755), then creates the file with permission bits
      0o600 and the written bytes. Nothing else changes. */
  lemma WriteLogCreates(w: Writer, fs: FileSystem, p: seq<byte>, now: int)
    requires Inv(w, fs) && !w.fileOpen
    requires w.cfg.fileName !in fs && !DirsBlocked(fs, Dir(w.cfg.fileName))
    ensures var r := WriteLog(w, fs, p, now, NoFaults());
      && r.0.err.None? && r.1 == |p| && r.0.w.fileOpen
      && r.0.fs == MakeDirs(fs, Dir(w.cfg.fileName))[w.cfg.fileName := File(p, NewFilePerm)]
  {
    var name := w.cfg.fileName;
    var made := MakeDirs(fs, Dir(name));
    ChainShorter(name);
    assert name !in made;
    var ready := OpenNew(w, fs, now, NoFaults());
    assert ready.fs == made[name := File([], NewFilePerm)];
    assert OpenExistingOrNew(w, fs, now, NoFaults()) == ready;
    assert [] + p[..|p|] == p;
  }

  /** A log at `logs/app.log` on an empty disk: the first write creates the
      directory `logs` and the file inside it, and nothing else. */
  lemma WriteLogMakesDirectory(cfg: Config, p: seq<byte>, now: int)
    requires cfg.fileName == "logs/app.log"
    ensures var r := WriteLog(New(cfg), map[], p, now, NoFaults());
      && r.0.err.None? && r.1 == |p|
      && r.0.fs == map["logs" := Directory(DirPerm), "logs/app.log" := File(p, NewFilePerm)]
  {
    assert LastSlash(cfg.fileName) == Some(4);
    assert Dir(cfg.fileName) == "logs";
    assert DirChain("logs") == {"logs"};
    assert !DirsBlocked(map[], "logs");
    WriteLogCreates(New(cfg), map[], p, now);
  }

  /** A directory at the log's path moves to the backup name together with
      everything beneath it, and a fresh empty file takes its place. */
  lemma OpenNewMovesTree(w: Writer, fs: FileSystem, now: int, child: string)
    requires !w.fileOpen && w.cfg.fileName != "" && '/' !in w.cfg.fileName
    requires w.cfg.fileName in fs && fs[w.cfg.fileName].Directory?
    requires w.cfg.fileName + "/" + child in fs
    ensures var s := OpenNew(w, fs, now, NoFaults());
      var name := w.cfg.fileName;
      var b := BackupName(name, now);
      && s.err.None?
      && s.fs[name] == File([], fs[name].perm)
      && b in s.fs && s.fs[b] == fs[name]
      && b + "/" + child in s.fs && s.fs[b + "/" + child] == fs[name + "/" + child]
      && name + "/" + child !in s.fs
  {
    var name := w.cfg.fileName;
    var b := BackupName(name, now);
    SlashFreeName(name);
    BackupNameIsNotActive(name, now);
    BackupNameSlashFree(name, now);
    MakeDirsIdle(fs, Dir(name));
    MoveTreeSibling(fs, name, b, child);
    OpenNewRenames(w, fs, now, NoFaults());
  }

  /** A name without a slash lies in the working directory and is its own base. */
  lemma SlashFreeName(name: string)
    requires name != "" && '/' !in name
    ensures Dir(name) == "." && Base(name) == name && DirChain(Dir(name)) == {}
  {
    assert forall k :: 0 <= k < |name| ==> name[k] != '/';
    assert LastSlash(name) == None;
    assert name[|name| - 1] in name;
    BaseOfLastElement(name);
  }

  /** Renaming a slash-free `from` to another slash-free name carries every
      entry beneath `from` along and leaves nothing behind. */
  lemma MoveTreeSibling(fs: FileSystem, from: string, to: string, child: string)
    requires '/' !in from && '/' !in to && from != to
    requires from in fs && from + "/" + child in fs
    ensures var m := MoveTree(fs, from, to);
      && from !in m && from + "/" + child !in m
      && to in m && m[to] == fs[from]
      && to + "/" + child in m && m[to + "/" + child] == fs[from + "/" + child]
  {
    var q := from + "/" + child;
    SiblingNotBeneath(from, to, child);
    assert Beneath(q, from) && q[|from|..] == "/" + child;
    RerootChild(from, to, child);
    var m := MoveTree(fs, from, to);
    assert Reroot(from, from, to) == to;
    assert from !in m && q !in m;
  }

  /** Rerooting `from/child` at `to` gives `to/child`. */
  lemma RerootChild(from: string, to: string, child: string)
    ensures Beneath(from + "/" + child, from)
    ensures Reroot(from + "/" + child, from, to) == to + "/" + child
  {
    var q := from + "/" + child;
    assert (from + "/") <= q;
    assert q[|from|..] == "/" + child;
  }

  /** Two different slash-free names: neither `from` nor a path beneath it
      lies beneath `to`. */
  lemma SiblingNotBeneath(from: string, to: string, child: string)
    requires '/' !in from && '/' !in to && from != to
    ensures !Beneath(from, to) && !Beneath(from + "/" + child, to)
  {
    var q := from + "/" + child;
    assert (to + "/")[|to|] == '/' && q[|from|] == '/';
    assert forall k :: 0 <= k < |from| ==> from[k] != '/' && q[k] == from[k];
    assert forall k :: 0 <= k < |to| ==> to[k] != '/';
    if to + "/" <= from {
      assert false;
    }
    if to + "/" <= q {
      if |to| < |from| {
        assert false;
      } else if |to| > |from| {
        assert false;
      } else {
        assert false;
      }
    }
    assert q != to by {
      assert q[|from|] in q;
    }
  }

  /** Writing `a`, rotating, then writing `b` leaves `b` in the log file and
      `a` in the backup named for the rotation time. */
  lemma WriteRotateWrite(cfg: Config, fs: FileSystem, a: seq<byte>, b: seq<byte>, t0: int, t1: int, t2: int)
    requires cfg.fileName !in fs && Base(cfg.fileName) != "/" && cfg.fileName != ""
    requires !DirsBlocked(fs, Dir(cfg.fileName))
    requires 0 <= FromInstant(t1).year <= 9999
    ensures var w := New(cfg);
      var r1 := WriteLog(w, fs, a, t0, NoFaults());
      var s := Rotate(r1.0.w, r1.0.fs, t1, NoFaults());
      var r2 := WriteLog(s.w, s.fs, b, t2, NoFaults());
      var bk := BackupName(cfg.fileName, t1);
      && r1.1 == |a| && s.err.None? && r2.1 == |b|
      && r2.0.fs[cfg.fileName] == File(b, NewFilePerm)
      && (cfg.maxDays <= MaxRetentionDays ==> bk in r2.0.fs && r2.0.fs[bk] == File(a, NewFilePerm))
  {
    var name := cfg.fileName;
    var w := New(cfg);
    var r1 := WriteLog(w, fs, a, t0, NoFaults());
    WriteLogCreates(w, fs, a, t0);
    ChainShorter(name);
    assert !DirsBlocked(r1.0.fs, Dir(name));
    RotateBacksUp(r1.0.w, r1.0.fs, t1, NoFaults());
    var s := Rotate(r1.0.w, r1.0.fs, t1, NoFaults());
    BackupNameIsNotActive(name, t1);
    WriteLogOpen(s.w, s.fs, b, t2, NoFaults());
    assert [] + b == b;
  }

  /** With a seven-day window, a backup stamped ten days ago is deleted and
      one stamped two days ago is kept. */
  lemma RetentionExample(cfg: Config, fs: FileSystem, now: int, old10: string, old2: string)
    requires cfg.mode == Daily && cfg.maxDays == 7
    ensures IsBackupPath(cfg, fs, old10) && BackupTime(cfg.fileName, Base(old10)) == Some((now - 10 * MsPerDay) * NsPerMs)
      ==> old10 !in ClearFiles(cfg, fs, now, NoFaults())
    ensures IsBackupPath(cfg, fs, old2) && BackupTime(cfg.fileName, Base(old2)) == Some((now - 2 * MsPerDay) * NsPerMs)
      ==> old2 in ClearFiles(cfg, fs, now, NoFaults())
  {
    CutoffExact(cfg, now);
    if old10 in fs {
      ClearFilesRemoves(cfg, fs, now, NoFaults(), old10);
    }
    if old2 in fs {
      ClearFilesRemoves(cfg, fs, now, NoFaults(), old2);
    }
  }

  /** `clearFiles` as the source runs it: list the backups with `oldLogFiles`,
      then remove, one by one, those stamped before the cutoff. Returns the
      listing error, if any. */
  method PruneBackups(cfg: Config, fs: FileSystem, now: int, faults: Faults) returns (fs': FileSystem, err: Option<string>)
    ensures err.Some? <==> !PruningOff(cfg) && faults.readDirFails
    ensures fs' == ClearFiles(cfg, fs, now, faults)
  {
    if PruningOff(cfg) {
      return fs, None;
    }
    var files;
    files, err := OldLogFiles(cfg, fs, faults);
    if err.Some? {
      return fs, err;
    }
    fs' := RemoveStamped(fs, files, Dir(cfg.fileName), Cutoff(cfg, now), faults);
    PruneMatchesClearFiles(cfg, fs, now, faults, files);
  }

  /** The removal loop of `clearFiles`: delete `d/<name>` for every listed
      backup stamped before `cutoff`, skipping removals that fail. */
  method RemoveStamped(fs: FileSystem, files: seq<Backup>, d: string, cutoff: int, faults: Faults) returns (fs': FileSystem)
    ensures fs' == fs - RemovedPaths(files, d, cutoff, faults)
  {
    fs' := fs;
    var i := 0;
    while i < |files|
      invariant 0 <= i <= |files|
      invariant fs' == fs - RemovedPaths(files[..i], d, cutoff, faults)
    {
      var path := JoinPath(d, files[i].name);
      ghost var before := RemovedPaths(files[..i], d, cutoff, faults);
      assert files[..i + 1][..i] == files[..i];
      if files[i].t < cutoff && path !in faults.removeFails {
        assert RemovedPaths(files[..i + 1], d, cutoff, faults) == before + {path};
        fs' := fs' - {path};
      } else {
        assert RemovedPaths(files[..i + 1], d, cutoff, faults) == before;
      }
      i := i + 1;
    }
    assert files[..i] == files;
  }

  /** The paths of the backups in `files` stamped before `cutoff` whose removal succeeds. */
  function RemovedPaths(files: seq<Backup>, d: string, cutoff: int, faults: Faults): (r: set<string>)
    ensures forall p :: p in r ==> p !in faults.removeFails
  {
    if |files| == 0 then {}
    else
      var last := files[|files| - 1];
      var path := JoinPath(d, last.name);
      RemovedPaths(files[..|files| - 1], d, cutoff, faults)
        + (if last.t < cutoff && path !in faults.removeFails then {path} else {})
  }

  /** A path is removed exactly when one of the listed backups names it. */
  lemma {:induction false} RemovedPathsMeaning(files: seq<Backup>, d: string, cutoff: int, faults: Faults, p: string)
    ensures p in RemovedPaths(files, d, cutoff, faults) <==> RemovedBy(files, d, cutoff, faults, p)
    decreases |files|
  {
    if |files| > 0 {
      var init := files[..|files| - 1];
      RemovedPathsMeaning(init, d, cutoff, faults, p);
      if RemovedBy(init, d, cutoff, faults, p) {
        var k :| 0 <= k < |init| && init[k].t < cutoff && JoinPath(d, init[k].name) == p && p !in faults.removeFails;
        assert files[k] == init[k];
      }
      if RemovedBy(files, d, cutoff, faults, p) {
        var k :| 0 <= k < |files| && files[k].t < cutoff && JoinPath(d, files[k].name) == p && p !in faults.removeFails;
        if k < |init| {
          assert init[k] == files[k];
        }
      }
    }
  }

  /** Removing the listed expired backups one by one gives `ClearFiles`. */
  lemma PruneMatchesClearFiles(cfg: Config, fs: FileSystem, now: int, faults: Faults, files: seq<Backup>)
    requires !PruningOff(cfg) && !faults.readDirFails
    requires forall b :: b in files <==> b in Candidates(cfg, fs)
    ensures fs - RemovedPaths(files, Dir(cfg.fileName), Cutoff(cfg, now), faults) == ClearFiles(cfg, fs, now, faults)
  {
    var d := Dir(cfg.fileName);
    var cutoff := Cutoff(cfg, now);
    var left := fs - RemovedPaths(files, d, cutoff, faults);
    var right := ClearFiles(cfg, fs, now, faults);
    forall p | p in fs ensures p in left <==> p in right {
      ClearFilesRemoves(cfg, fs, now, faults, p);
      RemovedPathsMeaning(files, d, cutoff, faults, p);
      RemovedByCandidates(cfg, fs, now, faults, files, p);
    }
    assert left.Keys == right.Keys;
  }

  /** `p` is the path of one of `files` stamped before `cutoff` whose removal succeeds. */
  ghost predicate RemovedBy(files: seq<Backup>, d: string, cutoff: int, faults: Faults, p: string) {
    exists k :: 0 <= k < |files| && files[k].t < cutoff && JoinPath(d, files[k].name) == p && p !in faults.removeFails
  }

  /** Removing the listed backups stamped before the cutoff removes exactly
      the expired paths. */
  lemma RemovedByCandidates(cfg: Config, fs: FileSystem, now: int, faults: Faults, files: seq<Backup>, p: string)
    requires p in fs
    requires forall b :: b in files <==> b in Candidates(cfg, fs)
    ensures RemovedBy(files, Dir(cfg.fileName), Cutoff(cfg, now), faults, p) <==> Expired(cfg, fs, now, p) && p !in faults.removeFails
  {
    var d := Dir(cfg.fileName);
    var cutoff := Cutoff(cfg, now);
    if Expired(cfg, fs, now, p) && p !in faults.removeFails {
      var b := Backup(Base(p), BackupTime(cfg.fileName, Base(p)).value);
      assert b in Candidates(cfg, fs);
      var k :| 0 <= k < |files| && files[k] == b;
      assert JoinPath(d, files[k].name) == p;
    }
    if RemovedBy(files, d, cutoff, faults, p) {
      var k :| 0 <= k < |files| && files[k].t < cutoff && JoinPath(d, files[k].name) == p && p !in faults.removeFails;
      assert files[k] in Candidates(cfg, fs);
      var q :| q in fs && IsBackupPath(cfg, fs, q) && files[k] == Backup(Base(q), BackupTime(cfg.fileName, Base(q)).value);
      assert q == p;
    }
  }
}

=== FILE: tags.dfy ===
/** The tag filter (log/tags.go): a set of accepted tags parsed from a
    comma-separated configuration string, and the decision whether a tagged
    message passes and with which prefix. */
module Tags {

  import opened Text

  /** The prefix a passing tagged message carries. */
  function TagPrefix(tag: string): string {
    "[Tag:" + tag + "] "
  }

  /** `tags.GetTag`: an untagged message always passes without a prefix; a
      tagged one passes when the filter is empty or names the tag. */
  function GetTag(filter: set<string>, tag: string): (r: (string, bool))
    ensures tag == "" ==> r == ("", true)
    ensures tag != "" ==> (r.1 <==> (filter == {} || tag in filter))
    ensures tag != "" && r.1 ==> r.0 == TagPrefix(tag)
    ensures !r.1 ==> r.0 == ""
  {
    if tag == "" then ("", true)
    else if |filter| > 0 && tag !in filter then ("", false)
    else (TagPrefix(tag), true)
  }

  /** `parseTags`: the pieces between commas, untrimmed, empty pieces kept;
      the empty string gives the empty filter. */
  function ParseTags(s: string): (filter: set<string>)
    ensures s == "" ==> filter == {}
    ensures s != "" ==> forall t :: t in filter <==> t in Split(s, ',')
  {
    if |s| == 0 then {}
    else set t | t in Split(s, ',')
  }

  /** No accepted tag contains a comma, and the pieces rejoined give the configuration back. */
  lemma ParseTagsPieces(s: string)
    requires s != ""
    ensures forall t :: t in ParseTags(s) ==> ',' !in t
    ensures Join(Split(s, ','), ',') == s
  {
    JoinSplit(s, ',');
  }

  /** A configuration written as comma-joined comma-free tags parses to exactly
      those tags. */
  lemma ParseJoinedTags(tags: seq<string>)
    requires |tags| >= 1
    requires forall k :: 0 <= k < |tags| ==> ',' !in tags[k]
    requires Join(tags, ',') != ""
    ensures ParseTags(Join(tags, ',')) == set t | t in tags
  {
    SplitUnique(tags, Join(tags, ','), ',');
  }

  /** With the filter `{"sys"}` only `sys`-tagged and untagged messages pass. */
  lemma SingleTagFilter(tag: string)
    ensures GetTag(ParseTags("sys"), tag).1 <==> tag == "" || tag == "sys"
  {
    assert Split("sys", ',') == ["sys"] by { SplitNoSep("sys", ','); }
    assert ParseTags("sys") == {"sys"};
  }
}

=== FILE: text.dfy ===
/** The byte-string operations of Go's `strings` and `strconv` packages that the
    logger relies on, over ASCII text. */
module Text {

  import opened Wrappers

  /** `strings.HasPrefix`. */
  predicate HasPrefix(s: string, p: string) {
    p <= s
  }

  /** `strings.HasSuffix`. */
  predicate HasSuffix(s: string, x: string) {
    |x| <= |s| && s[|s| - |x|..] == x
  }

  /** True when `sub` occurs in `s` starting at index `i`. */
  predicate OccursAt(s: string, sub: string, i: int) {
    0 <= i && i + |sub| <= |s| && s[i..i + |sub|] == sub
  }

  /** `strings.Count` for a non-empty `sub`: the number of non-overlapping
      occurrences, matched leftmost first. */
  function Count(s: string, sub: string): (n: nat)
    requires |sub| > 0
    ensures n * |sub| <= |s|
    decreases |s|
  {
    if |s| < |sub| then 0
    else if sub <= s then 1 + Count(s[|sub|..], sub)
    else Count(s[1..], sub)
  }

  /** `strings.Count` is zero exactly when `sub` occurs nowhere in `s`. */
  lemma {:induction false} CountZero(s: string, sub: string)
    requires |sub| > 0
    ensures Count(s, sub) == 0 <==> forall i :: 0 <= i <= |s| ==> !OccursAt(s, sub, i)
    decreases |s|
  {
    if |s| < |sub| {
    } else if sub <= s {
      assert OccursAt(s, sub, 0);
    } else {
      CountZero(s[1..], sub);
      forall i | 1 <= i <= |s|
        ensures OccursAt(s, sub, i) <==> OccursAt(s[1..], sub, i - 1)
      {
        OccursShift(s, sub, i);
      }
      assert !OccursAt(s, sub, 0);
      assert Count(s, sub) == Count(s[1..], sub);
      if Count(s[1..], sub) != 0 {
        var j :| 0 <= j <= |s[1..]| && OccursAt(s[1..], sub, j);
        assert OccursAt(s, sub, j + 1);
      }
    }
  }

  /** Dropping the first character moves every occurrence one place left. */
  lemma OccursShift(s: string, sub: string, i: int)
    requires 1 <= i <= |s|
    ensures OccursAt(s, sub, i) <==> OccursAt(s[1..], sub, i - 1)
  {
    if i + |sub| <= |s| {
      assert s[i..i + |sub|] == s[1..][i - 1..i - 1 + |sub|];
    }
  }

  /** The first index at or after `from` at which `sub` occurs, if any. */
  function IndexFrom(s: string, sub: string, from: nat): (r: Option<nat>)
    requires from <= |s|
    ensures r.Some? ==> from <= r.value && OccursAt(s, sub, r.value)
    ensures r.Some? ==> forall j :: from <= j < r.value ==> !OccursAt(s, sub, j)
    ensures r.None? ==> forall j :: from <= j <= |s| ==> !OccursAt(s, sub, j)
    decreases |s| - from
  {
    if from + |sub| > |s| then None
    else if s[from..from + |sub|] == sub then Some(from)
    else IndexFrom(s, sub, from + 1)
  }

  /** `strings.Index`: the first occurrence of `sub` in `s`. */
  function IndexOf(s: string, sub: string): (r: Option<nat>)
    ensures r.Some? ==> OccursAt(s, sub, r.value) && forall j :: 0 <= j < r.value ==> !OccursAt(s, sub, j)
    ensures r.None? ==> forall j :: 0 <= j <= |s| ==> !OccursAt(s, sub, j)
  {
    IndexFrom(s, sub, 0)
  }

  /** `strings.Replace(s, target, repl, 1)`. An empty `target` matches at the very start. */
  function ReplaceFirst(s: string, target: string, repl: string): string {
    if target == repl then s
    else if target == "" then repl + s
    else match IndexOf(s, target)
      case None => s
      case Some(i) => s[..i] + repl + s[i + |target|..]
  }

  /** `strings.Split(s, string(sep))`: the pieces between separators, empty pieces kept. */
  function Split(s: string, sep: char): (parts: seq<string>)
    ensures |parts| >= 1
    ensures forall k :: 0 <= k < |parts| ==> sep !in parts[k]
    decreases |s|
  {
    if |s| == 0 then [""]
    else if s[0] == sep then [""] + Split(s[1..], sep)
    else
      var rest := Split(s[1..], sep);
      [[s[0]] + rest[0]] + rest[1..]
  }

  /** `strings.Join(parts, string(sep))`. */
  function Join(parts: seq<string>, sep: char): string
    requires |parts| >= 1
  {
    if |parts| == 1 then parts[0] else parts[0] + [sep] + Join(parts[1..], sep)
  }

  /** Joining the pieces of a split gives back the original text. */
  lemma {:induction false} JoinSplit(s: string, sep: char)
    ensures Join(Split(s, sep), sep) == s
    decreases |s|
  {
    if |s| == 0 {
    } else if s[0] == sep {
      JoinSplit(s[1..], sep);
      var rest := Split(s[1..], sep);
      assert Split(s, sep) == [""] + rest;
      assert (([""] + rest)[1..]) == rest;
      assert [s[0]] + s[1..] == s;
    } else {
      JoinSplit(s[1..], sep);
      var rest := Split(s[1..], sep);
      var parts := [[s[0]] + rest[0]] + rest[1..];
      assert Split(s, sep) == parts;
      if |rest| == 1 {
        assert Join(parts, sep) == [s[0]] + rest[0];
        assert [s[0]] + s[1..] == s;
      } else {
        assert parts[1..] == rest[1..];
        assert Join(rest, sep) == rest[0] + [sep] + Join(rest[1..], sep);
        assert Join(parts, sep) == ([s[0]] + rest[0]) + [sep] + Join(rest[1..], sep);
        assert [s[0]] + s[1..] == s;
      }
    }
  }

  /** Split is the only way to cut `s` into separator-free pieces: any list of
      separator-free pieces that joins to `s` is `Split(s, sep)`. */
  lemma {:induction false} SplitUnique(parts: seq<string>, s: string, sep: char)
    requires |parts| >= 1
    requires forall k :: 0 <= k < |parts| ==> sep !in parts[k]
    requires Join(parts, sep) == s
    ensures parts == Split(s, sep)
    decreases |s|, |parts[0]|
  {
    if |parts| == 1 {
      SplitNoSep(s, sep);
    } else if |parts[0]| == 0 {
      var tail := parts[1..];
      assert s == [sep] + Join(tail, sep);
      assert s[1..] == Join(tail, sep);
      SplitUnique(tail, s[1..], sep);
      assert parts == [""] + tail;
    } else {
      var p0 := parts[0];
      assert p0[0] != sep by { assert p0[0] in p0; }
      var shorter := [p0[1..]] + parts[1..];
      assert Join(shorter, sep) == p0[1..] + [sep] + Join(parts[1..], sep);
      assert s == [p0[0]] + Join(shorter, sep);
      assert s[0] == p0[0];
      assert s[1..] == Join(shorter, sep);
      assert forall k :: 0 <= k < |shorter| ==> sep !in shorter[k] by {
        forall k | 0 <= k < |shorter| ensures sep !in shorter[k] {
          if k == 0 {
            assert forall x :: x in p0[1..] ==> x in p0;
          } else {
            assert shorter[k] == parts[k];
          }
        }
      }
      SplitUnique(shorter, s[1..], sep);
      assert [p0[0]] + p0[1..] == p0;
      assert parts == [[s[0]] + shorter[0]] + shorter[1..];
    }
  }

  /** Text without a separator splits into itself alone. */
  lemma {:induction false} SplitNoSep(s: string, sep: char)
    requires sep !in s
    ensures Split(s, sep) == [s]
    decreases |s|
  {
    if |s| > 0 {
      assert s[0] != sep by { assert s[0] in s; }
      assert forall x :: x in s[1..] ==> x in s;
      SplitNoSep(s[1..], sep);
      assert [s[0]] + s[1..] == s;
    }
  }

  /** `unicode.ToLower` on the capitals whose small letter is ASCII: `A`-`Z`,
      the dotted capital I (U+0130, to `i`) and the Kelvin sign (U+212A, to
      `k`). Every other character is left as it is. */
  function LowerChar(c: char): char {
    if 'A' <= c <= 'Z' then (c as int - 'A' as int + 'a' as int) as char
    else if c == '\U{0130}' then 'i'
    else if c == '\U{212A}' then 'k'
    else c
  }

  /** `bytes.ToLower`, character by character. */
  function ToLower(s: string): (r: string)
    ensures |r| == |s|
    ensures forall k :: 0 <= k < |s| ==> r[k] == LowerChar(s[k])
  {
    seq(|s|, k requires 0 <= k < |s| => LowerChar(s[k]))
  }

  predicate IsDigit(c: char) {
    '0' <= c <= '9'
  }

  function DigitChar(d: nat): char
    requires d < 10
  {
    ('0' as int + d) as char
  }

  function DigitValue(c: char): nat
    requires IsDigit(c)
  {
    c as int - '0' as int
  }

  /** `strconv.Itoa` on a natural number: its decimal digits, no leading zero. */
  function Digits(n: nat): (r: string)
    ensures 1 <= |r|
    ensures forall k :: 0 <= k < |r| ==> IsDigit(r[k])
    decreases n
  {
    if n < 10 then [DigitChar(n)] else Digits(n / 10) + [DigitChar(n % 10)]
  }

  /** The number a string of decimal digits denotes. */
  function Value(s: string): nat
    requires forall k :: 0 <= k < |s| ==> IsDigit(s[k])
    decreases |s|
  {
    if |s| == 0 then 0 else 10 * Value(s[..|s| - 1]) + DigitValue(s[|s| - 1])
  }

  /** Reading back the digits of a number gives the number. */
  lemma {:induction false} ValueDigits(n: nat)
    ensures Value(Digits(n)) == n
    decreases n
  {
    if n >= 10 {
      ValueDigits(n / 10);
      var d := Digits(n);
      assert d[..|d| - 1] == Digits(n / 10);
    }
  }

  /** Go's `%d` rendering of an integer. */
  function Decimal(n: int): string {
    if n < 0 then "-" + Digits(-n) else Digits(n)
  }

  /** `t` is decimal text for `n`: digits, after a minus sign when `n` is
      negative. */
  predicate DenotesInt(t: string, n: int) {
    if n >= 0 then
      |t| >= 1 && (forall k :: 0 <= k < |t| ==> IsDigit(t[k])) && Value(t) == n
    else
      |t| >= 2 && t[0] == '-' && (forall k :: 0 <= k < |t| - 1 ==> IsDigit(t[1..][k])) && Value(t[1..]) == -n
  }

  /** `%d` text reads back as the number it renders. */
  lemma DecimalDenotes(n: int)
    ensures DenotesInt(Decimal(n), n)
  {
    if n >= 0 {
      ValueDigits(n);
    } else {
      ValueDigits(-n);
      assert Decimal(n)[1..] == Digits(-n);
    }
  }

  /** `n` zero-padded on the left to at least `width` digits, as Go's time
      formatting writes numeric fields. */
  function Padded(n: nat, width: nat): (r: string)
    ensures |r| == if |Digits(n)| < width then width else |Digits(n)|
    ensures forall k :: 0 <= k < |r| ==> IsDigit(r[k])
  {
    var d := Digits(n);
    if |d| < width then Zeros(width - |d|) + d else d
  }

  /** Leading zeros do not change the value of a digit string. */
  lemma {:induction false} ValueLeadingZeros(z: nat, d: string)
    requires forall k :: 0 <= k < |d| ==> IsDigit(d[k])
    ensures forall k :: 0 <= k < z + |d| ==> IsDigit((Zeros(z) + d)[k])
    ensures Value(Zeros(z) + d) == Value(d)
    decreases |d|
  {
    var s := Zeros(z) + d;
    assert forall k :: 0 <= k < z + |d| ==> IsDigit(s[k]) by {
      forall k | 0 <= k < z + |d| ensures IsDigit(s[k]) {
        if k >= z { assert s[k] == d[k - z]; }
      }
    }
    if |d| == 0 {
      ZerosValue(z);
      assert s == Zeros(z);
    } else {
      var d' := d[..|d| - 1];
      ValueLeadingZeros(z, d');
      assert s[..|s| - 1] == Zeros(z) + d';
    }
  }

  /** `z` zero digits. */
  function Zeros(z: nat): (r: string)
    ensures |r| == z
    ensures forall k :: 0 <= k < z ==> r[k] == '0'
  {
    seq(z, _ => '0')
  }

  /** A string of zeros denotes zero. */
  lemma {:induction false} ZerosValue(z: nat)
    ensures Value(Zeros(z)) == 0
    decreases z
  {
    if z > 0 {
      ZerosValue(z - 1);
      assert Zeros(z)[..z - 1] == Zeros(z - 1);
    }
  }

  /** Reading back a zero-padded number gives the number. */
  lemma ValuePadded(n: nat, width: nat)
    ensures Value(Padded(n, width)) == n
  {
    var d := Digits(n);
    ValueDigits(n);
    if |d| < width {
      ValueLeadingZeros(width - |d|, d);
    }
  }

  /** Numbers below `10^w` need at most `w` digits; this is the fact for the
      widths the time layouts use. */
  lemma DigitsLength(n: nat, w: nat)
    requires 1 <= w <= 4
    requires n < Pow10(w)
    ensures |Digits(n)| <= w
  {
    if n >= 10 {
      assert n / 10 < Pow10(w - 1);
      DigitsLength(n / 10, w - 1);
    }
  }

  function Pow10(w: nat): nat {
    if w == 0 then 1 else 10 * Pow10(w - 1)
  }
}

=== FILE: wrappers.dfy ===
/** Failure-carrying result types shared by every module of the model. */
module Wrappers {

  /** A value that may be absent: Go's `(v, ok)` pairs and nil pointers. */
  datatype Option<+T> = None | Some(value: T)

  /** A value or an error message: Go's `(v, err)` pairs. */
  datatype Result<+T> = Ok(value: T) | Err(msg: string)
}

=== FILE: zmap.dfy ===
/** `ZMap` (zmap/map.go): a lock-guarded Go map. Sequentially each operation
    is a pure update of a Dafny `map`; `reflect.DeepEqual` on values is `==`. */
module ZMap {

  import opened Wrappers

  /** `Load`: the value stored under `key`, if any. */
  function Load<K, V>(m: map<K, V>, key: K): (r: Option<V>)
    ensures r.Some? <==> key in m
    ensures r.Some? ==> r.value == m[key]
  {
    if key in m then Some(m[key]) else None
  }

  /** `Store`: `key` now maps to `value`; every other key is untouched. */
  function Store<K, V>(m: map<K, V>, key: K, value: V): (m': map<K, V>)
    ensures m'.Keys == m.Keys + {key}
    ensures m'[key] == value
    ensures forall k :: k in m && k != key ==> m'[k] == m[k]
  {
    m[key := value]
  }

  /** `Delete`: `key` is gone; every other key is untouched. */
  function Delete<K, V>(m: map<K, V>, key: K): (m': map<K, V>)
    ensures m'.Keys == m.Keys - {key}
    ensures forall k :: k in m' ==> m'[k] == m[k]
  {
    m - {key}
  }

  /** `LoadOrStore`: the existing value and `true` with the map unchanged, or
      the given value stored and returned with `false`. */
  function LoadOrStore<K, V>(m: map<K, V>, key: K, value: V): (r: (map<K, V>, V, bool))
    ensures r.2 <==> key in m
    ensures r.2 ==> r.0 == m && r.1 == m[key]
    ensures !r.2 ==> r.0 == Store(m, key, value) && r.1 == value
  {
    if key in m then (m, m[key], true) else (m[key := value], value, false)
  }

  /** `CompareAndSwap`: when `key` is present with a value equal to `expected`,
      set it to `replacement` and report `true`; otherwise change nothing and
      report `false`. (The comment above the source states the opposite;
      the code behaves as here.) */
  function CompareAndSwap<K, V(==)>(m: map<K, V>, key: K, expected: V, replacement: V): (r: (map<K, V>, bool))
    ensures r.1 <==> key in m && m[key] == expected
    ensures r.1 ==> r.0 == Store(m, key, replacement)
    ensures !r.1 ==> r.0 == m
  {
    if key !in m then (m, false)
    else if m[key] != expected then (m, false)
    else (m[key := replacement], true)
  }

  /** `CompareAndDelete`: remove `key` exactly when it holds `expected`. */
  function CompareAndDelete<K, V(==)>(m: map<K, V>, key: K, expected: V): (r: (map<K, V>, bool))
    ensures r.1 <==> key in m && m[key] == expected
    ensures r.1 ==> r.0 == Delete(m, key)
    ensures !r.1 ==> r.0 == m
  {
    if key !in m then (m, false)
    else if m[key] != expected then (m, false)
    else (m - {key}, true)
  }

  /** `LoadAndDelete`: the previous value, if any, and the map without `key`. */
  function LoadAndDelete<K, V>(m: map<K, V>, key: K): (r: (map<K, V>, Option<V>))
    ensures r.1 == Load(m, key)
    ensures key !in r.0
    ensures r.0 == Delete(m, key)
  {
    if key in m then (m - {key}, Some(m[key])) else (m, None)
  }

  /** `Len`: the number of keys. */
  function Len<K, V>(m: map<K, V>): (n: nat)
    ensures n == |m.Keys|
  {
    |m|
  }

  /** No element appears twice. */
  ghost predicate Distinct<T>(s: seq<T>) {
    forall i, j :: 0 <= i < j < |s| ==> s[i] != s[j]
  }

  /** `Keys`: every key once, in the map's iteration order. */
  method Keys<K, V>(m: map<K, V>) returns (keys: seq<K>)
    ensures Distinct(keys)
    ensures forall k :: k in keys <==> k in m
    ensures |keys| == Len(m)
  {
    var rest := m.Keys;
    keys := [];
    while rest != {}
      invariant rest <= m.Keys
      invariant Distinct(keys)
      invariant forall k :: k in keys <==> k in m && k !in rest
      invariant |keys| + |rest| == |m.Keys|
      decreases |rest|
    {
      var k :| k in rest;
      keys := keys + [k];
      rest := rest - {k};
    }
  }

  /** `Values`: one value per key, in the map's iteration order; `order` is
      that order of keys. */
  method Values<K, V>(m: map<K, V>) returns (values: seq<V>, ghost order: seq<K>)
    ensures |values| == Len(m)
    ensures forall k :: k in m ==> m[k] in values
    ensures |order| == |values| && Distinct(order) && forall k :: k in order <==> k in m
    ensures forall i :: 0 <= i < |values| ==> order[i] in m && values[i] == m[order[i]]
  {
    var rest := m.Keys;
    values, order := [], [];
    while rest != {}
      invariant rest <= m.Keys
      invariant |order| == |values| && Distinct(order)
      invariant forall k :: k in order <==> k in m && k !in rest
      invariant forall i :: 0 <= i < |values| ==> order[i] in m && values[i] == m[order[i]]
      invariant |order| + |rest| == |m.Keys|
      decreases |rest|
    {
      var k :| k in rest;
      values, order := values + [m[k]], order + [k];
      rest := rest - {k};
    }
    forall k | k in m ensures m[k] in values {
      var i :| 0 <= i < |order| && order[i] == k;
      assert values[i] == m[k];
    }
  }

  /** `Clone`: copy every entry into a fresh map. */
  method Clone<K, V>(m: map<K, V>) returns (c: map<K, V>)
    ensures c == m
  {
    var rest := m.Keys;
    c := map[];
    while rest != {}
      invariant rest <= m.Keys
      invariant c.Keys == m.Keys - rest
      invariant forall k :: k in c ==> c[k] == m[k]
      decreases |rest|
    {
      var k :| k in rest;
      c := c[k := m[k]];
      rest := rest - {k};
    }
  }

  // ---------------------------------------------------------------------------
  // Properties

  /** A stored value loads back, and other keys load as before. */
  lemma StoreThenLoad<K, V>(m: map<K, V>, key: K, value: V, other: K)
    ensures Load(Store(m, key, value), key) == Some(value)
    ensures other != key ==> Load(Store(m, key, value), other) == Load(m, other)
    ensures Len(Store(m, key, value)) == if key in m then Len(m) else Len(m) + 1
  {
  }

  /** A deleted key no longer loads; the count drops by one exactly when it was present. */
  lemma DeleteThenLoad<K, V>(m: map<K, V>, key: K, other: K)
    ensures Load(Delete(m, key), key) == None
    ensures other != key ==> Load(Delete(m, key), other) == Load(m, other)
    ensures Len(Delete(m, key)) == if key in m then Len(m) - 1 else Len(m)
  {
  }

  /** After `LoadOrStore` the key loads the value it returned, and a second
      call with any value loads the same without changing the map. */
  lemma LoadOrStoreSettles<K, V>(m: map<K, V>, key: K, v1: V, v2: V)
    ensures var (m1, a1, _) := LoadOrStore(m, key, v1);
      && Load(m1, key) == Some(a1)
      && LoadOrStore(m1, key, v2) == (m1, a1, true)
  {
  }

  /** Swapping back undoes a successful swap. */
  lemma CompareAndSwapBack<K, V>(m: map<K, V>, key: K, expected: V, replacement: V)
    requires key in m && m[key] == expected
    ensures var (m1, ok1) := CompareAndSwap(m, key, expected, replacement);
      ok1 && CompareAndSwap(m1, key, replacement, expected) == (m, true)
  {
    var m1 := m[key := replacement];
    assert m1[key := expected] == m;
  }

  /** `CompareAndDelete` succeeds exactly when `LoadAndDelete` would have
      returned the expected value, and then leaves the same map. */
  lemma CompareAndDeleteIsGuardedLoadAndDelete<K, V>(m: map<K, V>, key: K, expected: V)
    ensures CompareAndDelete(m, key, expected).1 <==> LoadAndDelete(m, key).1 == Some(expected)
    ensures CompareAndDelete(m, key, expected).1 ==> CompareAndDelete(m, key, expected).0 == LoadAndDelete(m, key).0
  {
  }
}

=== FILE: zset.dfy ===
/** `Set` (set/set.go): a concurrent map of members plus an `atomic.Int32`
    counter that `Add` and `Remove` adjust. Sequentially the counter is the
    member count reduced to 32-bit two's complement. */
module ZSet {

  import opened Arith

  const Two31: int := 0x8000_0000
  const Two32: int := 0x1_0000_0000

  /** An integer reduced to the `int32` range, wrapping around as Go's atomic
      add does. */
  function Wrap32(n: int): (r: int)
    ensures -Two31 <= r < Two31
  {
    (n + Two31) % Two32 - Two31
  }

  /** Values already in range are unchanged. */
  lemma WrapInRange(n: int)
    requires -Two31 <= n < Two31
    ensures Wrap32(n) == n
  {
    ModUnique(n + Two31, Two32, 0, n + Two31);
  }

  /** Wrapping before an addition or after it gives the same result. */
  lemma WrapAdd(a: int, b: int)
    ensures Wrap32(Wrap32(a) + b) == Wrap32(a + b)
  {
    var q := (a + Two31) / Two32;
    assert Wrap32(a) == a - Two32 * q;
    var x := a + b + Two31;
    var Q, R := x / Two32, x % Two32;
    assert x - Two32 * q == Two32 * (Q - q) + R;
    ModUnique(x - Two32 * q, Two32, Q - q, R);
  }

  /** The members and the counter. */
  datatype ZSet<T> = ZSet(members: set<T>, num: int)

  /** The counter tracks the number of members, modulo 2^32. */
  predicate Inv<T>(s: ZSet<T>) {
    s.num == Wrap32(|s.members|)
  }

  /** `New`: no members, counter zero. */
  function New<T>(): (s: ZSet<T>)
    ensures s.members == {} && Inv(s)
  {
    ZSet({}, 0)
  }

  /** `Add`: store the item; count it only when it was not there before. */
  function Add<T(==)>(s: ZSet<T>, item: T): (r: ZSet<T>)
    ensures r.members == s.members + {item}
    ensures Inv(s) ==> Inv(r)
  {
    if item in s.members then s
    else
      WrapAdd(|s.members|, 1);
      ZSet(s.members + {item}, Wrap32(s.num + 1))
  }

  /** `Remove`: delete the item; uncount it only when it was there. */
  function Remove<T(==)>(s: ZSet<T>, item: T): (r: ZSet<T>)
    ensures r.members == s.members - {item}
    ensures Inv(s) ==> Inv(r)
  {
    if item !in s.members then s
    else
      WrapAdd(|s.members|, -1);
      assert |s.members - {item}| == |s.members| - 1;
      ZSet(s.members - {item}, Wrap32(s.num - 1))
  }

  /** `Has`. */
  function Has<T(==)>(s: ZSet<T>, item: T): (ok: bool)
    ensures ok <==> item in s.members
  {
    item in s.members
  }

  /** `Len`: the counter as a Go `int`. */
  function Len<T>(s: ZSet<T>): (n: int)
    ensures Inv(s) ==> n == Wrap32(|s.members|)
    ensures Inv(s) && |s.members| < Two31 ==> n == |s.members|
  {
    CounterExact(s);
    s.num
  }

  /** Below 2^31 members the counter holds the member count itself. */
  lemma CounterExact<T>(s: ZSet<T>)
    ensures Inv(s) && |s.members| < Two31 ==> s.num == |s.members|
  {
    if Inv(s) && |s.members| < Two31 {
      WrapInRange(|s.members|);
    }
  }

  /** `IsEmpty`: the counter reads zero. */
  function IsEmpty<T>(s: ZSet<T>): (empty: bool)
    ensures empty <==> Len(s) == 0
  {
    s.num == 0
  }

  /** `Clear`: remove every member, one `Remove` at a time. */
  method Clear<T(==)>(s: ZSet<T>) returns (r: ZSet<T>)
    requires Inv(s)
    ensures r.members == {} && Inv(r)
    ensures Len(r) == 0 && IsEmpty(r)
  {
    r := s;
    while r.members != {}
      invariant Inv(r)
      invariant r.members <= s.members
      decreases |r.members|
    {
      var k :| k in r.members;
      r := Remove(r, k);
    }
    WrapInRange(0);
  }

  /** No element appears twice. */
  ghost predicate Distinct<T>(s: seq<T>) {
    forall i, j :: 0 <= i < j < |s| ==> s[i] != s[j]
  }

  /** `List`: every member once, in iteration order. */
  method List<T(==)>(s: ZSet<T>) returns (list: seq<T>)
    ensures Distinct(list)
    ensures forall x :: x in list <==> x in s.members
    ensures |list| == |s.members|
  {
    var rest := s.members;
    list := [];
    while rest != {}
      invariant rest <= s.members
      invariant Distinct(list)
      invariant forall x :: x in list <==> x in s.members && x !in rest
      invariant |list| + |rest| == |s.members|
      decreases |rest|
    {
      var x :| x in rest;
      list := list + [x];
      rest := rest - {x};
    }
  }

  // ---------------------------------------------------------------------------
  // Properties

  /** Adding a new item counts one more; adding an existing one changes nothing. */
  lemma AddCounts<T>(s: ZSet<T>, item: T)
    requires Inv(s) && |s.members| + 1 < Two31
    ensures Len(Add(s, item)) == if item in s.members then Len(s) else Len(s) + 1
    ensures Has(Add(s, item), item)
  {
  }

  /** Removing a present item counts one fewer; removing an absent one changes nothing. */
  lemma RemoveCounts<T>(s: ZSet<T>, item: T)
    requires Inv(s) && |s.members| < Two31
    ensures Len(Remove(s, item)) == if item in s.members then Len(s) - 1 else Len(s)
    ensures !Has(Remove(s, item), item)
    ensures Remove(Add(s, item), item).members == s.members - {item}
  {
  }

  /** While the member count fits, the set is empty exactly when it has no members. */
  lemma EmptyIffNoMembers<T>(s: ZSet<T>)
    requires Inv(s) && |s.members| < Two31
    ensures IsEmpty(s) <==> s.members == {}
  {
  }

  /** The counter is 32 bits wide: the 2^31st member makes `Len` negative. */
  lemma CounterWraps<T>(s: ZSet<T>, item: T)
    requires Inv(s) && |s.members| == Two31 - 1 && item !in s.members
    ensures Inv(Add(s, item)) && Len(Add(s, item)) == -Two31
  {
    ModUnique(Two32, Two32, 1, 0);
  }
}

=== FILE: zslice.dfy ===
/** `Slice` (zslice/slice.go): a lock-guarded Go slice. Sequentially each
    operation is a function of the current contents, a Dafny `seq`; the
    callbacks the source takes are total Dafny functions. */
module ZSlice {

  import opened Wrappers

  /** The elements of `s` that satisfy `p`, in order. */
  function Filter<T>(s: seq<T>, p: T -> bool): (r: seq<T>)
    ensures |r| <= |s|
    decreases |s|
  {
    if |s| == 0 then []
    else (if p(s[0]) then [s[0]] else []) + Filter(s[1..], p)
  }

  /** The elements of `s` that do not satisfy `p`, in order. */
  function Reject<T>(s: seq<T>, p: T -> bool): (r: seq<T>)
    ensures |r| <= |s|
    decreases |s|
  {
    if |s| == 0 then []
    else (if p(s[0]) then [] else [s[0]]) + Reject(s[1..], p)
  }

  /** `Append`: one more element, at the end. */
  function Append<T>(s: seq<T>, item: T): (r: seq<T>)
    ensures |r| == |s| + 1 && r[..|s|] == s && r[|s|] == item
  {
    s + [item]
  }

  /** `Get`: the element at `index`, or nothing out of range (Go's zero value). */
  function Get<T>(s: seq<T>, index: int): (r: Option<T>)
    ensures r.Some? <==> 0 <= index < |s|
    ensures r.Some? ==> r.value == s[index]
  {
    if index < 0 || index >= |s| then None else Some(s[index])
  }

  /** `Set`: overwrite one in-range element; out of range nothing changes. */
  function Set<T>(s: seq<T>, index: int, item: T): (r: (seq<T>, bool))
    ensures r.1 <==> 0 <= index < |s|
    ensures |r.0| == |s|
    ensures !r.1 ==> r.0 == s
    ensures r.1 ==> r.0[index] == item && forall k :: 0 <= k < |s| && k != index ==> r.0[k] == s[k]
  {
    if index < 0 || index >= |s| then (s, false) else (s[index := item], true)
  }

  /** `Len`. */
  function Len<T>(s: seq<T>): (n: nat)
    ensures n == |s|
  {
    |s|
  }

  /** `Delete`: remove the element at an in-range index, keeping the order of
      the rest; out of range nothing changes. */
  function Delete<T>(s: seq<T>, index: int): (r: (seq<T>, bool))
    ensures r.1 <==> 0 <= index < |s|
    ensures !r.1 ==> r.0 == s
    ensures r.1 ==> |r.0| == |s| - 1
    ensures r.1 ==> forall k :: 0 <= k < index ==> r.0[k] == s[k]
    ensures r.1 ==> forall k :: index <= k < |r.0| ==> r.0[k] == s[k + 1]
  {
    if index < 0 || index >= |s| then (s, false) else (s[..index] + s[index + 1..], true)
  }

  /** `DeleteBy`: walk from the last index down, deleting every element that
      `equal` accepts; returns the new contents and how many were deleted. */
  method DeleteBy<T>(s: seq<T>, equal: T -> bool) returns (r: seq<T>, count: nat)
    ensures r == Reject(s, equal)
    ensures count == |Filter(s, equal)|
    ensures count + |r| == |s|
  {
    r := s;
    count := 0;
    var i := |s|;
    while i > 0
      invariant 0 <= i <= |s|
      invariant r == s[..i] + Reject(s[i..], equal)
      invariant count == |Filter(s[i..], equal)|
      invariant count + |r| == |s|
    {
      i := i - 1;
      DeleteByStep(s, i, r, equal);
      if equal(s[i]) {
        r := r[..i] + r[i + 1..];
        count := count + 1;
      }
    }
    assert s[0..] == s;
  }

  /** `Filter` and `Reject` of a sequence with one more element in front. */
  lemma FilterCons<T>(x: T, t: seq<T>, p: T -> bool)
    ensures Filter([x] + t, p) == (if p(x) then [x] else []) + Filter(t, p)
    ensures Reject([x] + t, p) == (if p(x) then [] else [x]) + Reject(t, p)
  {
    assert ([x] + t)[1..] == t;
  }

  /** One iteration of `DeleteBy` at index `i`: deleting `s[i]` exactly when
      `equal` accepts it extends the rejected suffix by one position. */
  lemma DeleteByStep<T>(s: seq<T>, i: nat, r: seq<T>, equal: T -> bool)
    requires i < |s|
    requires r == s[..i + 1] + Reject(s[i + 1..], equal)
    ensures equal(s[i]) ==> r[..i] + r[i + 1..] == s[..i] + Reject(s[i..], equal)
    ensures !equal(s[i]) ==> r == s[..i] + Reject(s[i..], equal)
    ensures |Filter(s[i..], equal)| == |Filter(s[i + 1..], equal)| + if equal(s[i]) then 1 else 0
  {
    var tail := s[i + 1..];
    assert s[i..] == [s[i]] + tail;
    FilterCons(s[i], tail, equal);
    assert s[..i + 1] == s[..i] + [s[i]];
    if equal(s[i]) {
      assert r[..i] == s[..i];
      assert r[i + 1..] == Reject(tail, equal);
    } else {
      assert r == s[..i] + ([s[i]] + Reject(tail, equal));
    }
  }

  /** `Range`: call `f` on each index and element in order until it returns
      false; returns the index at which it stopped, if it did. */
  method Range<T>(s: seq<T>, f: (int, T) -> bool) returns (stoppedAt: Option<nat>)
    ensures stoppedAt.None? ==> forall k :: 0 <= k < |s| ==> f(k, s[k])
    ensures stoppedAt.Some? ==> stoppedAt.value < |s| && !f(stoppedAt.value, s[stoppedAt.value])
    ensures stoppedAt.Some? ==> forall k :: 0 <= k < stoppedAt.value ==> f(k, s[k])
  {
    var i := 0;
    while i < |s|
      invariant 0 <= i <= |s|
      invariant forall k :: 0 <= k < i ==> f(k, s[k])
    {
      if !f(i, s[i]) {
        return Some(i);
      }
      i := i + 1;
    }
    return None;
  }

  /** `ToSlice`: copy the elements into a fresh slice. */
  method ToSlice<T>(s: seq<T>) returns (r: seq<T>)
    ensures r == s
  {
    r := [];
    var i := 0;
    while i < |s|
      invariant 0 <= i <= |s|
      invariant r == s[..i]
    {
      r := r + [s[i]];
      i := i + 1;
    }
    assert s[..i] == s;
  }

  /** `less` is irreflexive and transitive, as the strict weak order that
      `sort.Slice` expects must be. */
  ghost predicate StrictOrder<T(!new)>(less: (T, T) -> bool) {
    && (forall a :: !less(a, a))
    && (forall a, b, c :: less(a, b) && less(b, c) ==> less(a, c))
  }

  /** No later element is less than an earlier one. */
  ghost predicate SortedBy<T>(s: seq<T>, less: (T, T) -> bool) {
    forall i, j :: 0 <= i < j < |s| ==> !less(s[j], s[i])
  }

  /** Put `x` before the first element it is less than. */
  function Insert<T>(x: T, s: seq<T>, less: (T, T) -> bool): (r: seq<T>)
    ensures multiset(r) == multiset(s) + multiset{x}
    ensures |r| == |s| + 1
    decreases |s|
  {
    if |s| == 0 then [x]
    else if less(x, s[0]) then [x] + s
    else
      assert s == [s[0]] + s[1..];
      [s[0]] + Insert(x, s[1..], less)
  }

  /** Inserting into a sorted sequence keeps it sorted, for a strict order `less`. */
  lemma {:induction false} InsertSorted<T(!new)>(x: T, s: seq<T>, less: (T, T) -> bool)
    requires StrictOrder(less) && SortedBy(s, less)
    ensures SortedBy(Insert(x, s, less), less)
    decreases |s|
  {
    if |s| == 0 {
    } else if less(x, s[0]) {
      var r := [x] + s;
      forall i, j | 0 <= i < j < |r| ensures !less(r[j], r[i]) {
        if i == 0 {
          assert r[j] == s[j - 1];
        } else {
          assert r[i] == s[i - 1] && r[j] == s[j - 1];
        }
      }
    } else {
      var tail := s[1..];
      InsertSorted(x, tail, less);
      var rest := Insert(x, tail, less);
      var r := [s[0]] + rest;
      forall i, j | 0 <= i < j < |r| ensures !less(r[j], r[i]) {
        if i == 0 {
          assert r[j] == rest[j - 1];
          assert r[j] in multiset(rest);
          assert r[j] == x || r[j] in multiset(tail);
          if r[j] != x {
            var k :| 0 <= k < |tail| && tail[k] == r[j];
            assert s[k + 1] == r[j];
          }
        } else {
          assert r[i] == rest[i - 1] && r[j] == rest[j - 1];
        }
      }
    }
  }

  /** `Sort`: insertion sort by `less`. */
  function Sort<T>(s: seq<T>, less: (T, T) -> bool): (r: seq<T>)
    ensures multiset(r) == multiset(s)
    ensures |r| == |s|
    decreases |s|
  {
    if |s| == 0 then []
    else
      assert s == [s[0]] + s[1..];
      Insert(s[0], Sort(s[1..], less), less)
  }

  /** The sorted result is ordered whenever `less` is a strict order. */
  lemma {:induction false} SortSorted<T(!new)>(s: seq<T>, less: (T, T) -> bool)
    requires StrictOrder(less)
    ensures SortedBy(Sort(s, less), less)
    decreases |s|
  {
    if |s| > 0 {
      SortSorted(s[1..], less);
      InsertSorted(s[0], Sort(s[1..], less), less);
    }
  }

  /** `Find`: the first element `pred` accepts, if any. */
  method Find<T>(s: seq<T>, pred: T -> bool) returns (r: Option<T>)
    ensures r.None? <==> forall k :: 0 <= k < |s| ==> !pred(s[k])
    ensures r.Some? ==> exists i :: (0 <= i < |s| && s[i] == r.value && pred(s[i])
      && forall k :: 0 <= k < i ==> !pred(s[k]))
  {
    var i := 0;
    while i < |s|
      invariant 0 <= i <= |s|
      invariant forall k :: 0 <= k < i ==> !pred(s[k])
    {
      if pred(s[i]) {
        return Some(s[i]);
      }
      i := i + 1;
    }
    return None;
  }

  /** `FindAll`: the elements `pred` accepts, in order. */
  method FindAll<T>(s: seq<T>, pred: T -> bool) returns (r: seq<T>)
    ensures r == Filter(s, pred)
  {
    r := [];
    var i := |s|;
    while i > 0
      invariant 0 <= i <= |s|
      invariant r == Filter(s[i..], pred)
    {
      i := i - 1;
      assert s[i..] == [s[i]] + s[i + 1..];
      if pred(s[i]) {
        r := [s[i]] + r;
      }
    }
    assert s[0..] == s;
  }

  /** `Count`: how many elements `pred` accepts. */
  method Count<T>(s: seq<T>, pred: T -> bool) returns (n: nat)
    ensures n == |Filter(s, pred)|
  {
    n := 0;
    var i := |s|;
    while i > 0
      invariant 0 <= i <= |s|
      invariant n == |Filter(s[i..], pred)|
    {
      i := i - 1;
      assert s[i..] == [s[i]] + s[i + 1..];
      if pred(s[i]) {
        n := n + 1;
      }
    }
    assert s[0..] == s;
  }

  // ---------------------------------------------------------------------------
  // Properties

  /** `Filter` keeps exactly the elements `p` accepts and `Reject` exactly
      those it refuses. */
  lemma {:induction false} FilterMembers<T>(s: seq<T>, p: T -> bool, x: T)
    ensures x in Filter(s, p) <==> x in s && p(x)
    ensures x in Reject(s, p) <==> x in s && !p(x)
    decreases |s|
  {
    if |s| > 0 {
      var t := s[1..];
      assert s == [s[0]] + t;
      FilterMembers(t, p, x);
      FilterCons(s[0], t, p);
    }
  }

  /** Every element is either kept by a filter or by the opposite filter, so
      the two lengths add up to the whole. */
  lemma {:induction false} FilterSplit<T>(s: seq<T>, p: T -> bool)
    ensures multiset(Filter(s, p)) + multiset(Reject(s, p)) == multiset(s)
    ensures |Filter(s, p)| + |Reject(s, p)| == |s|
    decreases |s|
  {
    if |s| > 0 {
      var t := s[1..];
      assert s == [s[0]] + t;
      FilterSplit(t, p);
      FilterCons(s[0], t, p);
      var x := multiset{s[0]};
      assert multiset(s) == x + multiset(t);
      if p(s[0]) {
        assert multiset(Filter(s, p)) == x + multiset(Filter(t, p));
        assert multiset(Reject(s, p)) == multiset(Reject(t, p));
      } else {
        assert multiset(Filter(s, p)) == multiset(Filter(t, p));
        assert multiset(Reject(s, p)) == x + multiset(Reject(t, p));
      }
    }
    assert |multiset(Filter(s, p))| == |Filter(s, p)|;
  }

  /** Getting what was just set gives it back; deleting an element shortens by one. */
  lemma SetThenGet<T>(s: seq<T>, index: int, item: T)
    requires 0 <= index < |s|
    ensures Get(Set(s, index, item).0, index) == Some(item)
    ensures Len(Delete(s, index).0) == Len(s) - 1
  {
  }

  /** `Delete` at `i` of what `Append` added last restores the original. */
  lemma AppendThenDelete<T>(s: seq<T>, item: T)
    ensures Delete(Append(s, item), |s|) == (s, true)
    ensures Get(Append(s, item), |s|) == Some(item)
  {
    var a := Append(s, item);
    assert a[..|s|] == s;
    assert a[|s| + 1..] == [];
    assert s + [] == s;
  }
}
